=== FILE: README.md ===
# EcoLimpio core, modelled in Dafny

EcoLimpio is a Next.js site for a cleaning business. Customers book services and send
messages. Staff and administrators sign in to an admin panel that lives behind a
per-session access hash in the URL (`/{hash}/admin/…`). This project models the parts of
the code that decide things:

- **Paths and edge routing.** The access-hash path scheme (`lib/session-hash.ts`) and the
  edge router (`middleware.ts`).
- **Sessions.** Their lifecycle: login, validation with lazy deletion of expired
  sessions, the role guards, `/api/auth/me`, `/api/bookings/my` and logout.
- **Counters.** The fixed-window rate limiter, the email lockout and the per-phone
  lockout.
- **Phone codes.** The verification-code store: send, verify, and sign-up with a booking.
- **Validators.** The request validators and sanitisation of the booking, contact,
  profile and customer-search endpoints, the statistics endpoint, and the password policy.
- **Small pure computations.** Hostnames, E.164 numbers and the admin-creation script.
- **Client-side state machines.** The price calculator, the booking wizard, the contact
  form, the admin pages and the hash-aware admin navigation.

Every handler is a pure function from a state, the current time and its inputs to a
response and a new state. The stores are immutable sequences and maps.

Things the code does not compute are parameters. These include bcrypt's verdict and hashes, nanoid's
random bytes, `Math.random`, the reCAPTCHA reply, `Date` parsing, environment variables
and server answers. Time is an integer number of milliseconds.

Modules follow the source files:

| module | source |
|---|---|
| `Text`, `Collections` | string and list helpers (JavaScript `trim`, `split`, `toLowerCase`; Prisma `findMany`/`count`/`orderBy`/`take`) |
| `SessionHash` | lib/session-hash.ts |
| `Middleware` | middleware.ts |
| `Auth` | lib/auth.ts and the password policy of lib/auth-guard.ts |
| `RateLimit` | lib/rate-limit.ts |
| `Db` | the stored records and the schema's uniqueness guarantees |
| `Sessions` | lib/auth-guard.ts, app/api/auth/me, app/api/auth/logout, app/api/bookings/my |
| `Validation` | email, phone and `sanitize` predicates shared by the routes |
| `Login` | app/api/auth/login/route.ts |
| `PhoneCodes` | app/api/auth/send-code and verify-code |
| `Bookings`, `Signup`, `Contacts`, `Profile`, `Customers`, `Stats` | the corresponding API routes |
| `Subdomain`, `Sms`, `CreateAdmin` | lib/subdomain.ts, lib/sms.ts, scripts/create-admin.ts |
| `PriceCalculator`, `BookingForm`, `ContactForm` | the public components |
| `AdminPages`, `AdminNav` | app/admin/*/page.tsx and components/admin/AdminSidebar.tsx |

## Model

| member | source | states |
|---|---|---|
| SessionHash.Nanoid | lib/session-hash.ts:8-10 | nanoid yields exactly one URL-alphabet character per random byte |
| SessionHash.GenerateSessionHash | lib/session-hash.ts:3-10 | a generated hash has 8 characters and passes the hash-format check |
| SessionHash.ExtractHashFromPath | lib/session-hash.ts:18-22 | an extracted hash is well-formed, the path is `/` + hash + rest, and the rest is empty or starts with `/` |
| SessionHash.ExtractRoundTrip | lib/session-hash.ts:20 | for a valid hash and an empty or `/`-led suffix, extraction from `/` + hash + suffix gives that hash back |
| SessionHash.ExtractComplete | lib/session-hash.ts:18-22 | when extraction fails, the path has no `/{hash}` or `/{hash}/…` shape |
| SessionHash.ConstructShape | lib/session-hash.ts:57-65 | the URL is origin + `/` + hash + path; a leading `/` is added to the path only when it is missing |
| SessionHash.ConstructAddsSlash | lib/session-hash.ts:62 | `x` and `/x` build the same URL |
| SessionHash.ConstructThenExtract | lib/session-hash.ts:62-64 | the path of a built URL extracts to the hash it was built with |
| Middleware.Route | middleware.ts:5-51 | without a hash, only `/admin…` and `/dashboard` are redirected to login; with a hash, no cookie means a redirect; with a cookie the request is rewritten exactly when the remainder is `/admin…` or `/dashboard…`; a rewrite strips exactly `/{hash}` and reports the hash in the header |
| Middleware.FormatRedirectUnreachable | middleware.ts:22-24 | the format re-check never fires: every redirect of a hash path is due to a missing cookie or an unprotected remainder |
| Middleware.RouteIgnoresTokenValue | middleware.ts:27-30 | the decision depends only on the path and on whether a cookie is present, not on its value |
| Middleware.AnyHashIsRewritten | middleware.ts:33-51 | any well-formed hash in front of a protected path is rewritten for any cookie; the hash is never paired with a session |
| Middleware.Edge | middleware.ts:55-66 | paths the matcher excludes pass through; every other path is routed |
| Middleware.ExcludedPrefixHashPassesThrough | middleware.ts:66 | a hash that merely begins with an excluded word such as `api` or `login` turns routing off for its whole path |
| Middleware.ImagePathsPassThrough | middleware.ts:66 | image paths are never intercepted, even under a hash |
| Auth.GetSessionExpiry | lib/auth.ts:41-45 | an expiry is never before the issue time, and a session is not expired at the moment it is issued |
| Auth.SessionLifetime | lib/auth.ts:52-54 | a default session is valid up to and including issue + 7 days, and expired strictly after |
| Auth.GenerateSessionToken | lib/auth.ts:28-34 | a session token has 32 characters |
| Auth.ViolatedRules | lib/auth-guard.ts:149-172 | the violated rules are listed exactly, each once, in the order length, upper, lower, digit |
| Auth.Messages | lib/auth-guard.ts:149-172 | one message per violated rule, position by position |
| Auth.ValidatePassword | lib/auth-guard.ts:149-172 | valid iff there are no errors, iff the password has 8+ characters, an upper-case letter, a lower-case letter and a digit; each rule's message appears iff that rule is violated |
| Auth.MessagesListRules | lib/auth-guard.ts:149-172 | messages that tell the rules apart name exactly the rules in the list |
| Auth.GuardMessageInjective | lib/auth-guard.ts:152-167 | different rules have different messages |
| Auth.CuidShape | lib/auth-guard.ts:179-182 | a cuid is exactly 25 characters: `c` followed by lower-case letters or digits |
| RateLimit.CeilDiv | lib/rate-limit.ts:80 | `Math.ceil(a / b)` is the least multiple count covering `a` |
| RateLimit.CheckRateLimit | lib/rate-limit.ts:54-94 | a missing or elapsed entry opens a window counting this call; at the limit the call is denied and nothing changes; below it the count grows by one; no other key changes |
| RateLimit.RetryAfterNonNegative | lib/rate-limit.ts:76-84 | a denial's wait is non-negative, and zero only at the reset instant |
| RateLimit.CheckPreservesBound | lib/rate-limit.ts:62-94 | with a positive limit, no stored count ever exceeds it |
| RateLimit.RunInsideWindow | lib/rate-limit.ts:76-94 | inside an open window, at most `max - count` more calls are allowed and the window is never extended |
| RateLimit.AtMostMaxPerWindow | lib/rate-limit.ts:62-94 | a run of calls within one window gets at most `max` allowances |
| RateLimit.GetClientIP | lib/rate-limit.ts:36-49 | the first forwarded address trimmed, else `x-real-ip`, else `unknown` |
| RateLimit.ClientIPShape | lib/rate-limit.ts:39-42 | a forwarded client IP has no comma and no surrounding white space |
| RateLimit.RateKeysSeparate | lib/rate-limit.ts:100-108 | different endpoints never share a bucket key |
| RateLimit.RateLimitByIP | lib/rate-limit.ts:100-108 | the client's own `endpoint:ip` bucket decides: denied exactly when that window is open and full, and then nothing changes; allowed counts one more request there; every other bucket is left as it was |
| RateLimit.OtherClientsUnaffected | lib/rate-limit.ts:100-108 | one client's request never changes the verdict another client with a different IP gets on the same endpoint |
| RateLimit.LimitersUseSeparateBuckets | lib/rate-limit.ts:113-148 | the five named limiters use five different buckets for the same client |
| RateLimit.PolicyTable | lib/rate-limit.ts:113-148 | the windows and limits: login 15 min/5, SMS 10 min/3, contact 1 h/5, booking 1 h/10, api 1 min/100 |
| RateLimit.Cleanup | lib/rate-limit.ts:12-19 | cleanup drops exactly the elapsed entries and keeps the others unchanged |
| RateLimit.CleanupUnobservable | lib/rate-limit.ts:12-19 | cleanup never changes a later verdict: an elapsed entry behaves as a missing one |
| RateLimit.MinutesLeft | lib/rate-limit.ts:165-168 | an active lock reports at least one minute |
| RateLimit.RecordFailure | lib/rate-limit.ts:177-190 | the fifth and later failures lock for 15 minutes; earlier ones report the attempts left |
| RateLimit.TrackLoginAttempt | lib/rate-limit.ts:156-190 | while locked every call, even a success, reports the lock and changes nothing; otherwise a success forgets the email and a failure is recorded; other emails are untouched |
| RateLimit.IsAccountLocked | lib/rate-limit.ts:196-207 | locked iff now is before the lock's end, with the minutes left |
| RateLimit.ExpiredLockRelocksOnNextFailure | lib/rate-limit.ts:177-187 | the count survives the lock's expiry, so the next failure relocks at once |
| RateLimit.FailuresCount | lib/rate-limit.ts:171-190 | from a clean record, failures are counted one by one and the fifth locks for 15 minutes from that instant |
| Db.FindUserByEmail | app/api/auth/login/route.ts:48-50 | the lookup finds a user with that email, or reports that none has it |
| Db.UserOf | lib/auth-guard.ts:37-40 | a session's user is found exactly when it is stored |
| Db.FindUserExact | app/api/auth/login/route.ts:48-50 | with unique emails, the lookup finds the one user holding the email |
| Sessions.ViewOf | lib/auth-guard.ts:64-72 | the verified view carries the session user's id, email, name and role |
| Sessions.VerifySession | lib/auth-guard.ts:25-81 | no cookie or an unknown token gives 401 with the store unchanged; an expired session is deleted and gives 401; a live session authenticates exactly when its user is stored, as that user, without changing the store |
| Sessions.ExpiredThenInvalid | lib/auth-guard.ts:51-62 | an expired session is reported once as expired; afterwards it is unknown |
| Sessions.VerifySessionWellFormed | lib/auth-guard.ts:64-72 | under the schema's guarantees a live session always authenticates, and verification keeps those guarantees |
| Sessions.RequireAuth | lib/auth-guard.ts:88-99 | the verified user, or the verification error as a response |
| Sessions.RequireRole | lib/auth-guard.ts:107-128 | verification errors pass through; a verified user outside the roles gets 403; only an admitted user is granted |
| Sessions.GuardRoles | lib/auth-guard.ts:133-142 | `requireAdmin` admits exactly ADMIN, `requireStaff` exactly ADMIN and STAFF; CUSTOMER gets 403 from both |
| Sessions.GuardRefinesAuth | lib/auth-guard.ts:107-128 | a role guard grants only when `requireAuth` does, and forwards its refusals |
| Sessions.Me | app/api/auth/me/route.ts:4-48 | no cookie, an unknown token or an expired one gives 401, and the expired session is deleted; a user is returned only for a live session |
| Sessions.MeAgreesWithVerifySession | app/api/auth/me/route.ts:29-48 | `/api/auth/me` and `verifySession` leave the same store and agree on the user or the status |
| Sessions.MyBookingsQuery | app/api/bookings/my/route.ts:8-32 | without a live session 401; otherwise exactly the caller's bookings, each as often as stored, latest date first |
| Sessions.MyBookingsKeepsExpired | app/api/bookings/my/route.ts:21-26 | this endpoint refuses an expired session but never deletes it |
| Sessions.Logout | app/api/auth/logout/route.ts:4-20 | with a cookie, exactly the sessions with that token are removed and nothing else changes; without one the store is unchanged; the answer is always success |
| Sessions.LogoutRevokes | app/api/auth/logout/route.ts:11-13 | after logout the token is an invalid session for both checks |
| Sessions.LogoutWellFormed | app/api/auth/logout/route.ts:9-14 | logout keeps every other session and the schema's guarantees |
| Validation.EmailShape | app/api/bookings/route.ts:140-146 | an accepted email has no white space and exactly one `@`, not first |
| Validation.EmailFromShape | app/api/bookings/route.ts:140-146 | conversely, a white-space-free string with one inner `@` followed later by a non-final, non-adjacent `.` is accepted |
| Validation.EmailLowerTrim | app/api/bookings/route.ts:169 | for an accepted email, the stored `toLowerCase().trim()` equals the looked-up `toLowerCase()` |
| Validation.CleanPhone | app/api/auth/send-code/route.ts:68 | removing white space leaves none and never lengthens |
| Validation.SpanishPhoneShape | app/api/auth/send-code/route.ts:68-75 | an accepted phone has 9 or 12 characters and no white space; the bare and `+34` forms are different keys |
| Validation.StripTags | app/api/bookings/route.ts:160 | tag removal never lengthens, only keeps input characters, and leaves no `<` followed later by `>`; text with no `<` or no `>` comes back unchanged |
| Validation.StripTagsRemovesTag | app/api/bookings/route.ts:160 | a `<…>` span after text without `<` is deleted whole, up to its first `>`, and the text before it survives, the rest being stripped in turn |
| Validation.NoTagCons | app/api/bookings/route.ts:160 | a character put in front of tag-free text keeps it tag-free unless it is a `<` and a `>` follows |
| Validation.Sanitize | app/api/bookings/route.ts:160 | `sanitize` output is tag-free, no longer than its input, and trimmed; text holding no tag only loses its outer white space |
| Validation.SanitizeRemovesTag | app/api/bookings/route.ts:160 | a tag between tag-free texts is removed and the texts on both sides are kept, trimmed |
| Validation.SanitizeIdempotent | app/api/bookings/route.ts:160 | sanitizing twice is sanitizing once |
| Validation.SanitizeKeepsCap | app/api/bookings/route.ts:160-172 | a field that met its cap still meets it after sanitizing |
| Login.Candidate | app/api/auth/login/route.ts:99 | every drawn hash is well-formed |
| Login.FreeIndex | app/api/auth/login/route.ts:95-118 | the turn found is the first from `i` on whose draw is free; none is found exactly when every remaining draw is taken |
| Login.FirstFreeHash | app/api/auth/login/route.ts:95-118 | a chosen hash is well-formed and held by no stored session; none is chosen exactly when all five draws are held |
| Login.PickAccessHash | app/api/auth/login/route.ts:95-118 | the retry loop stops at the first free draw or after five, and agrees with `FirstFreeHash` |
| Login.FreeIndexSkip | app/api/auth/login/route.ts:95-118 | draws that are all taken are skipped: the search from the first of them gives the same answer as from the one after |
| Login.FirstFreeIsFirstUntaken | app/api/auth/login/route.ts:95-118 | when every earlier draw is taken and draw `k` is not, draw `k` is the hash chosen |
| Login.Login | app/api/auth/login/route.ts:10-135 | 429 before anything; bad input 400 without lockout change; a locked email 423 before lookup; an unknown email records a failure and answers 401; a wrong password records a failure and answers 423 only when it locks; a correct password clears the record and signs in exactly when a draw is free and the new token is unused; running out of hashes is 500 with no write; a success adds exactly one session with a fresh token, the chosen hash and a 7-day expiry, and redirects by role |
| Login.Authenticate | app/api/auth/login/route.ts:18-85 | past the rate limit: bad input 400 and a locked email 423 leave the lockout record alone; an unknown email or a wrong password records a failure; a correct password clears the record and hands over to `IssueSession`; nothing but a correct password can write or exhaust the hashes |
| Login.IssueSession | app/api/auth/login/route.ts:87-135 | the outcome is a success exactly when a draw is free and the new token is not already stored, 500 for exhausted draws exactly when none is free, and 500 for a failed write exactly when the token is already stored; only a success writes, adding one session under that token with the first free hash and a 7-day expiry, redirected by role; the lockout, rate and phone records are untouched |
| Login.FreeDrawSignsIn | app/api/auth/login/route.ts:95-135 | with a free draw and an unused token the answer is 200, names the signed-in user, and its cookie authenticates that user at once |
| Login.LoginWellFormed | app/api/auth/login/route.ts:127-135 | signing in keeps the schema's guarantees: unique tokens, hashes and emails |
| Login.IssuedSessionAuthenticates | app/api/auth/login/route.ts:88-89 | the issued session authenticates its user through the whole 7 days, including the expiry instant |
| Login.RedirectIsRouted | app/api/auth/login/route.ts:121-125 | following the redirect with the new cookie is rewritten by the edge router to the role's page |
| Login.DestinationIsRouted | middleware.ts:33-46 | each role's landing page (`/admin/dashboard` or `/dashboard`) behind any well-formed hash is rewritten by the edge router to that page |
| Login.UnknownEmailNeverLocked | app/api/auth/login/route.ts:52-59 | an unknown email is always answered 401, even on the failure that locks it |
| PhoneCodes.CodeNumber | app/api/auth/send-code/route.ts:6-8 | the code number lies in [100000, 999999] |
| PhoneCodes.GenerateCode | app/api/auth/send-code/route.ts:6-8 | a code is six digits without a leading zero |
| PhoneCodes.VerifyCaptcha | app/api/auth/send-code/route.ts:11-44 | without a secret, the captcha passes iff not in production; with one, iff the provider answered `success === true` |
| PhoneCodes.SendCode | app/api/auth/send-code/route.ts:46-147 | 429 first. Then, in order and each changing nothing: a missing phone, a phone of the wrong pattern, a missing captcha token, a captcha the provider rejects. A code created in the last 60 s gives 429. A success replaces the phone's codes with one unverified code that expires in 10 minutes, and leaves other phones' codes alone |
| PhoneCodes.SendKeepsOneCodePerPhone | app/api/auth/send-code/route.ts:111-129 | sending keeps at most one code per phone |
| PhoneCodes.FindPending | app/api/auth/verify-code/route.ts:63-69 | the first unverified code for that phone and value, or none exactly when no code matches |
| PhoneCodes.VerifyCode | app/api/auth/verify-code/route.ts:11-124 | missing fields, a malformed phone and a malformed code each get their own 400, in that order, and like an active lock change nothing; the answer is `Verified` exactly when a live, unverified code for that phone and value exists; no match is a failure that locks on the fifth; an expired match is deleted without touching the counter; a live match clears the counter and marks exactly that code verified |
| PhoneCodes.SendThenVerify | app/api/auth/verify-code/route.ts:113-124 | a code just sent verifies for the same phone before it expires |
| PhoneCodes.FreshCodeIsFound | app/api/auth/verify-code/route.ts:63-69 | once a phone's codes are replaced by a fresh one, looking up that phone and code finds the fresh one, at the end of the list |
| PhoneCodes.VerifiedCodeCannotRematch | app/api/auth/verify-code/route.ts:63-69 | resubmitting a code that was just verified counts as a failure |
| Bookings.ListBookings | app/api/bookings/route.ts:7-66 | staff only; a status filter outside the booking enum makes the query throw and is answered 500; otherwise exactly the bookings passing the status filter (skipped for none or `ALL`) and the inclusive date bounds, each as often as stored, newest first |
| Db.ParseBookingStatus | app/api/bookings/route.ts:23-25 | a filter value is accepted exactly when it names a booking status, and then as that status |
| Db.BookingStatusRoundTrip | app/api/bookings/route.ts:23-25 | every booking status's name is accepted back as that status |
| Bookings.StoredNotes | app/api/bookings/route.ts:172 | notes are stored sanitized when given and null otherwise |
| Bookings.CreateBooking | app/api/bookings/route.ts:69-180 | 429 first. Then each check in order answers its own 400 once the earlier ones pass: services, valid services, required fields, the name cap, the address cap, the notes cap, email, past date. Each refusal writes nothing. An unparseable date passes the past-date check and then fails at the insert. A success appends exactly the described booking |
| Bookings.FormBookingFields | app/api/bookings/route.ts:163-175 | a created booking is PENDING, has no owner, and keeps the requested services and date |
| Bookings.FormBookingEmail | app/api/bookings/route.ts:169 | the stored email is the lower-cased one |
| Bookings.FormBookingWithinCaps | app/api/bookings/route.ts:110-137 | the stored text fields are tag-free and still within their caps |
| Bookings.CreateBookingWellFormed | app/api/bookings/route.ts:163-175 | a booking submission keeps the schema's guarantees |
| Signup.FindVerified | app/api/bookings/with-signup/route.ts:122-134 | finds a verified code for the phone, whatever its age, or reports none |
| Signup.SignupWithBooking | app/api/bookings/with-signup/route.ts:7-188 | 429 first. Then each check in the handler's order answers its own 400, once every earlier check has passed: user fields, booking fields, known services, the name, address and notes caps, email, password, future date, phone pattern, a verified code for the phone, a new email. Each refusal changes only the rate bucket. A weak password is refused exactly when the checks before it pass and the password fails, and the message joins all its errors. An unparseable date gets past the date check and fails at the insert exactly when every check passes. A success consumes exactly the code it found and adds one user and one booking owned by that user |
| Signup.AppendedUserFound | app/api/bookings/with-signup/route.ts:137-139 | once a user with a new email is appended, looking that email up finds exactly that user |
| Signup.CommitThenFound | app/api/bookings/with-signup/route.ts:136-188 | after the transaction, the email the signup was checked under finds the new CUSTOMER account, and the booking just added belongs to it |
| Signup.NewUserRecord | app/api/bookings/with-signup/route.ts:157-164 | the new account is a CUSTOMER with the given hash and a sanitized, capped name |
| Signup.SignupEmailStored | app/api/bookings/with-signup/route.ts:155-180 | the account and the booking store the looked-up lower-case email |
| Signup.NewBookingRecord | app/api/bookings/with-signup/route.ts:167-180 | the booking is PENDING, owned by the new account, with the cleaned accepted phone |
| Signup.SignupWellFormed | app/api/bookings/with-signup/route.ts:137-146 | a signup keeps emails unique and the schema's guarantees |
| Signup.SecondSignupNotVerified | app/api/bookings/with-signup/route.ts:183-185 | the consumed code is gone, so repeating the signup is refused as not verified |
| Contacts.ListContacts | app/api/contacts/route.ts:7-45 | staff only; a status filter outside the contact enum makes the query throw and is answered 500; otherwise exactly the messages passing the status filter, each as often as stored, newest first |
| Db.ParseContactStatus | app/api/contacts/route.ts:20-22 | a filter value is accepted exactly when it names a contact status, and then as that status |
| Db.ContactStatusRoundTrip | app/api/contacts/route.ts:20-22 | every contact status's name is accepted back as that status |
| Contacts.UnfilteredListsAll | app/api/contacts/route.ts:17-23 | with no filter or `ALL`, staff see every message |
| Contacts.CreateContact | app/api/contacts/route.ts:48-112 | 429 first; required fields, name cap, message cap and email in order, each with nothing written; a success appends exactly one message |
| Contacts.NewContactRecord | app/api/contacts/route.ts:98-107 | a new message is NEW, tag-free, within its caps, and has a null service exactly when none was sent |
| Contacts.NewContactEmail | app/api/contacts/route.ts:101 | the stored email is the lower-cased one |
| Profile.GetProfile | app/api/admin/profile/route.ts:6-32 | the verified user's id, name, email and role, or the verification error |
| Profile.PlanUpdate | app/api/admin/profile/route.ts:63-128 | each rejection (long name, bad email, email in use, missing or wrong current password, weak new password) happens exactly when the earlier checks pass and its own fails; otherwise the update set holds exactly the requested fields |
| Profile.Apply | app/api/admin/profile/route.ts:131-135 | the write changes only the listed fields; role and creation time never change |
| Profile.UpdateProfile | app/api/admin/profile/route.ts:34-152 | unauthenticated requests get the guard's error; every rejection happens before the single write; nothing requested means no write; an update happens exactly when the session is granted, the plan accepts and something is requested, and it writes only the signed-in user's planned fields |
| Profile.UpdateThenGet | app/api/admin/profile/route.ts:130-146 | reading the profile after an update shows the user the update answered with: the planned name and email where a change was planned, the old ones elsewhere |
| Profile.PlannedNameValid | app/api/admin/profile/route.ts:65-73 | a planned name is sanitized and within its cap |
| Profile.NotTakenByOther | app/api/admin/profile/route.ts:86-98 | an address no other account owns after lower-casing is held by no other account |
| Profile.PlannedEmailAccepted | app/api/admin/profile/route.ts:75-98 | a planned email comes from an accepted, unowned address, lower-cased and trimmed |
| Profile.PlannedEmailLower | app/api/admin/profile/route.ts:97 | a planned email is the lower-cased address |
| Profile.PlannedEmailFree | app/api/admin/profile/route.ts:86-98 | with unique emails, no other account holds a planned email |
| Profile.UpdateProfileWellFormed | app/api/admin/profile/route.ts:75-98 | a profile update keeps emails unique |
| Profile.EmptyPatchWritesNothing | app/api/admin/profile/route.ts:149-152 | an empty request answers "no changes" and leaves the store alone |
| Customers.OwnBookings | app/api/admin/customers/route.ts:39-42 | exactly the bookings the customer owns |
| Customers.Summary | app/api/admin/customers/route.ts:39-63 | the total is the number of owned bookings; the last booking is absent exactly when there are none |
| Customers.LastBookingIsNewest | app/api/admin/customers/route.ts:43-50 | the last booking shown is an owned booking that no other owned booking postdates |
| Customers.MatchingIds | app/api/admin/customers/route.ts:26-38 | exactly the ids of customers matching the search, each once |
| Customers.SummariesListed | app/api/admin/customers/route.ts:56-63 | each summary of a matching id is the summary of a stored matching customer |
| Customers.SummariesCover | app/api/admin/customers/route.ts:56-63 | summarizing drops no matching customer |
| Customers.Listing | app/api/admin/customers/route.ts:26-63 | every matching customer is summarized exactly once, newest account first |
| Customers.SortedIdsDistinct | app/api/admin/customers/route.ts:26-63 | reordering the summaries of distinct users keeps their ids distinct |
| Customers.SearchCustomers | app/api/admin/customers/route.ts:5-63 | staff only; a search over 100 characters is 400; otherwise exactly the CUSTOMER users whose name or email contains the sanitized term, each summarized once, newest first |
| Stats.AddOne | app/api/admin/stats/route.ts:66-68 | bumping a service raises its count by one and no other |
| Stats.AddOneKeepsDistinct | app/api/admin/stats/route.ts:66-68 | bumping never creates a second entry for a service |
| Stats.TallyOf | app/api/admin/stats/route.ts:63-71 | the tally has one entry per distinct service |
| Stats.TallyCounts | app/api/admin/stats/route.ts:63-71 | each service's count is its number of occurrences, duplicates included |
| Stats.TallyTotal | app/api/admin/stats/route.ts:63-71 | the counts add up to the number of services counted |
| Stats.AllServices | app/api/admin/stats/route.ts:59-71 | concatenating every booking's services keeps every occurrence |
| Stats.ServiceStats | app/api/admin/stats/route.ts:59-71 | `serviceStats[s]` is the occurrences of `s` across all bookings, and the values add up to the total number of services |
| Stats.ServiceStatsKeys | app/api/admin/stats/route.ts:59-71 | only services that occur get a key |
| Stats.StampsSince | app/api/admin/stats/route.ts:74-85 | the distinct creation times of the last 7 days: all of them, none earlier, at most one per booking |
| Stats.StampsFromBookings | app/api/admin/stats/route.ts:74-85 | every counted time is some booking's creation time |
| Stats.GetStats | app/api/admin/stats/route.ts:5-103 | staff only: a refused guard answers with its status and message, and a granted one answers with the figures below, computed from one snapshot of the store |
| Stats.ReadyFigures | app/api/admin/stats/route.ts:13-103 | the totals and status counts of that snapshot, which never add up to more than the total; each recent list holds the 5 newest (or all), newest first, with nothing left out newer than the last kept; service counts and trend as above |
| Subdomain.GetSubdomainAgrees | lib/subdomain.ts:19-47 | the request version and the hostname version agree on every host |
| Subdomain.FirstLabelIs | lib/subdomain.ts:41-47 | the first label is a word exactly when the host is that word or starts with it and a dot |
| Subdomain.SubdomainIsFirstLabel | lib/subdomain.ts:66-88 | a subdomain is the whole first label, and a dot follows it |
| Subdomain.DevelopmentSubdomain | lib/subdomain.ts:23-29 | a host containing `localhost` has no subdomain exactly when it has no dot or starts with `localhost.` |
| Subdomain.ProductionSubdomain | lib/subdomain.ts:33-47 | another host has no subdomain exactly when it has at most one dot or starts with `www.` |
| Subdomain.SubdomainFormatIsHashFormat | lib/subdomain.ts:96-100 | the subdomain format is the access-hash format |
| Subdomain.ConstructSubdomainUrl | lib/subdomain.ts:123-132 | the URL starts with the environment's protocol and `://` and ends with the path (default `/`); it names the host `subdomain.base` whenever neither part holds a `/` and the path starts with `/` or is empty |
| Subdomain.UrlHostOf | lib/subdomain.ts:123-132 | the host read back from `protocol://host` followed by such a path is that host |
| Subdomain.ConstructThenRead | lib/subdomain.ts:66-93 | reading the subdomain from the host of a built subdomain URL gives it back, for a well-formed subdomain and a base domain that is a `localhost` host or holds a dot |
| Sms.AutomatonIsE164 | lib/sms.ts:92-96 | accepted iff `+`, a digit 1-9, then 1 to 14 ASCII digits |
| Sms.AcceptedLength | lib/sms.ts:94 | an accepted number has 3 to 16 characters, all digits after the `+` |
| Sms.AcceptedShape | lib/sms.ts:94 | an accepted number starts with `+`, has no white space, and its first digit is not 0 |
| Sms.SpanishMobileIsE164 | lib/sms.ts:94 | every Spanish mobile number is accepted in its `+34` form and refused in its bare form |
| Sms.DocumentedExampleAccepted | lib/sms.ts:12 | a documentation check on one input: the example number in the doc comment, `+34612345678`, is accepted |
| CreateAdmin.ScriptMessage | scripts/create-admin.ts:10-21 | the script's message for a rule is the guard's message plus a period |
| CreateAdmin.PushedErrorsAreMessages | scripts/create-admin.ts:7-27 | the four sequential pushes list the messages of the violated rules, in rule order |
| CreateAdmin.ScriptAgreesWithGuard | scripts/create-admin.ts:7-27 | the script's policy agrees with the guard's: same verdict, same messages in the same order, each with a period added |
| CreateAdmin.Resolve | scripts/create-admin.ts:49-53 | a non-empty argument wins; otherwise the prompt's answer is used |
| CreateAdmin.RunScript | scripts/create-admin.ts:49-116 | aborts on an email without `@`, then on a name under 2 characters, then on a weak password listing every violated rule, then on an existing lower-cased email; otherwise appends exactly one ADMIN with the lower-cased email, and nothing else changes |
| CreateAdmin.ScriptReportsViolations | scripts/create-admin.ts:84-91 | the script reports a rule's message exactly when the rule is violated |
| CreateAdmin.RunScriptKeepsEmailsDistinct | scripts/create-admin.ts:93-116 | the script keeps emails unique, and the new admin is the one user its email finds |
| PriceCalculator.DrivewayCost | components/PriceCalculator.tsx:81-84 | 0 for no square metres, otherwise 5 per square metre with a 60 minimum |
| PriceCalculator.CalculateTotal | components/PriceCalculator.tsx:62-96 | on the pack tab with a pack chosen, exactly 220, 320 or 450; otherwise the item-by-item total |
| PriceCalculator.PackIgnoresSelection | components/PriceCalculator.tsx:63-70 | with a pack chosen on the pack tab, no other selection changes the total |
| PriceCalculator.IndividualTotalIsSum | components/PriceCalculator.tsx:72-95 | the running total equals the per-item sum: 25/45/10/40 per vehicle, the driveway, 8/15/12 per window, and 5 per window for blinds |
| PriceCalculator.VehiclesAreLinear | components/PriceCalculator.tsx:75-78 | one more vehicle of a kind adds exactly its price |
| PriceCalculator.WindowsAddBlinds | components/PriceCalculator.tsx:87-93 | one more window adds its price, plus 5 when blinds are included |
| PriceCalculator.DrivewayMonotone | components/PriceCalculator.tsx:81-84 | more square metres never cost less |
| PriceCalculator.IndividualTotalMonotone | components/PriceCalculator.tsx:72-95 | choosing more of anything never lowers the total |
| PriceCalculator.Press | components/PriceCalculator.tsx:120-135 | a click keeps the value within bounds; `-` never raises it and `+` never lowers it, and each moves by exactly one step when the bound allows |
| PriceCalculator.PressesStayInRange | components/PriceCalculator.tsx:105-107 | no sequence of clicks leaves the bounds |
| PriceCalculator.DrivewayValues | components/PriceCalculator.tsx:205-212 | from 0 the driveway input only holds multiples of 5 between 0 and 500 |
| PriceCalculator.DrivewaySurcharge | components/PriceCalculator.tsx:213 | among reachable values, the minimum order applies exactly at 5 and 10 square metres |
| BookingForm.ToggleService | components/BookingForm.tsx:52-59 | a chosen service is removed in all its occurrences, every other value keeps its multiplicity, and the list shrinks; any other service is appended at the end |
| BookingForm.ToggleKeepsDistinct | components/BookingForm.tsx:52-59 | a list without repeats keeps none after a toggle |
| BookingForm.ToggleTwiceAbsent | components/BookingForm.tsx:52-59 | toggling an absent service twice restores the list exactly |
| BookingForm.ToggleTwicePresent | components/BookingForm.tsx:52-59 | toggling a chosen service twice keeps the same services and moves it to the end |
| BookingForm.SetField | components/BookingForm.tsx:48-50 | editing a text field never changes the services |
| BookingForm.Step | components/BookingForm.tsx:316-355 | a submitted wizard takes no events; a toggle on step 1 and an edit on its field's step apply `toggleService`/`updateData` and nothing else; an enabled Back goes one step back; an enabled Next goes one step on; an enabled Submit marks the wizard submitted and keeps its data and step; the step changes only by Back or by an enabled Next, and submitting needs step 3 and `canProceed` |
| BookingForm.StepKeepsInv | components/BookingForm.tsx:316-345 | every event keeps the step in 1..3, the services distinct, every passed step's requirement met, and a submitted wizard complete |
| BookingForm.RunKeepsInv | components/BookingForm.tsx:20-29 | from the initial state every reachable wizard satisfies that invariant |
| BookingForm.SubmittedBookingIsComplete | components/BookingForm.tsx:70-74 | whatever the user does, a submitted booking has distinct services and a date, time, name, email, phone and address |
| BookingForm.RunAppend | components/BookingForm.tsx:43-46 | running two event sequences one after the other is running their concatenation |
| BookingForm.ChooseServiceRun | components/BookingForm.tsx:152-190 | from the initial state, choosing one service and pressing Next reaches step 2 with that service chosen |
| BookingForm.ChooseSlotRun | components/BookingForm.tsx:191-238 | on step 2, entering a date and a time and pressing Next reaches step 3 with both entered |
| BookingForm.FillContactRun | components/BookingForm.tsx:239-312 | on step 3, entering the contact details and submitting gives a submitted wizard with exactly those details |
| BookingForm.HappyPathSubmits | components/BookingForm.tsx:70-73 | the intended path from the initial state, with every required entry non-empty, ends submitted on step 3 carrying exactly the entered data |
| ContactForm.RequiredError | components/ContactForm.tsx:48-50 | a required field has an error exactly when it is blank after trimming |
| ContactForm.EmailError | components/ContactForm.tsx:52-56 | the email is "required" when blank after trimming, otherwise "invalid" exactly when the untrimmed text fails the pattern |
| ContactForm.Validate | components/ContactForm.tsx:45-67 | name, phone and message have an entry iff blank, email iff blank or invalid, service never |
| ContactForm.Set | components/ContactForm.tsx:38 | setting one field leaves the others alone |
| ContactForm.UpdateData | components/ContactForm.tsx:37-43 | typing sets one field and clears only that field's error |
| ContactForm.HandleSubmit | components/ContactForm.tsx:70-99 | the error map is replaced by a fresh validation; the data is posted exactly when it is empty; the form turns to its confirmation only when the server accepts |
| ContactForm.SendAnother | components/ContactForm.tsx:111-115 | "send another" returns to the empty form |
| ContactForm.PostedIffValid | components/ContactForm.tsx:70-73 | the form is posted exactly when name, phone and message are non-blank and the email is non-blank and valid |
| ContactForm.ClientChecksMatchServer | app/api/contacts/route.ts:63-92 | what the client lets through passes the server's required-field and email checks; only the length caps can still refuse it |
| ContactForm.NoErrorsMeansFilled | components/ContactForm.tsx:45-67 | an empty error map means name, phone, message and email are non-empty and the email matches the pattern |
| AdminPages.Lookup | app/admin/contacts/page.tsx:138 | `labels[key]` is found exactly when the table has the key, and it is that key's label |
| AdminPages.LabelOr | app/admin/contacts/page.tsx:138 | a key missing from the table is shown as itself; otherwise the shown text is the key or its label |
| AdminPages.LookupAppend | app/admin/dashboard/page.tsx:129-141 | a lookup in two tables one after the other finds a key in the first when it is there, else in the second |
| AdminPages.LabelOrAppend | app/admin/dashboard/page.tsx:129-141 | the label shown from two tables one after the other is the first table's when it has the key, the second's otherwise |
| AdminPages.LabelOrFallback | app/admin/bookings/page.tsx:117 | with non-empty labels, a key of the table shows its label and no other key is translated |
| AdminPages.StoredStatusesAreKeys | app/admin/bookings/page.tsx:110-118 | every stored booking and contact status has an entry in its page's table, and no contact status is a booking key |
| AdminPages.DashboardAgreesWithPages | app/admin/dashboard/page.tsx:129-141 | the dashboard labels every stored status as the page listing it does, and leaves other codes as they are |
| AdminPages.ContactServiceLabelsExtend | app/admin/contacts/page.tsx:141-147 | the contacts page labels each service as the bookings page does, and also shows `otro` as "Otro" where the bookings table would show the raw key |
| AdminPages.RoleLabelsTranslate | app/admin/settings/page.tsx:116-123 | each role has a Spanish label different from its code |
| AdminPages.ListUrl | app/admin/bookings/page.tsx:49-51 | the bare endpoint for `ALL`, otherwise the filter as the `status` query parameter |
| AdminPages.ListUrlMatchesServerFilter | app/admin/contacts/page.tsx:53-55 | the page sends a status exactly when the endpoint's filter is active, and the value it sends is the filter |
| AdminPages.SetStatus | app/admin/bookings/page.tsx:83-85 | same length, order, ids and details; only rows with the id take the new status |
| AdminPages.SetStatusIdempotent | app/admin/contacts/page.tsx:85-88 | applying the same status change twice is applying it once |
| AdminPages.SetStatusAbsentId | app/admin/contacts/page.tsx:85-88 | a change for an id no row has leaves the list unchanged |
| AdminPages.UpdateStatus | app/admin/bookings/page.tsx:69-93 | a failed update leaves the list unchanged; a success sets the status |
| AdminPages.UpdateContactStatus | app/admin/contacts/page.tsx:73-99 | the list changes on success only; the dialog's contact takes the new status only when the contact the handler holds has that id |
| AdminPages.ContactClick | app/admin/contacts/page.tsx:101-109 | a click opens the dialog; a NEW contact issues an update to READ and no other status issues any update |
| AdminPages.ContactClickIntended | app/admin/contacts/page.tsx:101-109 | the same, with the dialog showing the clicked contact, READ after a successful update |
| AdminPages.DialogChange | app/admin/contacts/page.tsx:320-321 | a status chosen in the dialog is shown in the dialog on success |
| AdminPages.CloseDialog | app/admin/contacts/page.tsx:111-114 | closing hides the dialog, drops the selection, and keeps the list |
| AdminPages.ContactClickStaleDialog | app/admin/contacts/page.tsx:89-91 | as written, the first click on a NEW contact leaves the dialog showing NEW while the list shows READ |
| AdminPages.ContactClickIntendedSynced | app/admin/contacts/page.tsx:101-109 | with the clicked contact held, the dialog and the list row always show the same status |
| AdminPages.DialogChangeKeepsSynced | app/admin/contacts/page.tsx:320-321 | a change made from the dialog keeps the dialog and the list in step |
| AdminPages.SettingsRequest | app/admin/settings/page.tsx:87-91 | the body always carries name and email, and the two passwords only when a new password is typed |
| AdminPages.SettingsSubmit | app/admin/settings/page.tsx:62-114 | mismatched passwords or a missing current password give their error and send nothing; a success shows the server's message, takes the returned user if any, and clears the password inputs; a failure shows the server's or the default error and keeps every input |
| AdminPages.SettingsNeverMissesCurrentPassword | app/admin/settings/page.tsx:68-77 | a request the page sends is never refused by the server for a missing current password |
| AdminPages.SettingsWithoutNewPassword | app/admin/settings/page.tsx:67 | with both new-password inputs empty, a request is sent and it changes no password |
| AdminPages.Preview | app/admin/dashboard/page.tsx:258 | the preview is a prefix of the message of at most 60 characters, always followed by `...` |
| AdminPages.PreviewTruncates | app/admin/dashboard/page.tsx:258 | a short message is shown whole; a longer one as its first 60 characters |
| AdminNav.CurrentHash | app/admin/dashboard/page.tsx:41 | the read hash is empty or a well-formed hash sitting right after the leading `/` |
| AdminNav.CurrentHashAgreesWithExtract | components/admin/AdminSidebar.tsx:60 | wherever the router extracts a hash, the panel reads the same one |
| AdminNav.CurrentHashIsLooser | components/admin/AdminSidebar.tsx:60 | eight hash characters followed by something other than `/` are read by the panel but not extracted by the router |
| AdminNav.BareAdminPathHasNoHash | app/admin/dashboard/page.tsx:41 | a bare `/admin/…` path yields no hash |
| AdminNav.HashAwarePath | components/admin/AdminSidebar.tsx:98 | the link is `/` + hash + path when a hash was read, else the bare path |
| AdminNav.MenuPathsAreAdmin | components/admin/AdminSidebar.tsx:27-53 | every menu path starts with `/admin/` |
| AdminNav.MenuPathsDistinct | components/admin/AdminSidebar.tsx:27-53 | the five menu paths are pairwise different |
| AdminNav.AtMostOneActive | components/admin/AdminSidebar.tsx:99 | at most one menu item is highlighted |
| AdminNav.SidebarKeepsHash | components/admin/AdminSidebar.tsx:98-104 | under `/{h}/admin/…` each item links to `/{h}` + its path, which the router rewrites back to that path; under a bare path the links are bare |
| AdminNav.DashboardKeepsHash | app/admin/dashboard/page.tsx:214 | the dashboard's buttons keep the hash the same way |
| Collections.Filter | app/api/bookings/route.ts:21-38 | an element is kept exactly when it is in the input and passes; nothing is added and no element is repeated more often than in the input |
| Collections.FilterDropsLast | components/BookingForm.tsx:52-59 | filtering a list whose every element passes, with one failing element appended, gives back the list |
| Collections.SortDesc | app/api/bookings/route.ts:40-42 | the result is a permutation of the input, largest key first |
| Collections.SortedPrefix | app/api/admin/stats/route.ts:31-33 | a prefix of a descending permutation stays descending, holds only input elements and outranks everything it leaves out |
| Collections.Newest | app/api/admin/stats/route.ts:31-33 | at most `n` elements, largest first, and nothing left out is newer than the last kept |
| Collections.DisjointCountsBounded | app/api/admin/stats/route.ts:14-28 | counts of mutually exclusive conditions add up to at most the total |
| Text.TrimIsWindow | lib/rate-limit.ts:41 | `trim` returns a window of its input with no white space at either end |
| Text.TrimIdempotent | app/api/bookings/route.ts:160 | trimming twice is trimming once |
| Text.SplitShape | lib/rate-limit.ts:41 | `split` gives one piece more than the separators, the first being the text before the first separator |

## Left out

- Persistence failures: a `catch` that turns a database error into a 500 is left out, except for the listing filters' enum check. The stores are immutable values, and the signup transaction is one atomic step.
- Request bodies: a body that is not valid JSON makes `request.json()` throw, and the handler's `catch` answers 500. This is left out because each route takes an already-decoded record. Examples are the parse at app/api/bookings/route.ts:80 with its `catch` at :181, and the parse at app/api/contacts/route.ts:59 with its `catch` at :113.
- Field types: every text field is an optional string, so a non-string value reaching `.trim()`, `.toLowerCase()` or `sanitize` is not representable. In the source that value throws, and the `catch` answers 500.
- Bookings.ListBookings: `dateFrom`/`dateTo` are taken as already-parsed timestamps, so an unparseable date, which the store would also refuse with a 500, is not modelled.
- bcrypt: hashing and comparison are oracle parameters. So are nanoid's random bytes, `Math.random`, the reCAPTCHA reply and every `fetch` answer.
- Dates: `Date` parsing, time zones, `setHours`/`setDate` and `toISOString` are left out, including `getMinDate`/`getMaxDate` in the booking wizard. Dates are integers, a `parseDate` parameter and a "start of today" parameter.
- Concurrency: module-level maps shared across requests, the `setInterval` timer (cleanup is an explicit operation) and the check-then-insert race on `accessHash` are left out.
- Profile.UpdateProfile: the 404 for a session user missing from the store is not modelled. The guard has just read that user, so under the schema it cannot happen.
- Customers.SearchCustomers: Prisma's `contains` is modelled as case-sensitive substring search. The database collation is not part of this model.
- Stats.ServiceStats: a booking whose `services` is not an array is not representable. Services are always a sequence.
- RateLimit.CheckRateLimit: the written description of `retryAfter` is loose. The model follows the code's `Math.ceil((resetTime - now) / 1000)`.
- `generateSubdomain` and `getBaseDomain` read environment variables, and `sendSMS` calls the Bird API. They become parameters or are left out.
- Rendering: JSX and MUI markup, colours (`getStatusColor`), icons, the pure-content pages, the customers page's month/year aggregates, `AdminHeader`, and the console output and readline I/O of scripts/create-admin.ts.
- AdminPages.LabelOr: a status equal to an inherited JavaScript object key (such as `constructor`) would look up the prototype. Tables are modelled as plain lists.
- AdminPages.CloseDialog: the 200 ms timer that drops the selection is folded into the close itself.
- AdminPages.ContactClick: the page's later `fetchContacts` refreshes are left out, so a refetched list replacing the rows is not modelled.
- Text.ToLower: lower-casing is ASCII-only, with no Unicode case mapping.
- Strings are sequences of characters, not UTF-16 code units. `substring(0, 60)` and `length` count characters.

## Findings

| source | as written | input that shows it | evidently intended | confidence | as-written member | corrected member |
|---|---|---|---|---|---|---|
| app/admin/contacts/page.tsx:89-91 | `handleContactClick` calls `updateContactStatus` from the same render, so the closure's `selectedContact` is the one held before the click (null on a first click or after closing the dialog). The list row turns READ, but the dialog keeps the clicked contact with status NEW. | no contact selected; click a contact with status NEW; the PATCH succeeds | the dialog shows READ, like the list | medium, not executed | AdminPages.ContactClick (exhibited by AdminPages.ContactClickStaleDialog) | AdminPages.ContactClickIntended (proved by AdminPages.ContactClickIntendedSynced) |

=== FILE: admin_nav.dfy ===
/**
 Hash-aware navigation inside the admin panel: app/admin/dashboard/page.tsx
 and components/admin/AdminSidebar.tsx read the access hash from the browser
 path and put it back in front of every link, so that the panel's links keep
 going through the middleware's rewrite. Their pattern, `^\/([a-zA-Z0-9_-]{8})`,
 is looser than `extractHashFromPath`'s: it does not need a `/` or the end of
 the path after the eight characters.
 */
module AdminNav {
  import opened Text
  import opened SessionHash
  import Middleware

  /** `pathname.match(/^\/([a-zA-Z0-9_-]{8})/)?.[1] || ''`. */
  function CurrentHash(pathname: string): (h: string)
    ensures h == "" || (IsValidHashFormat(h) && |pathname| > HashLength && pathname[1..HashLength + 1] == h)
  {
    if |pathname| > HashLength && pathname[0] == '/' && IsValidHashFormat(pathname[1..HashLength + 1])
    then pathname[1..HashLength + 1]
    else ""
  }

  /** Wherever `extractHashFromPath` finds a hash, the panel reads the same one. */
  lemma CurrentHashAgreesWithExtract(pathname: string)
    requires ExtractHashFromPath(pathname).Some?
    ensures CurrentHash(pathname) == ExtractHashFromPath(pathname).value
  {
  }

  /** The panel's pattern is looser: eight hash characters followed by a ninth that is not
      `/` are read as a hash, while `extractHashFromPath` finds none. */
  lemma CurrentHashIsLooser(h: string, c: char, rest: string)
    requires IsValidHashFormat(h) && c != '/'
    ensures CurrentHash("/" + h + [c] + rest) == h
    ensures ExtractHashFromPath("/" + h + [c] + rest).None?
  {
    var p := "/" + h + [c] + rest;
    assert p[1..HashLength + 1] == h;
    assert p[HashLength + 1] == c;
  }

  /** A bare `/admin/…` path carries no hash: its seventh character is `/`. */
  lemma BareAdminPathHasNoHash(pathname: string)
    requires StartsWith(pathname, "/admin/")
    ensures CurrentHash(pathname) == ""
  {
    if |pathname| > HashLength {
      assert pathname[1..HashLength + 1][5] == pathname[6] == '/';
    }
  }

  /** A link target: `/{hash}` in front of the path when a hash was read, the bare path
      otherwise. The dashboard's buttons and the sidebar's `fullPath` both build this. */
  function HashAwarePath(hash: string, path: string): (target: string)
    ensures hash != "" ==> target == "/" + hash + path
    ensures hash == "" ==> target == path
  {
    if hash != "" then "/" + hash + path else path
  }

  // ---- dashboard ---------------------------------------------------------------

  /** The dashboard's two "see all" buttons. */
  datatype DashboardLink = AllBookings | AllContacts

  function DashboardTarget(pathname: string, link: DashboardLink): string {
    HashAwarePath(CurrentHash(pathname), if link == AllBookings then "/admin/bookings" else "/admin/contacts")
  }

  // ---- sidebar -----------------------------------------------------------------

  /** The paths of `menuItems`, in order. */
  const MenuPaths: seq<string> := ["/admin/dashboard", "/admin/bookings", "/admin/contacts", "/admin/customers", "/admin/settings"]

  /** Every item path opens the admin namespace. */
  lemma MenuPathsAreAdmin(i: nat)
    requires i < |MenuPaths|
    ensures StartsWith(MenuPaths[i], "/admin/")
  {
  }

  /** The item paths are pairwise different. */
  lemma MenuPathsDistinct(i: nat, j: nat)
    requires i < j < |MenuPaths|
    ensures MenuPaths[i] != MenuPaths[j]
  {
    assert MenuPaths[0][7] == 'd' && MenuPaths[1][7] == 'b' && MenuPaths[4][7] == 's';
    assert MenuPaths[2][8] == 'o' && MenuPaths[3][8] == 'u';
  }

  /** `fullPath` of item `i` on the current page. */
  function FullPath(pathname: string, i: nat): string
    requires i < |MenuPaths|
  {
    HashAwarePath(CurrentHash(pathname), MenuPaths[i])
  }

  /** `isActive`. */
  predicate IsActive(pathname: string, i: nat)
    requires i < |MenuPaths|
  {
    pathname == FullPath(pathname, i)
  }

  /** At most one item is highlighted. */
  lemma AtMostOneActive(pathname: string, i: nat, j: nat)
    requires i < j < |MenuPaths|
    ensures !(IsActive(pathname, i) && IsActive(pathname, j))
  {
    MenuPathsDistinct(i, j);
  }

  /** On a page reached through `/{h}/admin/…`, every sidebar link keeps `h` in front of
      its item path, and with a session cookie the middleware rewrites it back to exactly
      that item path; on a bare `/admin/…` page the links are the bare item paths. */
  lemma SidebarKeepsHash(h: string, rest: string, i: nat, token: string)
    requires IsValidHashFormat(h) && StartsWith(rest, "/admin/") && i < |MenuPaths| && token != ""
    ensures FullPath("/" + h + rest, i) == "/" + h + MenuPaths[i]
    ensures Middleware.Route(FullPath("/" + h + rest, i), Some(token)) == Middleware.Rewrite(MenuPaths[i], h)
    ensures FullPath(rest, i) == MenuPaths[i]
  {
    var p := "/" + h + rest;
    assert p[1..HashLength + 1] == h;
    MenuPathsAreAdmin(i);
    Middleware.AnyHashIsRewritten(h, MenuPaths[i], token);
    BareAdminPathHasNoHash(rest);
  }

  /** The dashboard's buttons keep the hash the same way. */
  lemma DashboardKeepsHash(h: string, rest: string, link: DashboardLink)
    requires IsValidHashFormat(h) && StartsWith(rest, "/admin/")
    ensures DashboardTarget("/" + h + rest, link)
            == "/" + h + (if link == AllBookings then "/admin/bookings" else "/admin/contacts")
    ensures DashboardTarget(rest, link) == (if link == AllBookings then "/admin/bookings" else "/admin/contacts")
  {
    var p := "/" + h + rest;
    assert p[1..HashLength + 1] == h;
    BareAdminPathHasNoHash(rest);
  }
}

=== FILE: admin_pages.dfy ===
/**
 The client-side logic of the admin pages under app/admin/: the label tables
 that translate stored codes into Spanish, the list URLs, the status changes
 of the bookings and contacts pages, the contact dialog, the settings form and
 the dashboard's message preview. Every server answer is an input: a status
 change either succeeded (`data.success`) or did not, and a failed `fetch` is
 a failure.
 */
module AdminPages {
  import opened Text
  import Db
  import Auth
  import Bookings
  import Profile

  // ---- label tables --------------------------------------------------------------

  /** A `Record<string, string>` literal, as its entries in order. */
  type Table = seq<(string, string)>

  predicate HasKey(table: Table, key: string) {
    exists i | 0 <= i < |table| :: table[i].0 == key
  }

  /** `table[key]`: the label of the first entry with that key. */
  function Lookup(table: Table, key: string): (r: Option<string>)
    ensures r.Some? <==> HasKey(table, key)
    ensures r.Some? ==> (key, r.value) in table
    decreases |table|
  {
    if table == [] then None
    else if table[0].0 == key then Some(table[0].1)
    else
      var r := Lookup(table[1..], key);
      assert HasKey(table, key) ==> HasKey(table[1..], key) by {
        if HasKey(table, key) {
          var i :| 0 <= i < |table| && table[i].0 == key;
          assert table[1..][i - 1].0 == key;
        }
      }
      assert HasKey(table[1..], key) ==> HasKey(table, key) by {
        if HasKey(table[1..], key) {
          var i :| 0 <= i < |table[1..]| && table[1..][i].0 == key;
          assert table[i + 1].0 == key;
        }
      }
      r
  }

  /** `labels[key] || key`: the label when there is a non-empty one, the key itself otherwise. */
  function LabelOr(table: Table, key: string): (shown: string)
    ensures !HasKey(table, key) ==> shown == key
    ensures shown == key || (key, shown) in table
  {
    var r := Lookup(table, key);
    if r.Some? && r.value != "" then r.value else key
  }

  /** Looking a key up in two tables written one after the other finds it in the first
      when it is there, and in the second otherwise. */
  lemma {:induction false} LookupAppend(a: Table, b: Table, key: string)
    ensures Lookup(a + b, key) == if HasKey(a, key) then Lookup(a, key) else Lookup(b, key)
    decreases |a|
  {
    if a == [] {
      assert a + b == b;
    } else {
      assert (a + b)[0] == a[0] && (a + b)[1..] == a[1..] + b;
      if a[0].0 != key {
        LookupAppend(a[1..], b, key);
      }
    }
  }

  /** The same for the label shown: the first table's label when it has the key, the
      second's otherwise. */
  lemma LabelOrAppend(a: Table, b: Table, key: string)
    ensures LabelOr(a + b, key) == if HasKey(a, key) then LabelOr(a, key) else LabelOr(b, key)
  {
    LookupAppend(a, b, key);
  }

  /** Every label of the table is non-empty, so `|| key` never hides a label. */
  predicate LabelsNonEmpty(table: Table) {
    forall i | 0 <= i < |table| :: table[i].1 != ""
  }

  /** With non-empty labels, a key of the table gets its label and no other key is
      translated. */
  lemma LabelOrFallback(table: Table, key: string)
    requires LabelsNonEmpty(table)
    ensures HasKey(table, key) ==> LabelOr(table, key) == Lookup(table, key).value
    ensures HasKey(table, key) <==> LabelOr(table, key) != key || (key, key) in table
  {
    if HasKey(table, key) {
      var r := Lookup(table, key);
      var i :| 0 <= i < |table| && table[i] == (key, r.value);
    }
  }

  /** The contacts page's `getStatusLabel`. */
  const ContactStatusLabels: Table :=
    [("NEW", "Nuevo"), ("READ", "Leído"), ("REPLIED", "Respondido"), ("ARCHIVED", "Archivado")]

  /** The `getStatusLabel` of the bookings and customers pages. */
  const BookingStatusLabels: Table :=
    [("PENDING", "Pendiente"), ("CONFIRMED", "Confirmada"), ("COMPLETED", "Completada"), ("CANCELLED", "Cancelada")]

  /** The dashboard's `getStatusLabel`: the booking entries, then the contact entries. */
  const DashboardStatusLabels: Table := BookingStatusLabels + ContactStatusLabels

  /** `serviceLabels` of the bookings page. */
  const ServiceLabels: Table :=
    [("vehiculos", "Vehículos"), ("entradas", "Entradas"), ("ventanas", "Ventanas"), ("pack", "Pack Completo")]

  /** `serviceLabels` of the contacts page: the bookings page's entries and `otro`, which the
      contact form offers and a message may store. */
  const ContactServiceLabels: Table := ServiceLabels + [("otro", "Otro")]

  /** The contacts page labels every service as the bookings page does, and also translates
      `otro`, which the bookings page would show as the raw key. */
  lemma ContactServiceLabelsExtend(key: string)
    ensures LabelOr(ContactServiceLabels, key) == if key == "otro" then "Otro" else LabelOr(ServiceLabels, key)
    ensures LabelOr(ServiceLabels, "otro") == "otro"
  {
    var extra: Table := [("otro", "Otro")];
    assert !HasKey(ServiceLabels, "otro") by {
      forall i | 0 <= i < |ServiceLabels| ensures ServiceLabels[i].0 != "otro" {
        assert ServiceLabels[i].0[0] != 'o';
      }
    }
    LabelOrAppend(ServiceLabels, extra, key);
    if key == "otro" {
      assert Lookup(extra, key) == Some("Otro");
    }
  }

  /** The settings page's `getRoleLabel`. */
  const RoleLabels: Table := [("ADMIN", "Administrador"), ("STAFF", "Empleado"), ("CUSTOMER", "Cliente")]

  /** Every stored status has its entry: bookings in the booking table, contacts in the
      contact table, and no contact status is a key of the booking table. */
  lemma StoredStatusesAreKeys(b: Db.BookingStatus, c: Db.ContactStatus)
    ensures HasKey(BookingStatusLabels, Db.BookingStatusName(b))
    ensures HasKey(ContactStatusLabels, Db.ContactStatusName(c))
    ensures !HasKey(BookingStatusLabels, Db.ContactStatusName(c))
  {
    var k := Db.BookingStatusName(b);
    var bi := match b case PENDING => 0 case CONFIRMED => 1 case COMPLETED => 2 case CANCELLED => 3;
    assert BookingStatusLabels[bi].0 == k;
    var n := Db.ContactStatusName(c);
    var ci := match c case NEW => 0 case READ => 1 case REPLIED => 2 case ARCHIVED => 3;
    assert ContactStatusLabels[ci].0 == n;
    forall i | 0 <= i < |BookingStatusLabels| ensures BookingStatusLabels[i].0 != n {
      assert BookingStatusLabels[i].0[0] in {'P', 'C'};
      assert n[0] in {'N', 'R', 'A'};
    }
  }

  /** The dashboard labels every stored status as the page that lists it does, and
      leaves any other code untranslated, as both pages do. */
  lemma DashboardAgreesWithPages(b: Db.BookingStatus, c: Db.ContactStatus, other: string)
    requires !HasKey(BookingStatusLabels, other) && !HasKey(ContactStatusLabels, other)
    ensures LabelOr(DashboardStatusLabels, Db.BookingStatusName(b)) == LabelOr(BookingStatusLabels, Db.BookingStatusName(b))
    ensures LabelOr(DashboardStatusLabels, Db.ContactStatusName(c)) == LabelOr(ContactStatusLabels, Db.ContactStatusName(c))
    ensures LabelOr(DashboardStatusLabels, other) == other
  {
    StoredStatusesAreKeys(b, c);
    LabelOrAppend(BookingStatusLabels, ContactStatusLabels, Db.BookingStatusName(b));
    LabelOrAppend(BookingStatusLabels, ContactStatusLabels, Db.ContactStatusName(c));
    LabelOrAppend(BookingStatusLabels, ContactStatusLabels, other);
  }

  /** `getRoleLabel`: each role has its Spanish name, which is never the stored code. */
  lemma RoleLabelsTranslate(r: Auth.Role)
    ensures HasKey(RoleLabels, Auth.RoleName(r))
    ensures LabelOr(RoleLabels, Auth.RoleName(r)) != Auth.RoleName(r)
  {
    var k := Auth.RoleName(r);
    var i := match r case ADMIN => 0 case STAFF => 1 case CUSTOMER => 2;
    assert RoleLabels[i].0 == k;
    assert Lookup(RoleLabels, k) == Some(RoleLabels[i].1);
    assert |RoleLabels[i].1| != |k|;
  }

  // ---- list URLs ------------------------------------------------------------------

  /** `fetchBookings` / `fetchContacts`: the bare endpoint for `ALL`, otherwise the
      status as a query parameter. */
  function ListUrl(base: string, filter: string): (url: string)
    ensures filter == "ALL" ==> url == base
    ensures filter != "ALL" ==> url == base + "?status=" + filter
  {
    if filter == "ALL" then base else base + "?status=" + filter
  }

  /** The page asks for a status filter exactly when the list endpoint applies one: the
      query value the endpoint reads is the filter, and the endpoint filters on it
      exactly when it is present and not `ALL`. */
  lemma ListUrlMatchesServerFilter(base: string, filter: string)
    requires filter != ""
    ensures ListUrl(base, filter) != base <==> Bookings.StatusFilterActive(Some(filter))
    ensures ListUrl(base, filter) != base ==> ListUrl(base, filter)[|base| + 8..] == filter
  {
    if filter != "ALL" {
      assert |ListUrl(base, filter)| > |base|;
    }
  }

  // ---- status changes ---------------------------------------------------------------

  /** A listed booking or contact: its id, its status code and the rest of its fields. */
  datatype Row<D> = Row(id: string, status: string, details: D)

  /** `rows.map(r => r.id === id ? { ...r, status } : r)`. */
  function SetStatus<D>(rows: seq<Row<D>>, id: string, status: string): (r: seq<Row<D>>)
    ensures |r| == |rows|
    ensures forall i | 0 <= i < |rows| ::
              r[i].id == rows[i].id && r[i].details == rows[i].details
              && r[i].status == (if rows[i].id == id then status else rows[i].status)
  {
    seq(|rows|, i requires 0 <= i < |rows| => if rows[i].id == id then rows[i].(status := status) else rows[i])
  }

  /** Setting the same status twice is setting it once. */
  lemma SetStatusIdempotent<D>(rows: seq<Row<D>>, id: string, status: string)
    ensures SetStatus(SetStatus(rows, id, status), id, status) == SetStatus(rows, id, status)
  {
  }

  /** A change for an id no row has leaves the list as it is. */
  lemma SetStatusAbsentId<D>(rows: seq<Row<D>>, id: string, status: string)
    requires forall i | 0 <= i < |rows| :: rows[i].id != id
    ensures SetStatus(rows, id, status) == rows
  {
  }

  /** `updateBookingStatus`: on success the list shows the new status on the row with that
      id; on failure (an alert) nothing changes. */
  function UpdateStatus<D>(rows: seq<Row<D>>, id: string, status: string, success: bool): (r: seq<Row<D>>)
    ensures !success ==> r == rows
    ensures success ==> r == SetStatus(rows, id, status)
  {
    if success then SetStatus(rows, id, status) else rows
  }

  // ---- the contacts page's dialog ----------------------------------------------------

  /** The contacts page's state: the list, the contact held for the dialog, and whether the
      dialog is open. */
  datatype ContactsPage<D> = ContactsPage(contacts: seq<Row<D>>, selected: Option<Row<D>>, dialogOpen: bool)

  /** `updateContactStatus(id, status)` as run by a handler whose closure saw `held` as
      `selectedContact`: on success the list row changes, and the dialog's contact is
      replaced by `held` with the new status when `held` has that id. */
  function UpdateContactStatus<D>(p: ContactsPage<D>, held: Option<Row<D>>, id: string, status: string, success: bool)
    : (r: ContactsPage<D>)
    ensures r.contacts == UpdateStatus(p.contacts, id, status, success)
    ensures r.dialogOpen == p.dialogOpen
    ensures success && held.Some? && held.value.id == id ==> r.selected == Some(held.value.(status := status))
    ensures !(success && held.Some? && held.value.id == id) ==> r.selected == p.selected
  {
    if !success then p
    else
      var selected := if held.Some? && held.value.id == id then Some(held.value.(status := status)) else p.selected;
      p.(contacts := SetStatus(p.contacts, id, status), selected := selected)
  }

  /** `handleContactClick` as written: the dialog opens on the contact and a new contact is
      marked as read, but the handler's closure holds the `selectedContact` of the render
      before the click. */
  function ContactClick<D>(p: ContactsPage<D>, c: Row<D>, success: bool): (r: ContactsPage<D>)
    ensures r.dialogOpen
    ensures c.status != "NEW" ==> r.contacts == p.contacts && r.selected == Some(c)
    ensures c.status == "NEW" ==> r.contacts == UpdateStatus(p.contacts, c.id, "READ", success)
  {
    var clicked := p.(selected := Some(c), dialogOpen := true);
    if c.status == "NEW" then UpdateContactStatus(clicked, p.selected, c.id, "READ", success) else clicked
  }

  /** `handleContactClick` as evidently intended: the dialog's contact is the clicked one. */
  function ContactClickIntended<D>(p: ContactsPage<D>, c: Row<D>, success: bool): (r: ContactsPage<D>)
    ensures r.dialogOpen
    ensures c.status != "NEW" ==> r.contacts == p.contacts && r.selected == Some(c)
    ensures c.status == "NEW" ==> r.contacts == UpdateStatus(p.contacts, c.id, "READ", success)
    ensures c.status == "NEW" ==> r.selected == Some(if success then c.(status := "READ") else c)
  {
    var clicked := p.(selected := Some(c), dialogOpen := true);
    if c.status == "NEW" then UpdateContactStatus(clicked, Some(c), c.id, "READ", success) else clicked
  }

  /** The dialog's Select (`updateContactStatus(selectedContact.id, …)`), run from the
      current render. */
  function DialogChange<D>(p: ContactsPage<D>, status: string, success: bool): (r: ContactsPage<D>)
    ensures p.selected.None? ==> r == p
    ensures p.selected.Some? && success ==> r.selected == Some(p.selected.value.(status := status))
  {
    if p.selected.Some? then UpdateContactStatus(p, p.selected, p.selected.value.id, status, success) else p
  }

  /** `handleCloseDialog`; the timer that then drops the selection is folded in. */
  function CloseDialog<D>(p: ContactsPage<D>): (r: ContactsPage<D>)
    ensures !r.dialogOpen && r.selected.None? && r.contacts == p.contacts
  {
    p.(dialogOpen := false, selected := None)
  }

  predicate DistinctIds<D>(rows: seq<Row<D>>) {
    forall i, j | 0 <= i < j < |rows| :: rows[i].id != rows[j].id
  }

  /** The dialog shows the same status as the list row of the same contact. */
  predicate Synced<D>(p: ContactsPage<D>) {
    p.selected.Some? ==>
      forall i | 0 <= i < |p.contacts| && p.contacts[i].id == p.selected.value.id ::
        p.contacts[i].status == p.selected.value.status
  }

  /** As written, the first click on a new contact, or any click after the dialog was
      closed, leaves the dialog showing "NEW" while the list shows "READ". */
  lemma ContactClickStaleDialog<D>(p: ContactsPage<D>, c: Row<D>)
    requires p.selected.None? && c.status == "NEW" && c in p.contacts
    ensures var r := ContactClick(p, c, true);
            && r.selected == Some(c) && r.selected.value.status == "NEW"
            && (exists i | 0 <= i < |r.contacts| :: r.contacts[i].id == c.id && r.contacts[i].status == "READ")
            && !Synced(r)
  {
    var r := ContactClick(p, c, true);
    var i :| 0 <= i < |p.contacts| && p.contacts[i] == c;
    assert r.contacts[i].id == c.id && r.contacts[i].status == "READ";
    assert "READ"[0] != "NEW"[0];
  }

  /** The intended click keeps the dialog in step with the list. */
  lemma ContactClickIntendedSynced<D>(p: ContactsPage<D>, c: Row<D>, success: bool)
    requires DistinctIds(p.contacts) && c in p.contacts
    ensures Synced(ContactClickIntended(p, c, success))
  {
    var k :| 0 <= k < |p.contacts| && p.contacts[k] == c;
    var r := ContactClickIntended(p, c, success);
    forall i | 0 <= i < |r.contacts| && r.contacts[i].id == c.id
      ensures r.contacts[i].status == r.selected.value.status
    {
      assert i == k;
    }
  }

  /** The dialog's Select keeps the dialog in step with the list. */
  lemma DialogChangeKeepsSynced<D>(p: ContactsPage<D>, status: string, success: bool)
    requires Synced(p)
    ensures Synced(DialogChange(p, status, success))
  {
  }

  // ---- the settings page ----------------------------------------------------------

  /** The settings form: the five inputs, the profile shown, and the two messages. */
  datatype SettingsForm = SettingsForm(
    name: string,
    email: string,
    currentPassword: string,
    newPassword: string,
    confirmPassword: string,
    profile: Option<Profile.ProfileView>,
    error: string,
    success: string)

  /** What the `PATCH /api/admin/profile` call came back with. */
  datatype SaveResponse =
    | SaveSucceeded(message: string, user: Option<Profile.ProfileView>)
    | SaveFailed(error: Option<string>)
    | SaveUnreachable

  /** The body `handleSubmit` sends: the name and the email always, the two passwords only
      when a new password was typed. */
  function SettingsRequest(f: SettingsForm): (req: Profile.ProfileRequest)
    ensures req.name == Some(f.name) && req.email == Some(f.email)
    ensures f.newPassword != "" ==> req.currentPassword == Some(f.currentPassword) && req.newPassword == Some(f.newPassword)
    ensures f.newPassword == "" ==> req.currentPassword.None? && req.newPassword.None?
  {
    if f.newPassword != "" then
      Profile.ProfileRequest(Some(f.name), Some(f.email), Some(f.currentPassword), Some(f.newPassword))
    else Profile.ProfileRequest(Some(f.name), Some(f.email), None, None)
  }

  const PasswordsDiffer := "Las contraseñas no coinciden"
  const CurrentPasswordNeeded := "Debes proporcionar tu contraseña actual"
  const SaveError := "Error al actualizar el perfil"

  /** `handleSubmit`, with the server's answer `reply` to the request if one is sent. */
  function SettingsSubmit(f: SettingsForm, reply: SaveResponse): (res: (SettingsForm, Option<Profile.ProfileRequest>))
    // The request is sent unless a password was typed and the two differ or the current
    // one is missing.
    ensures res.1.Some? <==>
              (f.newPassword == "" && f.confirmPassword == "")
              || (f.newPassword == f.confirmPassword && f.currentPassword != "")
    ensures res.1.Some? ==> res.1.value == SettingsRequest(f)
    ensures (f.newPassword != "" || f.confirmPassword != "") && f.newPassword != f.confirmPassword ==>
              res.0 == f.(error := PasswordsDiffer, success := "")
    ensures f.newPassword == f.confirmPassword && f.newPassword != "" && f.currentPassword == "" ==>
              res.0 == f.(error := CurrentPasswordNeeded, success := "")
    // A saved profile shows the server's message, takes the returned user when there is
    // one and empties the three password inputs.
    ensures res.1.Some? && reply.SaveSucceeded? ==>
              && res.0.error == "" && res.0.success == reply.message
              && res.0.profile == (if reply.user.Some? then reply.user else f.profile)
              && res.0.currentPassword == "" && res.0.newPassword == "" && res.0.confirmPassword == ""
              && res.0.name == f.name && res.0.email == f.email
    // A refused or failed save shows the server's error, or the generic one, and keeps
    // every input.
    ensures res.1.Some? && !reply.SaveSucceeded? ==>
              res.0 == f.(error := if reply.SaveFailed? && Present(reply.error) then reply.error.value else SaveError,
                          success := "")
  {
    var f := f.(error := "", success := "");
    if (f.newPassword != "" || f.confirmPassword != "") && f.newPassword != f.confirmPassword then
      (f.(error := PasswordsDiffer), None)
    else if (f.newPassword != "" || f.confirmPassword != "") && f.currentPassword == "" then
      (f.(error := CurrentPasswordNeeded), None)
    else
      var req := SettingsRequest(f);
      var f' := match reply
        case SaveSucceeded(message, user) =>
          f.(success := message, profile := if user.Some? then user else f.profile,
             currentPassword := "", newPassword := "", confirmPassword := "")
        case SaveFailed(error) => f.(error := if Present(error) then error.value else SaveError)
        case SaveUnreachable => f.(error := SaveError);
      (f', Some(req))
  }

  /** The page's own checks keep the server's "current password required" answer from
      ever coming back: whenever a request asks for a new password, it carries a
      non-empty current one. */
  lemma SettingsNeverMissesCurrentPassword(f: SettingsForm, reply: SaveResponse, users: seq<Db.User>, id: Db.UserId,
                                           passwordMatches: (string, string) -> bool, newHash: string)
    requires id < |users|
    requires SettingsSubmit(f, reply).1.Some?
    ensures Profile.PlanUpdate(users, id, SettingsSubmit(f, reply).1.value, passwordMatches, newHash)
            != Profile.PlanRejected(Profile.CurrentPasswordMissing)
  {
    var req := SettingsSubmit(f, reply).1.value;
    if Profile.WantsPassword(req) {
      assert f.newPassword != "";
      assert Present(req.currentPassword);
    }
  }

  /** With both new-password inputs empty, the request changes no password, whatever is
      typed in the current-password input. */
  lemma SettingsWithoutNewPassword(f: SettingsForm, reply: SaveResponse)
    requires f.newPassword == "" && f.confirmPassword == ""
    ensures SettingsSubmit(f, reply).1.Some?
    ensures !Profile.WantsPassword(SettingsSubmit(f, reply).1.value)
  {
  }

  // ---- the dashboard -------------------------------------------------------------------

  /** `message.substring(0, 60) + '...'`: the message's first 60 characters, always
      followed by an ellipsis. */
  function Preview(message: string): (p: string)
    ensures |p| == (if |message| <= 60 then |message| else 60) + 3
    ensures p[..|p| - 3] <= message && p[|p| - 3..] == "..."
  {
    message[..if |message| <= 60 then |message| else 60] + "..."
  }

  /** A message of at most 60 characters is shown whole, and any longer one as its first 60
      characters: its preview is that of its first 60 characters. */
  lemma PreviewTruncates(message: string)
    ensures |message| <= 60 ==> Preview(message) == message + "..."
    ensures |message| > 60 ==> Preview(message) == Preview(message[..60])
  {
    if |message| <= 60 {
      assert message[..|message|] == message;
    }
  }
}

=== FILE: auth.dfy ===
/**
 The pure helpers of lib/auth.ts and lib/auth-guard.ts: roles, session
 expiry arithmetic, token generation, the password policy and the cuid
 shape. bcrypt hashing and comparison are not modelled; their verdicts are
 inputs of the handlers that use them.
 */
module Auth {
  import opened Text
  import SessionHash

  datatype Role = ADMIN | STAFF | CUSTOMER

  function RoleName(r: Role): string {
    match r
    case ADMIN => "ADMIN"
    case STAFF => "STAFF"
    case CUSTOMER => "CUSTOMER"
  }

  const MsPerDay: nat := 24 * 60 * 60 * 1000
  const DefaultSessionDays: nat := 7
  const TokenLength: nat := 32

  /** `isSessionExpired`: strictly past the expiry instant. */
  predicate IsSessionExpired(now: int, expiresAt: int) {
    now > expiresAt
  }

  /** `getSessionExpiry(days)`: `days` whole days after `now` (daylight-saving shifts not modelled). */
  function GetSessionExpiry(now: nat, days: nat): (expiresAt: nat)
    ensures expiresAt >= now
    ensures !IsSessionExpired(now, expiresAt)
  {
    now + days * MsPerDay
  }

  /** A fresh session stays valid through its whole lifetime, including the instant it
      expires, and is expired from the next millisecond on. */
  lemma SessionLifetime(issued: nat, t: int)
    ensures IsSessionExpired(t, GetSessionExpiry(issued, DefaultSessionDays))
            <==> t > issued + 7 * 86_400_000
  {
  }

  /** `generateSessionToken` = `nanoid(32)`. */
  function GenerateSessionToken(bytes: seq<nat>): (token: string)
    requires |bytes| == TokenLength && SessionHash.IsRandomBytes(bytes)
    ensures |token| == 32
    ensures token != ""
  {
    SessionHash.Nanoid(bytes)
  }

  // ---- password policy ------------------------------------------------------

  /** The four rules, in the order the source tests them. */
  datatype PasswordRule = TooShort | NoUpper | NoLower | NoDigit

  function RuleIndex(r: PasswordRule): nat {
    match r
    case TooShort => 0
    case NoUpper => 1
    case NoLower => 2
    case NoDigit => 3
  }

  predicate HasUpper(s: string) { exists i | 0 <= i < |s| :: IsUpper(s[i]) }
  predicate HasLower(s: string) { exists i | 0 <= i < |s| :: IsLower(s[i]) }
  predicate HasDigit(s: string) { exists i | 0 <= i < |s| :: IsDigit(s[i]) }

  predicate Violates(password: string, rule: PasswordRule) {
    match rule
    case TooShort => |password| < 8
    case NoUpper => !HasUpper(password)
    case NoLower => !HasLower(password)
    case NoDigit => !HasDigit(password)
  }

  /** The violated rules, each once, in the source's order. */
  function ViolatedRules(password: string): (rules: seq<PasswordRule>)
    ensures forall r :: r in rules <==> Violates(password, r)
    ensures forall i, j | 0 <= i < j < |rules| :: RuleIndex(rules[i]) < RuleIndex(rules[j])
    ensures |rules| <= 4
  {
    (if |password| < 8 then [TooShort] else [])
    + (if !HasUpper(password) then [NoUpper] else [])
    + (if !HasLower(password) then [NoLower] else [])
    + (if !HasDigit(password) then [NoDigit] else [])
  }

  function GuardMessage(rule: PasswordRule): string {
    match rule
    case TooShort => "La contraseña debe tener al menos 8 caracteres"
    case NoUpper => "La contraseña debe contener al menos una mayúscula"
    case NoLower => "La contraseña debe contener al menos una minúscula"
    case NoDigit => "La contraseña debe contener al menos un número"
  }

  datatype PasswordCheck = PasswordCheck(isValid: bool, errors: seq<string>)

  function Messages(rules: seq<PasswordRule>, message: PasswordRule -> string): (ms: seq<string>)
    ensures |ms| == |rules|
    ensures forall i | 0 <= i < |rules| :: ms[i] == message(rules[i])
  {
    seq(|rules|, i requires 0 <= i < |rules| => message(rules[i]))
  }

  /** `validatePassword` of lib/auth-guard.ts: one message per violated rule, in rule
      order; valid exactly when the password has 8+ characters, an upper-case letter,
      a lower-case letter and a digit. */
  function ValidatePassword(password: string): (r: PasswordCheck)
    ensures r.isValid <==> r.errors == []
    ensures r.isValid <==> |password| >= 8 && HasUpper(password) && HasLower(password) && HasDigit(password)
    ensures |r.errors| <= 4
    ensures forall rule :: GuardMessage(rule) in r.errors <==> Violates(password, rule)
  {
    var rules := ViolatedRules(password);
    var errors := Messages(rules, GuardMessage);
    forall a, b | GuardMessage(a) == GuardMessage(b) ensures a == b {
      GuardMessageInjective(a, b);
    }
    MessagesListRules(rules, GuardMessage);
    PasswordCheck(|errors| == 0, errors)
  }

  /** Messages that tell the rules apart name exactly the rules they are given. */
  lemma MessagesListRules(rules: seq<PasswordRule>, message: PasswordRule -> string)
    requires forall a, b | message(a) == message(b) :: a == b
    ensures forall rule :: message(rule) in Messages(rules, message) <==> rule in rules
  {
    var errors := Messages(rules, message);
    forall rule ensures message(rule) in errors <==> rule in rules {
      if message(rule) in errors {
        var i :| 0 <= i < |errors| && errors[i] == message(rule);
        assert message(rules[i]) == message(rule);
      }
      if rule in rules {
        var i :| 0 <= i < |rules| && rules[i] == rule;
        assert errors[i] == message(rule);
      }
    }
  }

  lemma GuardMessageInjective(a: PasswordRule, b: PasswordRule)
    requires GuardMessage(a) == GuardMessage(b)
    ensures a == b
  {
  }

  /** `isValidCuid`: `^c[a-z0-9]{24}$`. */
  predicate IsValidCuid(id: string) {
    |id| == 25 && id[0] == 'c' && forall i | 1 <= i < 25 :: IsLower(id[i]) || IsDigit(id[i])
  }

  /** A cuid is exactly a `c` followed by 24 lower-case letters or digits; in particular no
      upper-case letter, no separator and no other length is accepted. */
  lemma CuidShape(id: string)
    ensures IsValidCuid(id) <==> (|id| == 25 && StartsWith(id, "c")
                                  && forall i | 0 <= i < |id| :: IsLower(id[i]) || IsDigit(id[i]))
  {
  }
}

=== FILE: booking_form.dfy ===
/**
 components/BookingForm.tsx: the three-step booking wizard of the public site.
 Step 1 chooses services, step 2 a date and a time slot, step 3 the contact
 details; the Back and Next buttons move between steps and the last step's
 button submits. The wizard is modelled as a state machine over the user's
 events; a submitted wizard shows only its summary and takes no more events.
 */
module BookingForm {
  import Collections

  datatype BookingData = BookingData(
    services: seq<string>,
    date: string,
    time: string,
    name: string,
    email: string,
    phone: string,
    address: string,
    notes: string)

  const InitialData := BookingData([], "", "", "", "", "", "", "")

  /** `toggleService`: a chosen service is removed (every occurrence of it), any other is
      appended at the end. */
  function ToggleService(current: seq<string>, id: string): (r: seq<string>)
    ensures id in current ==> id !in r && forall s :: s in r <==> s in current && s != id
    ensures id in current ==> |r| < |current|
    ensures id in current ==> multiset(r) == multiset(current)[id := 0]
    ensures id !in current ==> r == current + [id]
  {
    if id in current then
      var r := Collections.Filter(current, (s: string) => s != id);
      Collections.FilterOutMultiset(current, (s: string) => s != id, id);
      var k :| 0 <= k < |current| && current[k] == id;
      Collections.FilterShortens(current, (s: string) => s != id, k);
      r
    else current + [id]
  }

  /** A list of services without repetitions stays so. */
  lemma ToggleKeepsDistinct(current: seq<string>, id: string)
    requires Collections.Distinct(current)
    ensures Collections.Distinct(ToggleService(current, id))
  {
    if id in current {
      Collections.FilterKeepsDistinct(current, (s: string) => s != id);
    }
  }

  /** Toggling an absent service twice restores the list exactly. */
  lemma ToggleTwiceAbsent(current: seq<string>, id: string)
    requires id !in current
    ensures ToggleService(ToggleService(current, id), id) == current
  {
    var p := (s: string) => s != id;
    Collections.FilterDropsLast(current, id, p);
  }

  /** Toggling a chosen service twice keeps the same services, and moves it to the end. */
  lemma ToggleTwicePresent(current: seq<string>, id: string)
    requires id in current
    ensures forall s :: s in ToggleService(ToggleService(current, id), id) <==> s in current
    ensures var twice := ToggleService(ToggleService(current, id), id);
            twice[|twice| - 1] == id
  {
  }

  /** `canProceed`: what each step needs before moving on. */
  predicate CanProceed(step: int, d: BookingData) {
    if step == 1 then |d.services| > 0
    else if step == 2 then d.date != "" && d.time != ""
    else if step == 3 then d.name != "" && d.email != "" && d.phone != "" && d.address != ""
    else false
  }

  datatype Field = Date | Time | Name | Email | Phone | Address | Notes

  /** The step whose screen shows the field's input. */
  function FieldStep(f: Field): int {
    match f
    case Date => 2
    case Time => 2
    case _ => 3
  }

  /** `updateData(key, value)`. */
  function SetField(d: BookingData, f: Field, v: string): (r: BookingData)
    ensures r.services == d.services
  {
    match f
    case Date => d.(date := v)
    case Time => d.(time := v)
    case Name => d.(name := v)
    case Email => d.(email := v)
    case Phone => d.(phone := v)
    case Address => d.(address := v)
    case Notes => d.(notes := v)
  }

  datatype Wizard = Wizard(step: int, data: BookingData, isSubmitted: bool)

  const Initial := Wizard(1, InitialData, false)

  datatype Event =
    | Toggle(serviceId: string)
    | Edit(field: Field, value: string)
    | Back
    | NextStep
    | Submit

  /** One user event. Inputs act only on the screen that shows them; Back is disabled on
      step 1; Next exists below step 3 and Submit on step 3, each enabled only when
      `canProceed` holds. Submitting marks the wizard submitted and keeps its data. */
  function Step(w: Wizard, e: Event): (w': Wizard)
    ensures w.isSubmitted ==> w' == w
    ensures e == Submit ==> w'.data == w.data && w'.step == w.step
    ensures w'.isSubmitted && !w.isSubmitted ==> e == Submit && w.step >= 3 && CanProceed(w.step, w.data)
    ensures w'.step != w.step ==> e == Back || (e == NextStep && CanProceed(w.step, w.data))
    // What each enabled control does.
    ensures !w.isSubmitted && e.Toggle? && w.step == 1 ==>
              w' == w.(data := w.data.(services := ToggleService(w.data.services, e.serviceId)))
    ensures !w.isSubmitted && e.Edit? && w.step == FieldStep(e.field) ==>
              w' == w.(data := SetField(w.data, e.field, e.value))
    ensures !w.isSubmitted && (e.Toggle? || e.Edit?) ==> w'.step == w.step && !w'.isSubmitted
    ensures !w.isSubmitted && e == Back && w.step > 1 ==> w' == w.(step := w.step - 1)
    ensures !w.isSubmitted && e == NextStep && w.step < 3 && CanProceed(w.step, w.data) ==>
              w' == w.(step := w.step + 1)
    ensures !w.isSubmitted && e == Submit && w.step >= 3 && CanProceed(w.step, w.data) ==>
              w' == w.(isSubmitted := true)
  {
    if w.isSubmitted then w
    else match e
      case Toggle(id) =>
        if w.step == 1 then w.(data := w.data.(services := ToggleService(w.data.services, id))) else w
      case Edit(f, v) =>
        if w.step == FieldStep(f) then w.(data := SetField(w.data, f, v)) else w
      case Back =>
        if w.step == 1 then w else w.(step := w.step - 1)
      case NextStep =>
        if w.step < 3 && CanProceed(w.step, w.data) then w.(step := w.step + 1) else w
      case Submit =>
        if !(w.step < 3) && CanProceed(w.step, w.data) then w.(isSubmitted := true) else w
  }

  function Run(w: Wizard, es: seq<Event>): Wizard
    decreases |es|
  {
    if es == [] then w else Run(Step(w, es[0]), es[1..])
  }

  /** What every reachable wizard satisfies: the step is 1, 2 or 3, no service is chosen
      twice, every step already passed still meets its `canProceed`, and a submitted
      wizard is on step 3 with its contact details filled in. */
  predicate Inv(w: Wizard) {
    && 1 <= w.step <= 3
    && Collections.Distinct(w.data.services)
    && (w.step >= 2 ==> CanProceed(1, w.data))
    && (w.step >= 3 ==> CanProceed(2, w.data))
    && (w.isSubmitted ==> w.step == 3 && CanProceed(3, w.data))
  }

  lemma StepKeepsInv(w: Wizard, e: Event)
    requires Inv(w)
    ensures Inv(Step(w, e))
  {
    if !w.isSubmitted && e.Toggle? && w.step == 1 {
      ToggleKeepsDistinct(w.data.services, e.serviceId);
    }
  }

  lemma {:induction false} RunKeepsInv(w: Wizard, es: seq<Event>)
    requires Inv(w)
    ensures Inv(Run(w, es))
    decreases |es|
  {
    if es != [] {
      StepKeepsInv(w, es[0]);
      RunKeepsInv(Step(w, es[0]), es[1..]);
    }
  }

  /** Whatever the user does, a submitted booking has at least one service, each chosen
      once, a date, a time, a name, an email, a phone and an address. */
  lemma SubmittedBookingIsComplete(es: seq<Event>)
    ensures var w := Run(Initial, es);
            w.isSubmitted ==>
              && w.data.services != [] && Collections.Distinct(w.data.services)
              && w.data.date != "" && w.data.time != ""
              && w.data.name != "" && w.data.email != "" && w.data.phone != "" && w.data.address != ""
  {
    RunKeepsInv(Initial, es);
  }

  /** The intended path through the wizard: choose one service, go on, fill in the date and
      time, go on, fill in the contact details and submit. */
  function ChooseService(service: string): seq<Event> {
    [Toggle(service), NextStep]
  }

  function ChooseSlot(d: BookingData): seq<Event> {
    [Edit(Date, d.date), Edit(Time, d.time), NextStep]
  }

  function FillContact(d: BookingData): seq<Event> {
    [Edit(Name, d.name), Edit(Email, d.email), Edit(Phone, d.phone), Edit(Address, d.address),
     Edit(Notes, d.notes), Submit]
  }

  function HappyPath(service: string, d: BookingData): seq<Event> {
    ChooseService(service) + ChooseSlot(d) + FillContact(d)
  }

  /** Running two event sequences one after the other is running their concatenation. */
  lemma {:induction false} RunAppend(w: Wizard, a: seq<Event>, b: seq<Event>)
    ensures Run(w, a + b) == Run(Run(w, a), b)
    decreases |a|
  {
    if a == [] {
      assert a + b == b;
    } else {
      assert (a + b)[0] == a[0] && (a + b)[1..] == a[1..] + b;
      RunAppend(Step(w, a[0]), a[1..], b);
    }
  }

  lemma ChooseServiceRun(service: string)
    ensures Run(Initial, ChooseService(service)) == Wizard(2, InitialData.(services := [service]), false)
  {
    var es := ChooseService(service);
    var w1 := Step(Initial, es[0]);
    assert w1 == Wizard(1, InitialData.(services := [service]), false);
    assert Run(Initial, es) == Run(w1, es[1..]);
    assert Run(w1, es[1..]) == Run(Step(w1, NextStep), []);
  }

  lemma ChooseSlotRun(w: Wizard, d: BookingData)
    requires w.step == 2 && !w.isSubmitted && d.date != "" && d.time != ""
    ensures Run(w, ChooseSlot(d)) == Wizard(3, w.data.(date := d.date, time := d.time), false)
  {
    var es := ChooseSlot(d);
    var w1 := Step(w, es[0]);
    var w2 := Step(w1, es[1]);
    assert w2 == w.(data := w.data.(date := d.date, time := d.time));
    assert Run(w, es) == Run(w1, es[1..]);
    assert Run(w1, es[1..]) == Run(w2, es[2..]);
    assert Run(w2, es[2..]) == Run(Step(w2, NextStep), []);
  }

  lemma FillContactRun(w: Wizard, d: BookingData)
    requires w.step == 3 && !w.isSubmitted
    requires d.name != "" && d.email != "" && d.phone != "" && d.address != ""
    ensures Run(w, FillContact(d)) ==
              Wizard(3, w.data.(name := d.name, email := d.email, phone := d.phone, address := d.address, notes := d.notes), true)
  {
    var es := FillContact(d);
    var w1 := Step(w, es[0]);
    var w2 := Step(w1, es[1]);
    var w3 := Step(w2, es[2]);
    var w4 := Step(w3, es[3]);
    var w5 := Step(w4, es[4]);
    assert w5 == w.(data := w.data.(name := d.name, email := d.email, phone := d.phone, address := d.address, notes := d.notes));
    assert Run(w, es) == Run(w1, es[1..]);
    assert Run(w1, es[1..]) == Run(w2, es[2..]);
    assert Run(w2, es[2..]) == Run(w3, es[3..]);
    assert Run(w3, es[3..]) == Run(w4, es[4..]);
    assert Run(w4, es[4..]) == Run(w5, es[5..]);
    assert Run(w5, es[5..]) == Run(Step(w5, Submit), []);
  }

  /** With one service and every required entry non-empty, the intended path ends in a
      submitted wizard that carries exactly what was entered. */
  lemma HappyPathSubmits(service: string, d: BookingData)
    requires d.services == [service]
    requires d.date != "" && d.time != "" && d.name != "" && d.email != "" && d.phone != "" && d.address != ""
    ensures Run(Initial, HappyPath(service, d)) == Wizard(3, d, true)
  {
    RunAppend(Initial, ChooseService(service) + ChooseSlot(d), FillContact(d));
    RunAppend(Initial, ChooseService(service), ChooseSlot(d));
    ChooseServiceRun(service);
    var w2 := Run(Initial, ChooseService(service));
    ChooseSlotRun(w2, d);
    FillContactRun(Run(w2, ChooseSlot(d)), d);
  }
}

=== FILE: bookings_api.dfy ===
/**
 `GET /api/bookings` (the staff listing with its status and date filters) and
 `POST /api/bookings` (the public booking form: rate limit, input checks,
 `sanitize`, creation of a PENDING booking). The checks this route shares with
 the signup route are defined here once. Dates are millisecond timestamps:
 `parseDate` stands for `new Date(date)` (None when the string does not parse)
 and `today` for the start of the current day.
 */
module Bookings {
  import opened Text
  import opened Db
  import RateLimit
  import Collections
  import opened Validation
  import Sessions

  // ---- GET /api/bookings ------------------------------------------------------

  datatype BookingQuery = BookingQuery(status: Option<string>, dateFrom: Option<int>, dateTo: Option<int>)

  /** `status && status !== 'ALL'`: only then is the status compared. */
  predicate StatusFilterActive(status: Option<string>) {
    Present(status) && status.value != "ALL"
  }

  /** The `where` clause: status equality when active, and inclusive date bounds when given. */
  predicate Selected(q: BookingQuery, b: Booking) {
    && (StatusFilterActive(q.status) ==> BookingStatusName(b.status) == q.status.value)
    && (q.dateFrom.Some? ==> q.dateFrom.value <= b.date)
    && (q.dateTo.Some? ==> b.date <= q.dateTo.value)
  }

  /** A status filter the store accepts: none, `ALL`, or one of the enum's values. Any
      other value makes the query throw, which the handler answers with a 500. */
  predicate StatusAccepted(status: Option<string>) {
    StatusFilterActive(status) ==> ParseBookingStatus(status.value).Some?
  }

  function CreatedKey(b: Booking): int { b.createdAt }

  datatype BookingList = BookingsListed(bookings: seq<Booking>, count: nat) | BookingsRefused(status: nat, message: string)

  /** Staff only; the selected bookings, newest first. The guard may delete an expired session. */
  function ListBookings(db: Db, cookie: Option<string>, now: int, q: BookingQuery): (res: (BookingList, Db))
    ensures res.1 == Sessions.VerifySession(db, cookie, now).1
    ensures res.0.BookingsListed? <==> Sessions.RequireStaff(db, cookie, now).0.Granted? && StatusAccepted(q.status)
    ensures Sessions.RequireStaff(db, cookie, now).0.Refused? ==>
              res.0 == BookingsRefused(Sessions.RequireStaff(db, cookie, now).0.status,
                                       Sessions.RequireStaff(db, cookie, now).0.message)
    ensures Sessions.RequireStaff(db, cookie, now).0.Granted? && !StatusAccepted(q.status) ==>
              res.0.BookingsRefused? && res.0.status == 500
    ensures res.0.BookingsListed? ==>
              && multiset(res.0.bookings) == multiset(Collections.Filter(db.bookings, (b: Booking) => Selected(q, b)))
              && (forall b :: b in res.0.bookings <==> b in db.bookings && Selected(q, b))
              && Collections.SortedDesc(res.0.bookings, CreatedKey)
              && res.0.count == |res.0.bookings|
  {
    var (g, db') := Sessions.RequireStaff(db, cookie, now);
    if g.Refused? then (BookingsRefused(g.status, g.message), db')
    else if !StatusAccepted(q.status) then (BookingsRefused(500, "Failed to fetch bookings"), db')
    else
      var chosen := Collections.Filter(db.bookings, (b: Booking) => Selected(q, b));
      var sorted := Collections.SortDesc(chosen, CreatedKey);
      assert forall b :: b in sorted <==> b in chosen by {
        forall b ensures b in sorted <==> b in chosen {
          assert b in sorted <==> b in multiset(sorted);
          assert b in chosen <==> b in multiset(chosen);
        }
      }
      (BookingsListed(sorted, |sorted|), db')
  }

  // ---- checks shared with the signup route ----------------------------------

  /** `services` is a non-empty array; `None` is an absent or non-array value. */
  predicate HasServices(services: Option<seq<string>>) {
    services.Some? && |services.value| > 0
  }

  /** The three length caps, on the raw input; `notes` only when present. */
  predicate WithinCaps(name: string, address: string, notes: Option<string>) {
    |name| <= NameCap && |address| <= AddressCap && (Present(notes) ==> |notes.value| <= NotesCap)
  }

  /** `bookingDate <= today` is true: a parsed date at or before the start of today.
      An unparseable date is NaN, and every comparison with NaN is false. */
  predicate NotInFuture(parsed: Option<int>, today: int) {
    parsed.Some? && parsed.value <= today
  }

  /** `notes ? sanitize(notes) : null`. */
  function StoredNotes(notes: Option<string>): (r: Option<string>)
    ensures r.Some? <==> Present(notes)
    ensures r.Some? ==> |r.value| <= |notes.value| && NoTag(r.value)
  {
    if Present(notes) then Some(Sanitize(notes.value)) else None
  }

  // ---- POST /api/bookings -----------------------------------------------------

  datatype BookingRequest = BookingRequest(
    services: Option<seq<string>>,
    date: Option<string>,
    time: Option<string>,
    name: Option<string>,
    email: Option<string>,
    phone: Option<string>,
    address: Option<string>,
    notes: Option<string>)

  datatype Rejection =
    | NoServices
    | InvalidService
    | MissingFields
    | NameTooLong
    | AddressTooLong
    | NotesTooLong
    | BadEmail
    | PastDate

  datatype CreateOutcome =
    | CreateRateLimited(retryAfter: int)
    | CreateRejected(reason: Rejection)
    | BookingCreated
    | CreateFailed

  function CreateStatus(o: CreateOutcome): nat {
    match o
    case CreateRateLimited(_) => 429
    case CreateRejected(_) => 400
    case BookingCreated => 201
    case CreateFailed => 500
  }

  function BookingRate(st: State, h: RateLimit.Headers, now: int): (RateLimit.Verdict, RateLimit.Store) {
    RateLimit.Limit(RateLimit.BookingLimiter, st.rate, h, now)
  }

  predicate FieldsPresent(req: BookingRequest) {
    && Present(req.date) && Present(req.time) && Present(req.name)
    && Present(req.email) && Present(req.phone) && Present(req.address)
  }

  /** Everything checked before the date. */
  predicate WellFormedRequest(req: BookingRequest) {
    && HasServices(req.services) && AllServicesValid(req.services.value) && FieldsPresent(req)
    && WithinCaps(req.name.value, req.address.value, req.notes) && IsEmail(req.email.value)
  }

  /** The booking the form creates: sanitized text, the normalized email, no owner, PENDING. */
  function FormBooking(req: BookingRequest, date: int, now: int): Booking
    requires WellFormedRequest(req)
  {
    Booking(None, req.services.value, date, Sanitize(req.time.value), Sanitize(req.name.value),
            Trim(ToLower(req.email.value)), Sanitize(req.phone.value), Sanitize(req.address.value),
            StoredNotes(req.notes), PENDING, now)
  }

  function CreateBooking(st: State, h: RateLimit.Headers, req: BookingRequest,
                         parseDate: string -> Option<int>, today: int, now: int): (res: (CreateOutcome, State))
    // The rate limit comes first; a denial changes nothing.
    ensures !BookingRate(st, h, now).0.allowed ==>
              res == (CreateRateLimited(BookingRate(st, h, now).0.retryAfter.value), st)
    ensures res.1.rate == BookingRate(st, h, now).1
    ensures res.1.logins == st.logins && res.1.phoneLocks == st.phoneLocks
    ensures !res.0.BookingCreated? ==> res.1.db == st.db
    // The checks, in the order the handler makes them.
    ensures BookingRate(st, h, now).0.allowed && !HasServices(req.services) ==>
              res.0 == CreateRejected(NoServices)
    ensures BookingRate(st, h, now).0.allowed && HasServices(req.services) && !AllServicesValid(req.services.value) ==>
              res.0 == CreateRejected(InvalidService)
    ensures BookingRate(st, h, now).0.allowed && HasServices(req.services) && AllServicesValid(req.services.value)
            && !FieldsPresent(req) ==>
              res.0 == CreateRejected(MissingFields)
    ensures BookingRate(st, h, now).0.allowed && HasServices(req.services) && AllServicesValid(req.services.value)
            && FieldsPresent(req) && |req.name.value| > NameCap ==>
              res.0 == CreateRejected(NameTooLong)
    ensures BookingRate(st, h, now).0.allowed && HasServices(req.services) && AllServicesValid(req.services.value)
            && FieldsPresent(req) && |req.name.value| <= NameCap && |req.address.value| > AddressCap ==>
              res.0 == CreateRejected(AddressTooLong)
    ensures BookingRate(st, h, now).0.allowed && HasServices(req.services) && AllServicesValid(req.services.value)
            && FieldsPresent(req) && |req.name.value| <= NameCap && |req.address.value| <= AddressCap
            && Present(req.notes) && |req.notes.value| > NotesCap ==>
              res.0 == CreateRejected(NotesTooLong)
    ensures BookingRate(st, h, now).0.allowed && HasServices(req.services) && AllServicesValid(req.services.value)
            && FieldsPresent(req) && WithinCaps(req.name.value, req.address.value, req.notes)
            && !IsEmail(req.email.value) ==>
              res.0 == CreateRejected(BadEmail)
    ensures res.0 == CreateRejected(PastDate) <==>
              BookingRate(st, h, now).0.allowed && WellFormedRequest(req) && NotInFuture(parseDate(req.date.value), today)
    // An unparseable date slips past the date check and makes the insert fail.
    ensures res.0 == CreateFailed <==>
              BookingRate(st, h, now).0.allowed && WellFormedRequest(req) && parseDate(req.date.value).None?
    // A success appends exactly the booking the form describes.
    ensures res.0 == BookingCreated <==>
              BookingRate(st, h, now).0.allowed && WellFormedRequest(req)
              && parseDate(req.date.value).Some? && parseDate(req.date.value).value > today
    ensures res.0 == BookingCreated ==>
              && WellFormedRequest(req) && parseDate(req.date.value).Some?
              && res.1.db == st.db.(bookings := st.db.bookings + [FormBooking(req, parseDate(req.date.value).value, now)])
  {
    var (verdict, rate') := BookingRate(st, h, now);
    if !verdict.allowed then (CreateRateLimited(verdict.retryAfter.value), st)
    else
      var st1 := st.(rate := rate');
      if !HasServices(req.services) then (CreateRejected(NoServices), st1)
      else if !AllServicesValid(req.services.value) then (CreateRejected(InvalidService), st1)
      else if !FieldsPresent(req) then (CreateRejected(MissingFields), st1)
      else if |req.name.value| > NameCap then (CreateRejected(NameTooLong), st1)
      else if |req.address.value| > AddressCap then (CreateRejected(AddressTooLong), st1)
      else if Present(req.notes) && |req.notes.value| > NotesCap then (CreateRejected(NotesTooLong), st1)
      else if !IsEmail(req.email.value) then (CreateRejected(BadEmail), st1)
      else
        var parsed := parseDate(req.date.value);
        if NotInFuture(parsed, today) then (CreateRejected(PastDate), st1)
        else if parsed.None? then (CreateFailed, st1)
        else
          var b := FormBooking(req, parsed.value, now);
          (BookingCreated, st1.(db := st1.db.(bookings := st1.db.bookings + [b])))
  }

  /** The created booking is PENDING, has no owner and keeps the requested services and date. */
  lemma FormBookingFields(req: BookingRequest, date: int, now: int)
    requires WellFormedRequest(req)
    ensures var b := FormBooking(req, date, now);
            && b.status == PENDING && b.userId.None? && b.createdAt == now && b.date == date
            && b.services == req.services.value
  {
  }

  /** The stored email is the one every lookup uses: lower-cased, since trimming an
      accepted email changes nothing. */
  lemma FormBookingEmail(req: BookingRequest, date: int, now: int)
    requires WellFormedRequest(req)
    ensures FormBooking(req, date, now).email == ToLower(req.email.value)
  {
    EmailLowerTrim(req.email.value);
  }

  /** Every sanitized text field of the created booking is tag-free and still meets its cap. */
  lemma FormBookingWithinCaps(req: BookingRequest, date: int, now: int)
    requires WellFormedRequest(req)
    ensures var b := FormBooking(req, date, now);
            && |b.name| <= NameCap && |b.address| <= AddressCap
            && (b.notes.Some? <==> Present(req.notes)) && (b.notes.Some? ==> |b.notes.value| <= NotesCap)
            && NoTag(b.name) && NoTag(b.address) && NoTag(b.time) && NoTag(b.phone)
  {
  }

  /** A booking form submission never touches users or sessions, so it keeps the schema's guarantees. */
  lemma CreateBookingWellFormed(st: State, h: RateLimit.Headers, req: BookingRequest,
                                parseDate: string -> Option<int>, today: int, now: int)
    requires WellFormed(st.db)
    ensures WellFormed(CreateBooking(st, h, req, parseDate, today, now).1.db)
  {
  }
}

=== FILE: collections.dfy ===
/**
 The list operations the handlers borrow from the database layer: `findFirst`,
 a `where` filter, `orderBy … desc`, `take`, `count` and deletion by position.
 Prisma leaves the order of equal sort keys unspecified; `SortDesc` fixes one
 admissible order.
 */
module Collections {
  import opened Text

  /** `findFirst`: the position of the first element satisfying `p`, in store order. */
  function FirstWhere<T>(xs: seq<T>, p: T -> bool): (r: Option<nat>)
    ensures r.Some? ==> r.value < |xs| && p(xs[r.value])
    ensures r.Some? ==> forall k | 0 <= k < r.value :: !p(xs[k])
    ensures r.None? <==> forall k | 0 <= k < |xs| :: !p(xs[k])
    decreases |xs|
  {
    if xs == [] then None
    else if p(xs[0]) then Some(0)
    else
      var rest := FirstWhere(xs[1..], p);
      if rest.None? then
        assert forall k | 1 <= k < |xs| :: xs[k] == xs[1..][k - 1];
        None
      else
        assert forall k | 1 <= k < rest.value + 1 :: xs[k] == xs[1..][k - 1];
        Some(rest.value + 1)
  }

  /** `findMany({ where })` before ordering: the elements satisfying `p`, in store order. */
  function Filter<T(!new)>(xs: seq<T>, p: T -> bool): (r: seq<T>)
    ensures forall x :: x in r <==> x in xs && p(x)
    ensures |r| <= |xs|
    ensures multiset(r) <= multiset(xs)
    decreases |xs|
  {
    if xs == [] then []
    else
      var rest := Filter(xs[1..], p);
      assert xs == [xs[0]] + xs[1..];
      if p(xs[0]) then [xs[0]] + rest else rest
  }

  /** Filtering out one value keeps every other value as often as it occurred. */
  lemma {:induction false} FilterOutMultiset<T(!new)>(xs: seq<T>, p: T -> bool, x: T)
    requires forall y :: p(y) <==> y != x
    ensures multiset(Filter(xs, p)) == multiset(xs)[x := 0]
    decreases |xs|
  {
    if xs != [] {
      FilterOutMultiset(xs[1..], p, x);
      assert xs == [xs[0]] + xs[1..];
    }
  }

  /** Filtering a list whose every element passes, with one failing element appended,
      gives back the list. */
  lemma {:induction false} FilterDropsLast<T(!new)>(xs: seq<T>, x: T, p: T -> bool)
    requires forall k | 0 <= k < |xs| :: p(xs[k])
    requires !p(x)
    ensures Filter(xs + [x], p) == xs
    decreases |xs|
  {
    var zs := xs + [x];
    if xs == [] {
      assert zs == [x];
    } else {
      assert zs[0] == xs[0] && zs[1..] == xs[1..] + [x];
      assert forall k | 0 <= k < |xs[1..]| :: xs[1..][k] == xs[k + 1];
      FilterDropsLast(xs[1..], x, p);
      assert Filter(zs, p) == [xs[0]] + xs[1..];
    }
  }

  /** Filtering out at least one element shortens the list. */
  lemma {:induction false} FilterShortens<T(!new)>(xs: seq<T>, p: T -> bool, k: nat)
    requires k < |xs| && !p(xs[k])
    ensures |Filter(xs, p)| < |xs|
    decreases |xs|
  {
    if k > 0 {
      assert xs[1..][k - 1] == xs[k];
      FilterShortens(xs[1..], p, k - 1);
    }
  }

  /** No element occurs twice. */
  predicate Distinct<T(==)>(xs: seq<T>) {
    forall i, j | 0 <= i < j < |xs| :: xs[i] != xs[j]
  }

  /** Filtering a list without repetitions gives one without repetitions. */
  lemma {:induction false} FilterKeepsDistinct<T(!new)>(xs: seq<T>, p: T -> bool)
    requires Distinct(xs)
    ensures Distinct(Filter(xs, p))
    decreases |xs|
  {
    if xs != [] {
      assert forall k | 0 <= k < |xs[1..]| :: xs[1..][k] == xs[k + 1];
      FilterKeepsDistinct(xs[1..], p);
      var rest := Filter(xs[1..], p);
      assert xs[0] !in xs[1..];
      assert xs[0] !in rest;
      if p(xs[0]) {
        var r := [xs[0]] + rest;
        forall i, j | 0 <= i < j < |r| ensures r[i] != r[j] {
          if i == 0 {
            assert r[j] == rest[j - 1] && rest[j - 1] in rest;
          } else {
            assert r[i] == rest[i - 1] && r[j] == rest[j - 1];
          }
        }
      }
    }
  }

  /** In a list without repetitions every element occurs once. */
  lemma {:induction false} DistinctCountsOne<T>(xs: seq<T>)
    requires Distinct(xs)
    ensures forall x :: multiset(xs)[x] <= 1
    decreases |xs|
  {
    if xs != [] {
      assert forall k | 0 <= k < |xs[1..]| :: xs[1..][k] == xs[k + 1];
      DistinctCountsOne(xs[1..]);
      assert xs == [xs[0]] + xs[1..];
      assert xs[0] !in xs[1..];
    }
  }

  /** An element found at two positions occurs at least twice. */
  lemma RepeatCountsTwo<T>(xs: seq<T>, i: nat, j: nat)
    requires i < j < |xs|
    ensures xs[i] == xs[j] ==> multiset(xs)[xs[i]] >= 2
  {
    assert xs == xs[..i] + [xs[i]] + xs[i + 1..j] + [xs[j]] + xs[j + 1..];
  }

  /** Reordering a list without repetitions gives one without repetitions. */
  lemma PermutationKeepsDistinct<T>(xs: seq<T>, ys: seq<T>)
    requires multiset(xs) == multiset(ys) && Distinct(xs)
    ensures Distinct(ys)
  {
    DistinctCountsOne(xs);
    forall i, j | 0 <= i < j < |ys| ensures ys[i] != ys[j] {
      RepeatCountsTwo(ys, i, j);
    }
  }

  /** `count({ where })`. */
  function CountWhere<T>(xs: seq<T>, p: T -> bool): (n: nat)
    ensures n <= |xs|
    decreases |xs|
  {
    if xs == [] then 0 else (if p(xs[0]) then 1 else 0) + CountWhere(xs[1..], p)
  }

  /** Counting is the length of the filtered list. */
  lemma {:induction false} CountIsFilterLength<T(!new)>(xs: seq<T>, p: T -> bool)
    ensures CountWhere(xs, p) == |Filter(xs, p)|
    decreases |xs|
  {
    if xs != [] {
      CountIsFilterLength(xs[1..], p);
    }
  }

  /** Counts of mutually exclusive conditions add up to at most the length. */
  lemma {:induction false} DisjointCountsBounded<T>(xs: seq<T>, p: T -> bool, q: T -> bool, r: T -> bool)
    requires forall x :: !(p(x) && q(x)) && !(p(x) && r(x)) && !(q(x) && r(x))
    ensures CountWhere(xs, p) + CountWhere(xs, q) + CountWhere(xs, r) <= |xs|
    decreases |xs|
  {
    if xs != [] {
      DisjointCountsBounded(xs[1..], p, q, r);
    }
  }

  predicate SortedDesc<T>(xs: seq<T>, key: T -> int) {
    forall i, j | 0 <= i < j < |xs| :: key(xs[i]) >= key(xs[j])
  }

  function Insert<T>(x: T, xs: seq<T>, key: T -> int): (r: seq<T>)
    requires SortedDesc(xs, key)
    ensures SortedDesc(r, key)
    ensures multiset(r) == multiset(xs) + multiset{x}
    ensures |r| == |xs| + 1
    decreases |xs|
  {
    if xs == [] || key(x) >= key(xs[0]) then
      HeadAboveSorted(x, xs, key);
      [x] + xs
    else
      var rest := Insert(x, xs[1..], key);
      HeadAboveRest(xs[0], x, xs[1..], rest, key);
      assert xs == [xs[0]] + xs[1..];
      [xs[0]] + rest
  }

  /** A key no smaller than the first of a descending list can go in front of it. */
  lemma HeadAboveSorted<T>(x: T, xs: seq<T>, key: T -> int)
    requires SortedDesc(xs, key) && (xs == [] || key(x) >= key(xs[0]))
    ensures SortedDesc([x] + xs, key)
  {
    var r := [x] + xs;
    forall i, j | 0 <= i < j < |r| ensures key(r[i]) >= key(r[j]) {
      assert r[j] == xs[j - 1];
      if i == 0 {
        assert key(xs[0]) >= key(xs[j - 1]) || j == 1;
      } else {
        assert r[i] == xs[i - 1];
      }
    }
  }

  lemma HeadAboveRest<T>(h: T, x: T, tail: seq<T>, rest: seq<T>, key: T -> int)
    requires key(x) < key(h) && SortedDesc([h] + tail, key)
    requires SortedDesc(rest, key) && multiset(rest) == multiset(tail) + multiset{x}
    ensures SortedDesc([h] + rest, key)
  {
    var r := [h] + rest;
    forall k | 0 <= k < |rest| ensures key(h) >= key(rest[k]) {
      assert rest[k] in multiset(rest);
      if rest[k] != x {
        assert rest[k] in multiset(tail);
        var j :| 0 <= j < |tail| && tail[j] == rest[k];
        assert ([h] + tail)[0] == h && ([h] + tail)[j + 1] == tail[j];
        assert key(([h] + tail)[0]) >= key(([h] + tail)[j + 1]);
      }
    }
    assert forall k | 1 <= k < |r| :: r[k] == rest[k - 1];
  }

  /** `orderBy: { key: 'desc' }`: a permutation of the input, largest key first. */
  function SortDesc<T>(xs: seq<T>, key: T -> int): (r: seq<T>)
    ensures SortedDesc(r, key)
    ensures multiset(r) == multiset(xs)
    ensures |r| == |xs|
    decreases |xs|
  {
    if xs == [] then []
    else
      var rest := SortDesc(xs[1..], key);
      assert multiset(xs) == multiset(xs[1..]) + multiset{xs[0]} by {
        assert xs == [xs[0]] + xs[1..];
      }
      Insert(xs[0], rest, key)
  }

  /** Sorting neither adds nor drops elements. */
  lemma SortKeepsMembers<T>(xs: seq<T>, key: T -> int)
    ensures forall x :: x in SortDesc(xs, key) <==> x in xs
  {
    var r := SortDesc(xs, key);
    forall x ensures x in r <==> x in xs {
      assert x in r <==> x in multiset(r);
      assert x in xs <==> x in multiset(xs);
    }
  }

  /** `take: n`. */
  function Take<T>(xs: seq<T>, n: nat): (r: seq<T>)
    ensures |r| <= n && |r| <= |xs|
    ensures r == xs[..|r|]
    ensures |xs| >= n ==> |r| == n
  {
    if |xs| <= n then xs else xs[..n]
  }

  /** A prefix of a descending arrangement of `xs` holds only elements of `xs`, stays
      descending, and outranks every element it leaves out. */
  lemma SortedPrefix<T>(xs: seq<T>, sorted: seq<T>, key: T -> int, m: nat)
    requires SortedDesc(sorted, key) && multiset(sorted) == multiset(xs) && m <= |sorted|
    ensures SortedDesc(sorted[..m], key)
    ensures forall x | x in sorted[..m] :: x in xs
    ensures m > 0 ==> forall x | x in xs && x !in sorted[..m] :: key(x) <= key(sorted[m - 1])
  {
    var r := sorted[..m];
    forall x | x in r ensures x in xs {
      assert x in multiset(sorted);
    }
    if m > 0 {
      forall x | x in xs && x !in r ensures key(x) <= key(sorted[m - 1]) {
        assert x in multiset(sorted);
        var j :| 0 <= j < |sorted| && sorted[j] == x;
      }
    }
  }

  /** `orderBy: { key: 'desc' }, take: n`: at most `n` elements, largest key first, and
      every element left out has a key no larger than the last one kept. */
  function Newest<T>(xs: seq<T>, key: T -> int, n: nat): (r: seq<T>)
    ensures |r| <= n && (|xs| >= n ==> |r| == n) && (|xs| < n ==> |r| == |xs|)
    ensures SortedDesc(r, key)
    ensures forall x | x in r :: x in xs
    ensures r != [] ==> forall x | x in xs && x !in r :: key(x) <= key(r[|r| - 1])
  {
    var sorted := SortDesc(xs, key);
    var r := Take(sorted, n);
    SortedPrefix(xs, sorted, key, |r|);
    r
  }

  /** Deleting the element at position `i`; every other element keeps its relative order. */
  function RemoveAt<T>(xs: seq<T>, i: nat): (r: seq<T>)
    requires i < |xs|
    ensures |r| == |xs| - 1
    ensures forall k | 0 <= k < i :: r[k] == xs[k]
    ensures forall k | i <= k < |r| :: r[k] == xs[k + 1]
  {
    xs[..i] + xs[i + 1..]
  }
}

=== FILE: contact_form.dfy ===
/**
 components/ContactForm.tsx: the public contact form. Submitting first
 validates on the client: the name, phone and message must not be blank after
 trimming, and the email must not be blank and must match the same email
 pattern the server uses. Only a valid form is posted; the server's answer is
 an input (`serverOk`, standing for `response.ok` with a network failure
 counted as a failure).
 */
module ContactForm {
  import opened Text
  import opened Validation
  import Contacts

  datatype FormData = FormData(name: string, email: string, phone: string, service: string, message: string)

  const InitialData := FormData("", "", "", "", "")

  datatype Key = NameKey | EmailKey | PhoneKey | ServiceKey | MessageKey

  /** An entry of the error map: the field is required, the email is invalid, or the
      entry was cleared to `''` while typing. */
  datatype Error = Required | Invalid | Cleared

  /** `Partial<ContactFormData>` used as the error map. */
  type Errors = map<Key, Error>

  /** The text shown for an entry. */
  function ErrorText(k: Key, e: Error): string {
    match (k, e)
    case (_, Cleared) => ""
    case (EmailKey, Invalid) => "El email no es válido"
    case (NameKey, _) => "El nombre es obligatorio"
    case (EmailKey, _) => "El email es obligatorio"
    case (PhoneKey, _) => "El teléfono es obligatorio"
    case (_, _) => "El mensaje es obligatorio"
  }

  predicate Blank(s: string) { Trim(s) == "" }

  /** The error `validate` records for a required text field, if any. */
  function RequiredError(s: string): (e: Option<Error>)
    ensures e.Some? <==> Blank(s)
    ensures e.Some? ==> e.value == Required
  {
    if Blank(s) then Some(Required) else None
  }

  /** The error `validate` records for the email, if any. */
  function EmailError(s: string): (e: Option<Error>)
    ensures e.Some? <==> Blank(s) || !IsEmail(s)
    ensures e.Some? ==> e.value == (if Blank(s) then Required else Invalid)
  {
    if Blank(s) then Some(Required) else if !IsEmail(s) then Some(Invalid) else None
  }

  /** The error `validate` records under one key, if any; the service is never checked. */
  function FieldError(d: FormData, k: Key): Option<Error> {
    match k
    case NameKey => RequiredError(d.name)
    case EmailKey => EmailError(d.email)
    case PhoneKey => RequiredError(d.phone)
    case ServiceKey => None
    case MessageKey => RequiredError(d.message)
  }

  const AllKeys: set<Key> := {NameKey, EmailKey, PhoneKey, ServiceKey, MessageKey}

  /** The error map `validate` builds from scratch: one entry per failing check. */
  function Validate(d: FormData): (errors: Errors)
    ensures NameKey in errors <==> Blank(d.name)
    ensures EmailKey in errors <==> Blank(d.email) || !IsEmail(d.email)
    ensures PhoneKey in errors <==> Blank(d.phone)
    ensures MessageKey in errors <==> Blank(d.message)
    ensures ServiceKey !in errors
    ensures EmailKey in errors ==> errors[EmailKey] == (if Blank(d.email) then Required else Invalid)
    ensures NameKey in errors ==> errors[NameKey] == Required
    ensures PhoneKey in errors ==> errors[PhoneKey] == Required
    ensures MessageKey in errors ==> errors[MessageKey] == Required
  {
    map k | k in AllKeys && FieldError(d, k).Some? :: FieldError(d, k).value
  }

  function Get(d: FormData, k: Key): string {
    match k
    case NameKey => d.name
    case EmailKey => d.email
    case PhoneKey => d.phone
    case ServiceKey => d.service
    case MessageKey => d.message
  }

  function Set(d: FormData, k: Key, v: string): (r: FormData)
    ensures Get(r, k) == v
    ensures forall k' | k' != k :: Get(r, k') == Get(d, k')
  {
    match k
    case NameKey => d.(name := v)
    case EmailKey => d.(email := v)
    case PhoneKey => d.(phone := v)
    case ServiceKey => d.(service := v)
    case MessageKey => d.(message := v)
  }

  /** An error is on screen when its entry's text is non-empty. */
  predicate Shown(errors: Errors, k: Key) {
    k in errors && errors[k] != Cleared
  }

  datatype Form = Form(data: FormData, errors: Errors, isSubmitted: bool)

  const Initial := Form(InitialData, map[], false)

  /** `updateData(key, value)`: the field takes the value and only its own error is
      cleared (set to the empty string). */
  function UpdateData(f: Form, k: Key, v: string): (r: Form)
    ensures Get(r.data, k) == v && !Shown(r.errors, k)
    ensures forall k' | k' != k :: Get(r.data, k') == Get(f.data, k')
    ensures forall k' | k' != k :: (k' in r.errors <==> k' in f.errors)
    ensures forall k' | k' != k && k' in f.errors :: r.errors[k'] == f.errors[k']
    ensures r.isSubmitted == f.isSubmitted
  {
    var errors := if Shown(f.errors, k) then f.errors[k := Cleared] else f.errors;
    f.(data := Set(f.data, k, v), errors := errors)
  }

  /** `handleSubmit`: the error map is replaced by `validate`'s; the form data is posted
      exactly when that map is empty, and the form turns to its confirmation only when
      the server accepts. A submitted form shows no form, so nothing is posted. */
  function HandleSubmit(f: Form, serverOk: bool): (res: (Form, Option<FormData>))
    ensures f.isSubmitted ==> res == (f, None)
    ensures !f.isSubmitted ==> res.0.errors == Validate(f.data)
    ensures res.0.data == f.data
    ensures res.1.Some? <==> !f.isSubmitted && Validate(f.data) == map[]
    ensures res.1.Some? ==> res.1.value == f.data
    ensures res.0.isSubmitted <==> f.isSubmitted || (res.1.Some? && serverOk)
  {
    if f.isSubmitted then (f, None)
    else
      var errors := Validate(f.data);
      if errors != map[] then (f.(errors := errors), None)
      else if serverOk then (f.(errors := errors, isSubmitted := true), Some(f.data))
      else (f.(errors := errors), Some(f.data))
  }

  /** "Enviar otro mensaje": back to the empty form; the error map is left as it was. */
  function SendAnother(f: Form): (r: Form)
    ensures f.isSubmitted ==> r.data == InitialData && !r.isSubmitted && r.errors == f.errors
    ensures !f.isSubmitted ==> r == f
  {
    if f.isSubmitted then f.(isSubmitted := false, data := InitialData) else f
  }

  /** The form is posted exactly when every required field has non-blank text and the
      email matches the pattern. */
  lemma PostedIffValid(f: Form, serverOk: bool)
    requires !f.isSubmitted
    ensures HandleSubmit(f, serverOk).1.Some? <==>
              !Blank(f.data.name) && !Blank(f.data.phone) && !Blank(f.data.message)
              && !Blank(f.data.email) && IsEmail(f.data.email)
  {
    var d := f.data;
    var e := Validate(d);
    assert HandleSubmit(f, serverOk).1.Some? <==> e == map[];
    if !Blank(d.name) && !Blank(d.phone) && !Blank(d.message) && !Blank(d.email) && IsEmail(d.email) {
      assert NameKey !in e && EmailKey !in e && PhoneKey !in e && MessageKey !in e && ServiceKey !in e;
      forall k: Key ensures k !in e {
        match k
        case NameKey =>
        case EmailKey =>
        case PhoneKey =>
        case ServiceKey =>
        case MessageKey =>
      }
      assert e == map[];
    } else if Blank(d.name) {
      assert NameKey in e;
    } else if Blank(d.phone) {
      assert PhoneKey in e;
    } else if Blank(d.message) {
      assert MessageKey in e;
    } else {
      assert EmailKey in e;
    }
  }

  /** The JSON body the form posts, as `POST /api/contacts` reads it. */
  function Posted(d: FormData): Contacts.ContactRequest {
    Contacts.ContactRequest(Some(d.name), Some(d.email), Some(d.phone), Some(d.service), Some(d.message))
  }

  /** A form the client lets through passes the server's required-field and email checks;
      the server can still refuse it only for the length caps, which the client does not
      check. */
  lemma ClientChecksMatchServer(d: FormData)
    requires Validate(d) == map[]
    ensures Contacts.ContactFieldsPresent(Posted(d))
    ensures Contacts.AcceptableContact(Posted(d)) <==> |d.name| <= NameCap && |d.message| <= MessageCap
  {
    NoErrorsMeansFilled(d);
  }

  /** An empty error map means every required field has non-blank text and the email
      matches the pattern. */
  lemma NoErrorsMeansFilled(d: FormData)
    requires Validate(d) == map[]
    ensures d.name != "" && d.phone != "" && d.message != "" && d.email != ""
    ensures IsEmail(d.email)
  {
    assert NameKey !in Validate(d) && PhoneKey !in Validate(d);
    assert MessageKey !in Validate(d) && EmailKey !in Validate(d);
  }
}

=== FILE: contacts_api.dfy ===
/**
 `GET /api/contacts` (the staff listing with its status filter) and
 `POST /api/contacts` (the public contact form: rate limit, required fields,
 length caps, email pattern, then a NEW message with sanitized text).
 */
module Contacts {
  import opened Text
  import opened Db
  import RateLimit
  import Collections
  import opened Validation
  import Sessions
  import Bookings

  // ---- GET /api/contacts ------------------------------------------------------

  /** The status filter: compared only when present and not `ALL`. */
  predicate ContactSelected(status: Option<string>, c: Contact) {
    Bookings.StatusFilterActive(status) ==> ContactStatusName(c.status) == status.value
  }

  /** A status filter the store accepts: none, `ALL`, or one of the enum's values. */
  predicate ContactStatusAccepted(status: Option<string>) {
    Bookings.StatusFilterActive(status) ==> ParseContactStatus(status.value).Some?
  }

  function ContactCreatedKey(c: Contact): int { c.createdAt }

  datatype ContactList = ContactsListed(contacts: seq<Contact>, count: nat) | ContactsRefused(status: nat, message: string)

  /** Staff only; the selected messages, newest first. */
  function ListContacts(db: Db, cookie: Option<string>, now: int, status: Option<string>): (res: (ContactList, Db))
    ensures res.1 == Sessions.VerifySession(db, cookie, now).1
    ensures res.0.ContactsListed? <==> Sessions.RequireStaff(db, cookie, now).0.Granted? && ContactStatusAccepted(status)
    ensures Sessions.RequireStaff(db, cookie, now).0.Refused? ==>
              res.0 == ContactsRefused(Sessions.RequireStaff(db, cookie, now).0.status,
                                       Sessions.RequireStaff(db, cookie, now).0.message)
    ensures Sessions.RequireStaff(db, cookie, now).0.Granted? && !ContactStatusAccepted(status) ==>
              res.0.ContactsRefused? && res.0.status == 500
    ensures res.0.ContactsListed? ==>
              && multiset(res.0.contacts) == multiset(Collections.Filter(db.contacts, (c: Contact) => ContactSelected(status, c)))
              && (forall c :: c in res.0.contacts <==> c in db.contacts && ContactSelected(status, c))
              && Collections.SortedDesc(res.0.contacts, ContactCreatedKey)
              && res.0.count == |res.0.contacts|
  {
    var (g, db') := Sessions.RequireStaff(db, cookie, now);
    if g.Refused? then (ContactsRefused(g.status, g.message), db')
    else if !ContactStatusAccepted(status) then (ContactsRefused(500, "Failed to fetch contacts"), db')
    else
      var chosen := Collections.Filter(db.contacts, (c: Contact) => ContactSelected(status, c));
      var sorted := Collections.SortDesc(chosen, ContactCreatedKey);
      assert forall c :: c in sorted <==> c in chosen by {
        forall c ensures c in sorted <==> c in chosen {
          assert c in sorted <==> c in multiset(sorted);
          assert c in chosen <==> c in multiset(chosen);
        }
      }
      (ContactsListed(sorted, |sorted|), db')
  }

  /** Without a filter (or with `ALL`) a staff member sees every message. */
  lemma UnfilteredListsAll(db: Db, cookie: Option<string>, now: int, status: Option<string>, c: Contact)
    requires !Bookings.StatusFilterActive(status) && c in db.contacts
    requires Sessions.RequireStaff(db, cookie, now).0.Granted?
    ensures c in ListContacts(db, cookie, now, status).0.contacts
  {
  }

  // ---- POST /api/contacts -----------------------------------------------------

  datatype ContactRequest = ContactRequest(
    name: Option<string>,
    email: Option<string>,
    phone: Option<string>,
    service: Option<string>,
    message: Option<string>)

  datatype ContactRejection = ContactMissingFields | ContactNameTooLong | MessageTooLong | ContactBadEmail

  datatype ContactOutcome =
    | ContactRateLimited(retryAfter: int)
    | ContactRejected(reason: ContactRejection)
    | ContactCreated

  function ContactStatus(o: ContactOutcome): nat {
    match o
    case ContactRateLimited(_) => 429
    case ContactRejected(_) => 400
    case ContactCreated => 201
  }

  function ContactRate(st: State, h: RateLimit.Headers, now: int): (RateLimit.Verdict, RateLimit.Store) {
    RateLimit.Limit(RateLimit.ContactLimiter, st.rate, h, now)
  }

  /** name, email, phone and message are required; the service is optional. */
  predicate ContactFieldsPresent(req: ContactRequest) {
    Present(req.name) && Present(req.email) && Present(req.phone) && Present(req.message)
  }

  /** Every check the form makes. The phone is required but its format is never checked. */
  predicate AcceptableContact(req: ContactRequest) {
    && ContactFieldsPresent(req) && |req.name.value| <= NameCap && |req.message.value| <= MessageCap
    && IsEmail(req.email.value)
  }

  /** The stored message: sanitized text, the normalized email, NEW. */
  function NewContact(req: ContactRequest, now: int): Contact
    requires ContactFieldsPresent(req)
  {
    Contact(Sanitize(req.name.value), Trim(ToLower(req.email.value)), Sanitize(req.phone.value),
            if Present(req.service) then Some(Sanitize(req.service.value)) else None,
            Sanitize(req.message.value), NEW, now)
  }

  function CreateContact(st: State, h: RateLimit.Headers, req: ContactRequest, now: int): (res: (ContactOutcome, State))
    ensures !ContactRate(st, h, now).0.allowed ==>
              res == (ContactRateLimited(ContactRate(st, h, now).0.retryAfter.value), st)
    ensures res.1.rate == ContactRate(st, h, now).1
    ensures res.1.logins == st.logins && res.1.phoneLocks == st.phoneLocks
    ensures !res.0.ContactCreated? ==> res.1.db == st.db
    ensures ContactRate(st, h, now).0.allowed && !ContactFieldsPresent(req) ==>
              res.0 == ContactRejected(ContactMissingFields)
    ensures ContactRate(st, h, now).0.allowed && ContactFieldsPresent(req) && |req.name.value| > NameCap ==>
              res.0 == ContactRejected(ContactNameTooLong)
    ensures ContactRate(st, h, now).0.allowed && ContactFieldsPresent(req) && |req.name.value| <= NameCap
            && |req.message.value| > MessageCap ==>
              res.0 == ContactRejected(MessageTooLong)
    ensures res.0 == ContactRejected(ContactBadEmail) <==>
              ContactRate(st, h, now).0.allowed && ContactFieldsPresent(req) && |req.name.value| <= NameCap
              && |req.message.value| <= MessageCap && !IsEmail(req.email.value)
    // A success appends exactly one message and changes nothing else.
    ensures res.0 == ContactCreated <==> ContactRate(st, h, now).0.allowed && AcceptableContact(req)
    ensures res.0 == ContactCreated ==>
              ContactFieldsPresent(req) && res.1.db == st.db.(contacts := st.db.contacts + [NewContact(req, now)])
  {
    var (verdict, rate') := ContactRate(st, h, now);
    if !verdict.allowed then (ContactRateLimited(verdict.retryAfter.value), st)
    else
      var st1 := st.(rate := rate');
      if !ContactFieldsPresent(req) then (ContactRejected(ContactMissingFields), st1)
      else if |req.name.value| > NameCap then (ContactRejected(ContactNameTooLong), st1)
      else if |req.message.value| > MessageCap then (ContactRejected(MessageTooLong), st1)
      else if !IsEmail(req.email.value) then (ContactRejected(ContactBadEmail), st1)
      else (ContactCreated, st1.(db := st1.db.(contacts := st1.db.contacts + [NewContact(req, now)])))
  }

  /** The stored message is NEW, its text fields are tag-free and within their caps, and the
      service is null exactly when none was sent. */
  lemma NewContactRecord(req: ContactRequest, now: int)
    requires AcceptableContact(req)
    ensures var c := NewContact(req, now);
            && c.status == NEW && c.createdAt == now
            && |c.name| <= NameCap && |c.message| <= MessageCap
            && NoTag(c.name) && NoTag(c.message) && NoTag(c.phone)
            && (c.service.None? <==> !Present(req.service))
  {
  }

  /** The stored email is lower-cased; trimming an accepted email changes nothing. */
  lemma NewContactEmail(req: ContactRequest, now: int)
    requires AcceptableContact(req)
    ensures NewContact(req, now).email == ToLower(req.email.value)
  {
    EmailLowerTrim(req.email.value);
  }
}

=== FILE: create_admin.dfy ===
/**
 scripts/create-admin.ts: the command-line script that creates an ADMIN user.
 Each of the email, the name and the password comes from its command-line
 argument or, when that is missing or empty, from the answer typed at a
 prompt; both are inputs here. The script keeps its own copy of the password
 policy, whose messages end with a period where the guard's do not.
 bcrypt's hash of the password is an input.
 */
module CreateAdmin {
  import opened Text
  import opened Auth
  import opened Db

  /** The script's message for a violated rule. */
  function ScriptMessage(rule: PasswordRule): (m: string)
    ensures m == GuardMessage(rule) + "."
  {
    match rule
    case TooShort => "La contraseña debe tener al menos 8 caracteres."
    case NoUpper => "La contraseña debe contener al menos una mayúscula."
    case NoLower => "La contraseña debe contener al menos una minúscula."
    case NoDigit => "La contraseña debe contener al menos un número."
  }

  /** The four tests in turn, each pushing `message(rule)` when its rule is violated. */
  function PushedErrors(password: string, message: PasswordRule -> string): seq<string> {
    var e0: seq<string> := [];
    var e1 := if |password| < 8 then e0 + [message(TooShort)] else e0;
    var e2 := if !HasUpper(password) then e1 + [message(NoUpper)] else e1;
    var e3 := if !HasLower(password) then e2 + [message(NoLower)] else e2;
    if !HasDigit(password) then e3 + [message(NoDigit)] else e3
  }

  /** Pushing messages test by test lists the messages of the violated rules in rule order. */
  lemma PushedErrorsAreMessages(password: string, message: PasswordRule -> string)
    ensures PushedErrors(password, message) == Messages(ViolatedRules(password), message)
  {
    var rules := ViolatedRules(password);
    var pushed := PushedErrors(password, message);
    assert |pushed| == |rules|;
    forall i | 0 <= i < |rules| ensures pushed[i] == message(rules[i]) {
    }
  }

  /** The script's `validatePassword`. */
  function ScriptValidatePassword(password: string): PasswordCheck {
    var errors := PushedErrors(password, ScriptMessage);
    PasswordCheck(|errors| == 0, errors)
  }

  /** The script's policy is the guard's policy: the same verdict, and the same messages in
      the same order, each with a period added. */
  lemma ScriptAgreesWithGuard(password: string)
    ensures ScriptValidatePassword(password).isValid == ValidatePassword(password).isValid
    ensures |ScriptValidatePassword(password).errors| == |ValidatePassword(password).errors|
    ensures forall i | 0 <= i < |ValidatePassword(password).errors| ::
              ScriptValidatePassword(password).errors[i] == ValidatePassword(password).errors[i] + "."
  {
    var rules := ViolatedRules(password);
    PushedErrorsAreMessages(password, ScriptMessage);
    var script := ScriptValidatePassword(password).errors;
    var guard := ValidatePassword(password).errors;
    assert guard == Messages(rules, GuardMessage);
    forall i | 0 <= i < |guard| ensures script[i] == guard[i] + "." {
      assert script[i] == ScriptMessage(rules[i]);
      assert guard[i] == GuardMessage(rules[i]);
    }
  }

  /** `process.argv[k]`, or the prompt's answer when the argument is missing or empty. */
  function Resolve(arg: Option<string>, answer: string): (v: string)
    ensures Present(arg) ==> v == arg.value
    ensures !Present(arg) ==> v == answer
  {
    if arg.Some? && arg.value != "" then arg.value else answer
  }

  datatype ScriptArgs = ScriptArgs(email: Option<string>, name: Option<string>, password: Option<string>)

  datatype Answers = Answers(email: string, name: string, password: string)

  datatype ScriptResult =
    | InvalidEmail
    | NameRequired
    | InvalidPassword(errors: seq<string>)
    | AlreadyExists
    | AdminCreated(user: User)

  /** The process exit code. */
  function ExitCode(r: ScriptResult): nat {
    if r.AdminCreated? then 0 else 1
  }

  /** Running the script against the stored users; `now` is the database's `createdAt`
      default. */
  function RunScript(users: seq<User>, args: ScriptArgs, answers: Answers, passwordHash: string, now: int)
    : (res: (ScriptResult, seq<User>))
    ensures var email := Resolve(args.email, answers.email);
            res.0 == InvalidEmail <==> '@' !in email
    ensures var email := Resolve(args.email, answers.email);
            var name := Resolve(args.name, answers.name);
            res.0 == NameRequired <==> '@' in email && |name| < 2
    ensures var email := Resolve(args.email, answers.email);
            var name := Resolve(args.name, answers.name);
            var password := Resolve(args.password, answers.password);
            res.0.InvalidPassword? <==>
              '@' in email && |name| >= 2
              && !(|password| >= 8 && HasUpper(password) && HasLower(password) && HasDigit(password))
    // Every violated rule is reported once, with the script's wording.
    ensures var password := Resolve(args.password, answers.password);
            res.0.InvalidPassword? ==>
              && res.0.errors != []
              && forall rule :: ScriptMessage(rule) in res.0.errors <==> Violates(password, rule)
    ensures var email := Resolve(args.email, answers.email);
            var name := Resolve(args.name, answers.name);
            var password := Resolve(args.password, answers.password);
            res.0 == AlreadyExists <==>
              && '@' in email && |name| >= 2 && ValidatePassword(password).isValid
              && exists i | 0 <= i < |users| :: users[i].email == ToLower(email)
    // A new ADMIN is appended with the lower-cased email; nothing else changes.
    ensures var email := Resolve(args.email, answers.email);
            var name := Resolve(args.name, answers.name);
            res.0.AdminCreated? ==>
              && |res.1| == |users| + 1 && res.1[..|users|] == users
              && res.1[|users|] == res.0.user
              && res.0.user.email == ToLower(email) && res.0.user.name == name
              && res.0.user.role == ADMIN && res.0.user.passwordHash == passwordHash
              && res.0.user.createdAt == now
    ensures !res.0.AdminCreated? ==> res.1 == users
  {
    var email := Resolve(args.email, answers.email);
    var name := Resolve(args.name, answers.name);
    var password := Resolve(args.password, answers.password);
    var check := ScriptValidatePassword(password);
    ScriptAgreesWithGuard(password);
    ScriptReportsViolations(password);
    if email == "" || '@' !in email then (InvalidEmail, users)
    else if name == "" || |name| < 2 then (NameRequired, users)
    else if !check.isValid then (InvalidPassword(check.errors), users)
    else if FindUserByEmail(users, ToLower(email)).Some? then (AlreadyExists, users)
    else
      var u := User(ToLower(email), passwordHash, name, ADMIN, now);
      (AdminCreated(u), users + [u])
  }

  /** The script's messages name exactly the violated rules. */
  lemma ScriptReportsViolations(password: string)
    ensures forall rule :: ScriptMessage(rule) in ScriptValidatePassword(password).errors <==> Violates(password, rule)
  {
    PushedErrorsAreMessages(password, ScriptMessage);
    forall a, b | ScriptMessage(a) == ScriptMessage(b) ensures a == b {
      assert GuardMessage(a) == (GuardMessage(a) + ".")[..|GuardMessage(a)|];
      assert GuardMessage(b) == (GuardMessage(b) + ".")[..|GuardMessage(b)|];
      GuardMessageInjective(a, b);
    }
    MessagesListRules(ViolatedRules(password), ScriptMessage);
  }

  /** The script keeps emails unique, and the new admin is the one user its email finds. */
  lemma RunScriptKeepsEmailsDistinct(users: seq<User>, args: ScriptArgs, answers: Answers, passwordHash: string, now: int)
    requires DistinctEmails(users)
    ensures var res := RunScript(users, args, answers, passwordHash, now);
            && DistinctEmails(res.1)
            && (res.0.AdminCreated? ==> FindUserByEmail(res.1, res.0.user.email) == Some(|users|))
  {
    var res := RunScript(users, args, answers, passwordHash, now);
    if res.0.AdminCreated? {
      var users' := res.1;
      forall i, j | 0 <= i < j < |users'| ensures users'[i].email != users'[j].email {
        if j == |users| {
          assert users'[i] == users[i];
        } else {
          assert users'[i] == users[i] && users'[j] == users[j];
        }
      }
    }
  }
}

=== FILE: customers.dfy ===
/**
 `GET /api/admin/customers`: the staff-only customer search. The raw search
 text is capped, sanitized, and then matched as a substring of the name or the
 email; every match comes with its booking count and its newest booking.
 */
module Customers {
  import opened Text
  import opened Auth
  import opened Db
  import opened Validation
  import Collections
  import Sessions
  import Bookings

  /** `searchParams.get('search') || ''`. */
  function RawSearch(search: Option<string>): string {
    if search.Some? then search.value else ""
  }

  /** Only customers; with a non-empty term, the name or the email must contain it. */
  predicate Matches(term: string, u: User) {
    u.role == CUSTOMER && (term == "" || Contains(u.name, term) || Contains(u.email, term))
  }

  /** The bookings a customer owns, in store order. */
  function OwnBookings(db: Db, id: UserId): (r: seq<Booking>)
    ensures forall b :: b in r <==> b in db.bookings && Sessions.OwnedBy(id, b)
  {
    Collections.Filter(db.bookings, (b: Booking) => Sessions.OwnedBy(id, b))
  }

  datatype LastBooking = LastBooking(createdAt: int, status: BookingStatus)

  datatype CustomerSummary = CustomerSummary(
    id: UserId,
    name: string,
    email: string,
    createdAt: int,
    totalBookings: nat,
    lastBooking: Option<LastBooking>)

  /** `_count.bookings` and `bookings: { orderBy: { createdAt: 'desc' }, take: 1 }`. */
  function Summary(db: Db, id: UserId): (s: CustomerSummary)
    requires id < |db.users|
    ensures s.id == id && s.name == db.users[id].name && s.email == db.users[id].email
    ensures s.createdAt == db.users[id].createdAt
    ensures s.totalBookings == |OwnBookings(db, id)|
    ensures s.lastBooking.None? <==> OwnBookings(db, id) == []
  {
    var own := OwnBookings(db, id);
    var newest := Collections.Newest(own, Bookings.CreatedKey, 1);
    CustomerSummary(id, db.users[id].name, db.users[id].email, db.users[id].createdAt, |own|,
                    if newest == [] then None else Some(LastBooking(newest[0].createdAt, newest[0].status)))
  }

  /** The last booking shown is one of the customer's own bookings, and none of their
      bookings was created later. */
  lemma LastBookingIsNewest(db: Db, id: UserId)
    requires id < |db.users| && Summary(db, id).lastBooking.Some?
    ensures exists b | b in db.bookings && Sessions.OwnedBy(id, b) ::
              && Summary(db, id).lastBooking.value == LastBooking(b.createdAt, b.status)
              && forall c | c in db.bookings && Sessions.OwnedBy(id, c) :: c.createdAt <= b.createdAt
  {
    var own := OwnBookings(db, id);
    var newest := Collections.Newest(own, Bookings.CreatedKey, 1);
    var b := newest[0];
    assert b in own;
    forall c | c in db.bookings && Sessions.OwnedBy(id, c) ensures c.createdAt <= b.createdAt {
      assert c in own;
      if c !in newest {
        assert Bookings.CreatedKey(c) <= Bookings.CreatedKey(newest[|newest| - 1]);
      }
    }
  }

  /** `0, 1, …, n - 1`. */
  function Indices(n: nat): (r: seq<nat>)
    ensures |r| == n && forall i | 0 <= i < n :: r[i] == i
  {
    if n == 0 then [] else Indices(n - 1) + [n - 1]
  }

  function SummaryCreatedKey(s: CustomerSummary): int { s.createdAt }

  datatype CustomerList =
    | CustomersListed(customers: seq<CustomerSummary>)
    | CustomersRefused(status: nat, message: string)
    | SearchTooLong

  function CustomerListStatus(l: CustomerList): nat {
    match l
    case CustomersListed(_) => 200
    case CustomersRefused(status, _) => status
    case SearchTooLong => 400
  }

  /** The ids of a listing. */
  function ListedIds(cs: seq<CustomerSummary>): set<UserId> {
    set s | s in cs :: s.id
  }

  /** The ids of the matching users, in store order. */
  function MatchingIds(db: Db, term: string): (ids: seq<nat>)
    ensures forall k | 0 <= k < |ids| :: ids[k] < |db.users| && Matches(term, db.users[ids[k]])
    ensures forall i | 0 <= i < |db.users| && Matches(term, db.users[i]) :: i in ids
    ensures Collections.Distinct(ids)
  {
    var all := Indices(|db.users|);
    var ids := Collections.Filter<nat>(all, (i: nat) => i < |db.users| && Matches(term, db.users[i]));
    Collections.FilterKeepsDistinct<nat>(all, (i: nat) => i < |db.users| && Matches(term, db.users[i]));
    assert forall k | 0 <= k < |ids| :: ids[k] < |db.users| && Matches(term, db.users[ids[k]]) by {
      forall k | 0 <= k < |ids| ensures ids[k] < |db.users| && Matches(term, db.users[ids[k]]) {
        assert ids[k] in ids;
      }
    }
    forall i | 0 <= i < |db.users| && Matches(term, db.users[i]) ensures i in ids {
      assert all[i] == i;
    }
    ids
  }

  function Summaries(db: Db, ids: seq<nat>): (r: seq<CustomerSummary>)
    requires forall k | 0 <= k < |ids| :: ids[k] < |db.users|
    ensures |r| == |ids| && forall k | 0 <= k < |ids| :: r[k] == Summary(db, ids[k])
  {
    seq(|ids|, k requires 0 <= k < |ids| => Summary(db, ids[k]))
  }

  /** A listed entry is the summary of a stored, matching user. */
  predicate Listed(db: Db, term: string, s: CustomerSummary) {
    s.id < |db.users| && Matches(term, db.users[s.id]) && s == Summary(db, s.id)
  }

  /** Every summary of matching ids is a listed entry. */
  lemma SummariesListed(db: Db, term: string, ids: seq<nat>)
    requires forall k | 0 <= k < |ids| :: ids[k] < |db.users| && Matches(term, db.users[ids[k]])
    ensures forall s | s in Summaries(db, ids) :: Listed(db, term, s)
  {
    var summaries := Summaries(db, ids);
    forall s | s in summaries ensures Listed(db, term, s) {
      var k :| 0 <= k < |summaries| && summaries[k] == s;
      assert s == Summary(db, ids[k]);
    }
  }

  /** Summarizing keeps every id. */
  lemma SummariesCover(db: Db, term: string, ids: seq<nat>)
    requires forall k | 0 <= k < |ids| :: ids[k] < |db.users|
    requires forall i | 0 <= i < |db.users| && Matches(term, db.users[i]) :: i in ids
    ensures forall i | 0 <= i < |db.users| && Matches(term, db.users[i]) :: i in ListedIds(Summaries(db, ids))
  {
    var summaries := Summaries(db, ids);
    forall i | 0 <= i < |db.users| && Matches(term, db.users[i]) ensures i in ListedIds(summaries) {
      var k :| 0 <= k < |ids| && ids[k] == i;
      assert summaries[k] in summaries && summaries[k].id == i;
    }
  }

  /** Every matching customer summarized, newest account first. */
  function Listing(db: Db, term: string): (r: seq<CustomerSummary>)
    ensures forall s | s in r :: Listed(db, term, s)
    ensures forall i | 0 <= i < |db.users| && Matches(term, db.users[i]) :: i in ListedIds(r)
    ensures Collections.SortedDesc(r, SummaryCreatedKey)
    // One entry per matching user: no customer is listed twice.
    ensures |r| == |MatchingIds(db, term)|
    ensures forall i, j | 0 <= i < j < |r| :: r[i].id != r[j].id
  {
    var ids := MatchingIds(db, term);
    var summaries := Summaries(db, ids);
    SummariesListed(db, term, ids);
    SummariesCover(db, term, ids);
    var sorted := Collections.SortDesc(summaries, SummaryCreatedKey);
    Collections.SortKeepsMembers(summaries, SummaryCreatedKey);
    assert ListedIds(sorted) == ListedIds(summaries);
    SortedIdsDistinct(db, term, ids, sorted);
    sorted
  }

  /** Summaries of distinct ids, in any order, carry distinct ids: a summary is determined by its id. */
  lemma SortedIdsDistinct(db: Db, term: string, ids: seq<nat>, sorted: seq<CustomerSummary>)
    requires forall k | 0 <= k < |ids| :: ids[k] < |db.users| && Matches(term, db.users[ids[k]])
    requires Collections.Distinct(ids)
    requires multiset(sorted) == multiset(Summaries(db, ids))
    ensures forall i, j | 0 <= i < j < |sorted| :: sorted[i].id != sorted[j].id
  {
    var summaries := Summaries(db, ids);
    assert Collections.Distinct(summaries) by {
      forall i, j | 0 <= i < j < |summaries| ensures summaries[i] != summaries[j] {
        assert summaries[i].id == ids[i] && summaries[j].id == ids[j];
      }
    }
    Collections.PermutationKeepsDistinct(summaries, sorted);
    SummariesListed(db, term, ids);
    forall i, j | 0 <= i < j < |sorted| ensures sorted[i].id != sorted[j].id {
      assert sorted[i] in multiset(summaries) && sorted[j] in multiset(summaries);
      assert Listed(db, term, sorted[i]) && Listed(db, term, sorted[j]);
    }
  }

  function SearchCustomers(db: Db, cookie: Option<string>, now: int, search: Option<string>): (res: (CustomerList, Db))
    ensures res.1 == Sessions.VerifySession(db, cookie, now).1
    ensures Sessions.RequireStaff(db, cookie, now).0.Refused? ==>
              res.0 == CustomersRefused(Sessions.RequireStaff(db, cookie, now).0.status,
                                        Sessions.RequireStaff(db, cookie, now).0.message)
    ensures res.0 == SearchTooLong <==>
              Sessions.RequireStaff(db, cookie, now).0.Granted? && |RawSearch(search)| > SearchCap
    ensures res.0.CustomersListed? <==>
              Sessions.RequireStaff(db, cookie, now).0.Granted? && |RawSearch(search)| <= SearchCap
    // Exactly the matching customers, each summarized, newest account first.
    ensures res.0.CustomersListed? ==>
              var term := Sanitize(RawSearch(search));
              && (forall s | s in res.0.customers :: Listed(db, term, s))
              && (forall i | 0 <= i < |db.users| :: i in ListedIds(res.0.customers) <==> Matches(term, db.users[i]))
              && Collections.SortedDesc(res.0.customers, SummaryCreatedKey)
              && |res.0.customers| == |MatchingIds(db, term)|
              && (forall i, j | 0 <= i < j < |res.0.customers| :: res.0.customers[i].id != res.0.customers[j].id)
  {
    var (g, db') := Sessions.RequireStaff(db, cookie, now);
    if g.Refused? then (CustomersRefused(g.status, g.message), db')
    else if |RawSearch(search)| > SearchCap then (SearchTooLong, db')
    else (CustomersListed(Listing(db, Sanitize(RawSearch(search)))), db')
  }
}

=== FILE: db.dfy ===
/**
 The persisted entities the API routes read and write (users, sessions,
 bookings, contact messages, phone verification codes) and the whole server
 state a request sees: the database plus the three process-local maps
 (the rate-limit windows, the login lockout and the phone lockout).
 Users, bookings, contacts and codes are kept in creation order; a user's
 position is its id. Sessions are keyed by their token, which the schema
 makes unique.
 */
module Db {
  import opened Text
  import opened Auth
  import RateLimit
  import Collections

  type UserId = nat

  datatype User = User(email: string, passwordHash: string, name: string, role: Role, createdAt: int)

  datatype Session = Session(token: string, accessHash: string, userId: UserId, expiresAt: int)

  datatype BookingStatus = PENDING | CONFIRMED | COMPLETED | CANCELLED

  function BookingStatusName(s: BookingStatus): string {
    match s
    case PENDING => "PENDING"
    case CONFIRMED => "CONFIRMED"
    case COMPLETED => "COMPLETED"
    case CANCELLED => "CANCELLED"
  }

  /** The enum check the store applies to a `status` filter value. */
  function ParseBookingStatus(s: string): (r: Option<BookingStatus>)
    ensures r.Some? ==> BookingStatusName(r.value) == s
    ensures r.None? ==> forall st: BookingStatus :: BookingStatusName(st) != s
  {
    if s == "PENDING" then Some(PENDING)
    else if s == "CONFIRMED" then Some(CONFIRMED)
    else if s == "COMPLETED" then Some(COMPLETED)
    else if s == "CANCELLED" then Some(CANCELLED)
    else None
  }

  /** Every status name is accepted back as that status. */
  lemma BookingStatusRoundTrip(st: BookingStatus)
    ensures ParseBookingStatus(BookingStatusName(st)) == Some(st)
  {
  }

  datatype Booking = Booking(
    userId: Option<UserId>,
    services: seq<string>,
    date: int,
    time: string,
    name: string,
    email: string,
    phone: string,
    address: string,
    notes: Option<string>,
    status: BookingStatus,
    createdAt: int)

  datatype ContactStatus = NEW | READ | REPLIED | ARCHIVED

  function ContactStatusName(s: ContactStatus): string {
    match s
    case NEW => "NEW"
    case READ => "READ"
    case REPLIED => "REPLIED"
    case ARCHIVED => "ARCHIVED"
  }

  /** The enum check the store applies to a contact `status` filter value. */
  function ParseContactStatus(s: string): (r: Option<ContactStatus>)
    ensures r.Some? ==> ContactStatusName(r.value) == s
    ensures r.None? ==> forall st: ContactStatus :: ContactStatusName(st) != s
  {
    if s == "NEW" then Some(NEW)
    else if s == "READ" then Some(READ)
    else if s == "REPLIED" then Some(REPLIED)
    else if s == "ARCHIVED" then Some(ARCHIVED)
    else None
  }

  /** Every contact status name is accepted back as that status. */
  lemma ContactStatusRoundTrip(st: ContactStatus)
    ensures ParseContactStatus(ContactStatusName(st)) == Some(st)
  {
  }

  datatype Contact = Contact(
    name: string,
    email: string,
    phone: string,
    service: Option<string>,
    message: string,
    status: ContactStatus,
    createdAt: int)

  datatype Code = Code(phone: string, code: string, verified: bool, expiresAt: int, createdAt: int)

  datatype Db = Db(
    users: seq<User>,
    sessions: map<string, Session>,
    bookings: seq<Booking>,
    contacts: seq<Contact>,
    codes: seq<Code>)

  /** Everything a request can observe or change. */
  datatype State = State(
    db: Db,
    rate: RateLimit.Store,
    logins: RateLimit.Locks,
    phoneLocks: RateLimit.Locks)

  /** `user.findUnique({ where: { email } })`. */
  function FindUserByEmail(users: seq<User>, email: string): (r: Option<UserId>)
    ensures r.Some? ==> r.value < |users| && users[r.value].email == email
    ensures r.None? <==> forall i | 0 <= i < |users| :: users[i].email != email
  {
    Collections.FirstWhere(users, (u: User) => u.email == email)
  }

  /** The user a session belongs to (`include: { user: true }`), if it is stored. */
  function UserOf(db: Db, s: Session): (u: Option<User>)
    ensures u.Some? <==> s.userId < |db.users|
    ensures u.Some? ==> u.value == db.users[s.userId]
  {
    if s.userId < |db.users| then Some(db.users[s.userId]) else None
  }

  /** `session.findUnique({ where: { accessHash } })` finds something. */
  predicate HashInUse(sessions: map<string, Session>, h: string) {
    exists t | t in sessions :: sessions[t].accessHash == h
  }

  /** The schema's guarantees: sessions are stored under their token, every session
      refers to a stored user, access hashes and user emails are unique. */
  predicate WellFormed(db: Db) {
    && (forall t | t in db.sessions :: db.sessions[t].token == t)
    && (forall t | t in db.sessions :: db.sessions[t].userId < |db.users|)
    && (forall t1, t2 | t1 in db.sessions && t2 in db.sessions && t1 != t2 ::
          db.sessions[t1].accessHash != db.sessions[t2].accessHash)
    && DistinctEmails(db.users)
  }

  /** No two users share an email (the schema's `@unique`). */
  predicate DistinctEmails(users: seq<User>) {
    forall i, j | 0 <= i < j < |users| :: users[i].email != users[j].email
  }

  /** Under the schema's guarantees an email lookup is exact: it finds the one user with that email. */
  lemma FindUserExact(db: Db, email: string, id: UserId)
    requires WellFormed(db) && id < |db.users| && db.users[id].email == email
    ensures FindUserByEmail(db.users, email) == Some(id)
  {
  }
}

=== FILE: login.dfy ===
/**
 `POST /api/auth/login`: rate limit, input checks, lockout, credential check,
 bounded access-hash draw, role redirect and session creation. The bcrypt
 comparison is the `passwordMatches` parameter; nanoid's random bytes are in
 `LoginDraws`.
 */
module Login {
  import opened Text
  import opened Auth
  import opened Db
  import RateLimit
  import opened SessionHash
  import opened Validation
  import Sessions
  import Middleware

  const MaxHashAttempts: nat := 5
  /** The cookie's `maxAge`, 7 days in seconds. */
  const CookieMaxAge: nat := 60 * 60 * 24 * 7

  datatype LoginRequest = LoginRequest(email: Option<string>, password: Option<string>)

  /** The random bytes a login may consume: 32 for the token and 8 for each of up to 5 hashes. */
  datatype LoginDraws = LoginDraws(tokenBytes: seq<nat>, hashDraws: seq<seq<nat>>)

  predicate ValidDraws(d: LoginDraws) {
    && |d.tokenBytes| == TokenLength && IsRandomBytes(d.tokenBytes)
    && |d.hashDraws| == MaxHashAttempts
    && forall i | 0 <= i < |d.hashDraws| :: |d.hashDraws[i]| == HashLength && IsRandomBytes(d.hashDraws[i])
  }

  /** The hash drawn on the `i`-th turn of the retry loop. */
  function Candidate(d: LoginDraws, i: nat): (h: string)
    requires ValidDraws(d) && i < MaxHashAttempts
    ensures IsValidHashFormat(h)
  {
    GenerateSessionHash(d.hashDraws[i])
  }

  /** The turn of the first draw, from turn `i` on, that no stored session holds. */
  function FreeIndex(sessions: map<string, Session>, d: LoginDraws, i: nat): (r: Option<nat>)
    requires ValidDraws(d) && i <= MaxHashAttempts
    ensures r.Some? ==> i <= r.value < MaxHashAttempts && !HashInUse(sessions, Candidate(d, r.value))
    ensures r.Some? ==> forall m | i <= m < r.value :: HashInUse(sessions, Candidate(d, m))
    ensures r.None? <==> forall k | i <= k < MaxHashAttempts :: HashInUse(sessions, Candidate(d, k))
    decreases MaxHashAttempts - i
  {
    if i == MaxHashAttempts then None
    else if !HashInUse(sessions, Candidate(d, i)) then Some(i)
    else FreeIndex(sessions, d, i + 1)
  }

  /** The first of the five drawn hashes that no stored session holds, if any. */
  function FirstFreeHash(sessions: map<string, Session>, d: LoginDraws): (r: Option<string>)
    requires ValidDraws(d)
    ensures r.Some? ==> IsValidHashFormat(r.value) && !HashInUse(sessions, r.value)
    ensures r.None? <==> forall k | 0 <= k < MaxHashAttempts :: HashInUse(sessions, Candidate(d, k))
  {
    var k := FreeIndex(sessions, d, 0);
    if k.Some? then Some(Candidate(d, k.value)) else None
  }

  /** The retry loop as written: draw, look the hash up, stop at the first free one or after five. */
  method PickAccessHash(sessions: map<string, Session>, d: LoginDraws) returns (hash: Option<string>, attempts: nat)
    requires ValidDraws(d)
    ensures hash == FirstFreeHash(sessions, d)
    ensures attempts <= MaxHashAttempts
    ensures hash.None? <==> attempts == MaxHashAttempts
    ensures hash.Some? ==> hash.value == Candidate(d, attempts)
  {
    attempts := 0;
    hash := None;
    while attempts < MaxHashAttempts
      invariant attempts <= MaxHashAttempts
      invariant forall m | 0 <= m < attempts :: HashInUse(sessions, Candidate(d, m))
      decreases MaxHashAttempts - attempts
    {
      var candidate := Candidate(d, attempts);
      if !HashInUse(sessions, candidate) {
        FirstFreeIsFirstUntaken(sessions, d, attempts);
        hash := Some(candidate);
        return;
      }
      attempts := attempts + 1;
    }
    FreeIndexSkip(sessions, d, 0, MaxHashAttempts);
  }

  /** Draws that are all taken are skipped. */
  lemma {:induction false} FreeIndexSkip(sessions: map<string, Session>, d: LoginDraws, i: nat, k: nat)
    requires ValidDraws(d) && i <= k <= MaxHashAttempts
    requires forall m | i <= m < k :: HashInUse(sessions, Candidate(d, m))
    ensures FreeIndex(sessions, d, i) == FreeIndex(sessions, d, k)
    decreases k - i
  {
    if i < k {
      assert HashInUse(sessions, Candidate(d, i));
      FreeIndexSkip(sessions, d, i + 1, k);
    }
  }

  /** The answer is the first draw that is not taken. */
  lemma FirstFreeIsFirstUntaken(sessions: map<string, Session>, d: LoginDraws, k: nat)
    requires ValidDraws(d) && k < MaxHashAttempts
    requires forall m | 0 <= m < k :: HashInUse(sessions, Candidate(d, m))
    requires !HashInUse(sessions, Candidate(d, k))
    ensures FirstFreeHash(sessions, d) == Some(Candidate(d, k))
  {
    FreeIndexSkip(sessions, d, 0, k);
  }

  datatype LoginOutcome =
    | LoginRateLimited(retryAfter: int)
    | LoginMissingFields
    | LoginBadEmail
    | LoginLocked(minutes: int)
    | LoginInvalid(attemptsRemaining: Option<int>)
    | LoginHashExhausted
    | LoginWriteFailed
    | LoginSuccess(redirectUrl: string, user: Sessions.SessionUser, token: string, cookieMaxAge: nat)

  function LoginStatus(o: LoginOutcome): nat {
    match o
    case LoginRateLimited(_) => 429
    case LoginMissingFields => 400
    case LoginBadEmail => 400
    case LoginLocked(_) => 423
    case LoginInvalid(_) => 401
    case LoginHashExhausted => 500
    case LoginWriteFailed => 500
    case LoginSuccess(_, _, _, _) => 200
  }

  /** Where each role lands after signing in. */
  function Destination(r: Role): string {
    if r == ADMIN || r == STAFF then "/admin/dashboard" else "/dashboard"
  }

  function RateCheck(st: State, h: RateLimit.Headers, now: int): (RateLimit.Verdict, RateLimit.Store) {
    RateLimit.Limit(RateLimit.LoginLimiter, st.rate, h, now)
  }

  /** The request got past the rate limit and the input checks. */
  predicate Admissible(st: State, h: RateLimit.Headers, req: LoginRequest, now: int) {
    RateCheck(st, h, now).0.allowed && WellFormedInput(req)
  }

  /** Both fields are non-empty and the email has the expected shape. */
  predicate WellFormedInput(req: LoginRequest) {
    Present(req.email) && Present(req.password) && IsEmail(req.email.value)
  }

  /** The input checks pass and the email is not locked out, so the user lookup happens. */
  predicate Unlocked(st: State, req: LoginRequest, now: int) {
    WellFormedInput(req) && !RateLimit.IsLocked(st.logins, ToLower(req.email.value), now)
  }

  /** The request got past the lockout check too, so the user lookup happens. */
  predicate LooksUp(st: State, h: RateLimit.Headers, req: LoginRequest, now: int) {
    Admissible(st, h, req, now) && !RateLimit.IsLocked(st.logins, ToLower(req.email.value), now)
  }

  function Login(st: State, h: RateLimit.Headers, req: LoginRequest, d: LoginDraws,
                 passwordMatches: (string, string) -> bool, env: Env, now: nat): (res: (LoginOutcome, State))
    requires ValidDraws(d)
    // The rate limit comes first; a denial changes nothing.
    ensures !RateCheck(st, h, now).0.allowed ==>
              res == (LoginRateLimited(RateCheck(st, h, now).0.retryAfter.value), st)
    ensures res.1.rate == RateCheck(st, h, now).1
    ensures res.1.phoneLocks == st.phoneLocks
    // Bad input is refused without touching the lockout record.
    ensures RateCheck(st, h, now).0.allowed && !(Present(req.email) && Present(req.password)) ==>
              res.0 == LoginMissingFields && res.1.logins == st.logins && res.1.db == st.db
    ensures RateCheck(st, h, now).0.allowed && Present(req.email) && Present(req.password) && !IsEmail(req.email.value) ==>
              res.0 == LoginBadEmail && res.1.logins == st.logins && res.1.db == st.db
    // A locked email is refused before the user is looked up.
    ensures Admissible(st, h, req, now) && RateLimit.IsLocked(st.logins, ToLower(req.email.value), now) ==>
              res.0 == LoginLocked(RateLimit.MinutesLeft(st.logins, ToLower(req.email.value), now))
              && res.1.logins == st.logins && res.1.db == st.db
    // An unknown email counts as a failure but is always answered 401, never 423.
    ensures LooksUp(st, h, req, now) && FindUserByEmail(st.db.users, ToLower(req.email.value)).None? ==>
              res.0 == LoginInvalid(None) && res.1.db == st.db
              && res.1.logins == RateLimit.TrackLoginAttempt(st.logins, req.email.value, false, now).1
    // A wrong password counts as a failure: 423 exactly when this failure locks.
    ensures LooksUp(st, h, req, now) && FindUserByEmail(st.db.users, ToLower(req.email.value)).Some? ==>
              var u := st.db.users[FindUserByEmail(st.db.users, ToLower(req.email.value)).value];
              var t := RateLimit.TrackLoginAttempt(st.logins, req.email.value, false, now);
              !passwordMatches(req.password.value, u.passwordHash) ==>
                res.1.db == st.db && res.1.logins == t.1
                && (t.0.locked ==> res.0 == LoginLocked(15))
                && (!t.0.locked ==> res.0 == LoginInvalid(t.0.attemptsRemaining))
    // A correct password clears the failure record, whatever happens next, and signs in
    // exactly when a draw is free and the new token is not already stored.
    ensures LooksUp(st, h, req, now) && FindUserByEmail(st.db.users, ToLower(req.email.value)).Some?
            && passwordMatches(req.password.value, st.db.users[FindUserByEmail(st.db.users, ToLower(req.email.value)).value].passwordHash) ==>
              && res.1.logins == st.logins - {ToLower(req.email.value)}
              && (res.0.LoginSuccess? <==>
                    FirstFreeHash(st.db.sessions, d).Some? && GenerateSessionToken(d.tokenBytes) !in st.db.sessions)
              && (res.0.LoginHashExhausted? <==> FirstFreeHash(st.db.sessions, d).None?)
    // Running out of hash draws is a 500 that creates nothing.
    ensures res.0 == LoginHashExhausted ==>
              res.1.db == st.db && (forall k | 0 <= k < MaxHashAttempts :: HashInUse(st.db.sessions, Candidate(d, k)))
    // Only a success writes, and it adds exactly one session.
    ensures !res.0.LoginSuccess? ==> res.1.db == st.db
    ensures res.0.LoginSuccess? ==>
              && LooksUp(st, h, req, now)
              && FindUserByEmail(st.db.users, ToLower(req.email.value)).Some?
              && FirstFreeHash(st.db.sessions, d).Some?
    ensures res.0.LoginSuccess? && LooksUp(st, h, req, now)
            && FindUserByEmail(st.db.users, ToLower(req.email.value)).Some? && FirstFreeHash(st.db.sessions, d).Some? ==>
              var uid := FindUserByEmail(st.db.users, ToLower(req.email.value)).value;
              var hash := FirstFreeHash(st.db.sessions, d).value;
              var session := Session(res.0.token, hash, uid, now + DefaultSessionDays * MsPerDay);
              && passwordMatches(req.password.value, st.db.users[uid].passwordHash)
              && res.0.token == GenerateSessionToken(d.tokenBytes) && res.0.token !in st.db.sessions
              && res.1.db == st.db.(sessions := st.db.sessions[res.0.token := session])
              && res.0.redirectUrl == ConstructHashPathUrl(env, hash, Destination(st.db.users[uid].role))
              && res.0.user == Sessions.ViewOf(st.db, session)
              && res.0.cookieMaxAge == CookieMaxAge
  {
    var (verdict, rate') := RateCheck(st, h, now);
    if !verdict.allowed then (LoginRateLimited(verdict.retryAfter.value), st)
    else Authenticate(st.(rate := rate'), req, d, passwordMatches, env, now)
  }

  /** Everything after the rate limit: the input checks, the lockout, the user lookup, the
      password check and the lockout bookkeeping it triggers. */
  function Authenticate(st: State, req: LoginRequest, d: LoginDraws,
                        passwordMatches: (string, string) -> bool, env: Env, now: nat): (res: (LoginOutcome, State))
    requires ValidDraws(d)
    ensures res.1.rate == st.rate && res.1.phoneLocks == st.phoneLocks
    ensures !(Present(req.email) && Present(req.password)) ==>
              res.0 == LoginMissingFields && res.1.logins == st.logins && res.1.db == st.db
    ensures Present(req.email) && Present(req.password) && !IsEmail(req.email.value) ==>
              res.0 == LoginBadEmail && res.1.logins == st.logins && res.1.db == st.db
    ensures WellFormedInput(req) && RateLimit.IsLocked(st.logins, ToLower(req.email.value), now) ==>
              res.0 == LoginLocked(RateLimit.MinutesLeft(st.logins, ToLower(req.email.value), now))
              && res.1.logins == st.logins && res.1.db == st.db
    ensures Unlocked(st, req, now) && FindUserByEmail(st.db.users, ToLower(req.email.value)).None? ==>
              res.0 == LoginInvalid(None) && res.1.db == st.db
              && res.1.logins == RateLimit.TrackLoginAttempt(st.logins, req.email.value, false, now).1
    ensures Unlocked(st, req, now) && FindUserByEmail(st.db.users, ToLower(req.email.value)).Some? ==>
              var u := st.db.users[FindUserByEmail(st.db.users, ToLower(req.email.value)).value];
              var t := RateLimit.TrackLoginAttempt(st.logins, req.email.value, false, now);
              !passwordMatches(req.password.value, u.passwordHash) ==>
                res.1.db == st.db && res.1.logins == t.1
                && (t.0.locked ==> res.0 == LoginLocked(15))
                && (!t.0.locked ==> res.0 == LoginInvalid(t.0.attemptsRemaining))
    ensures Unlocked(st, req, now) && FindUserByEmail(st.db.users, ToLower(req.email.value)).Some?
            && passwordMatches(req.password.value, st.db.users[FindUserByEmail(st.db.users, ToLower(req.email.value)).value].passwordHash) ==>
              res.1.logins == st.logins - {ToLower(req.email.value)}
              && res == IssueSession(st.(logins := st.logins - {ToLower(req.email.value)}),
                                     FindUserByEmail(st.db.users, ToLower(req.email.value)).value, d, env, now)
    ensures !(Unlocked(st, req, now) && FindUserByEmail(st.db.users, ToLower(req.email.value)).Some?
              && passwordMatches(req.password.value, st.db.users[FindUserByEmail(st.db.users, ToLower(req.email.value)).value].passwordHash)) ==>
              res.1.db == st.db && !res.0.LoginSuccess? && res.0 != LoginHashExhausted
  {
    if !Present(req.email) || !Present(req.password) then (LoginMissingFields, st)
    else
      var email, password := req.email.value, req.password.value;
      if !IsEmail(email) then (LoginBadEmail, st)
      else
        var lock := RateLimit.IsAccountLocked(st.logins, email, now);
        if lock.locked then (LoginLocked(lock.lockoutMinutes.value), st)
        else
          var found := FindUserByEmail(st.db.users, ToLower(email));
          if found.None? then
            var (_, logins') := RateLimit.TrackLoginAttempt(st.logins, email, false, now);
            (LoginInvalid(None), st.(logins := logins'))
          else
            var uid := found.value;
            var user := st.db.users[uid];
            if !passwordMatches(password, user.passwordHash) then
              var (attempt, logins') := RateLimit.TrackLoginAttempt(st.logins, email, false, now);
              if attempt.locked then (LoginLocked(attempt.lockoutMinutes.value), st.(logins := logins'))
              else (LoginInvalid(attempt.attemptsRemaining), st.(logins := logins'))
            else
              var (_, logins') := RateLimit.TrackLoginAttempt(st.logins, email, true, now);
              IssueSession(st.(logins := logins'), uid, d, env, now)
  }

  /** A correct password: a fresh token, the first free hash drawn, a 7-day expiry and a
      redirect by role; out of draws is a 500, and a token that is already stored is a
      failed write. Only a success writes. */
  function IssueSession(st: State, uid: UserId, d: LoginDraws, env: Env, now: nat): (res: (LoginOutcome, State))
    requires ValidDraws(d) && uid < |st.db.users|
    ensures res.1.rate == st.rate && res.1.phoneLocks == st.phoneLocks && res.1.logins == st.logins
    ensures res.0.LoginHashExhausted? <==> FirstFreeHash(st.db.sessions, d).None?
    // A free draw and an unused token always sign in; a token already stored fails the write.
    ensures res.0.LoginSuccess? <==>
              FirstFreeHash(st.db.sessions, d).Some? && GenerateSessionToken(d.tokenBytes) !in st.db.sessions
    ensures res.0.LoginWriteFailed? <==>
              FirstFreeHash(st.db.sessions, d).Some? && GenerateSessionToken(d.tokenBytes) in st.db.sessions
    ensures !res.0.LoginSuccess? ==> res.1.db == st.db
    ensures res.0.LoginHashExhausted? || res.0.LoginWriteFailed? || res.0.LoginSuccess?
    ensures res.0.LoginSuccess? ==>
              var hash := FirstFreeHash(st.db.sessions, d);
              && hash.Some?
              && var session := Session(res.0.token, hash.value, uid, now + DefaultSessionDays * MsPerDay);
              && res.0.token == GenerateSessionToken(d.tokenBytes) && res.0.token !in st.db.sessions
              && res.1.db == st.db.(sessions := st.db.sessions[res.0.token := session])
              && res.0.redirectUrl == ConstructHashPathUrl(env, hash.value, Destination(st.db.users[uid].role))
              && res.0.user == Sessions.ViewOf(st.db, session)
              && res.0.cookieMaxAge == CookieMaxAge
  {
    var token := GenerateSessionToken(d.tokenBytes);
    var expiresAt := GetSessionExpiry(now, DefaultSessionDays);
    var hash := FirstFreeHash(st.db.sessions, d);
    if hash.None? then (LoginHashExhausted, st)
    else
      var redirectUrl := ConstructHashPathUrl(env, hash.value, Destination(st.db.users[uid].role));
      if token in st.db.sessions then (LoginWriteFailed, st)
      else
        var session := Session(token, hash.value, uid, expiresAt);
        var db' := st.db.(sessions := st.db.sessions[token := session]);
        (LoginSuccess(redirectUrl, Sessions.ViewOf(db', session), token, CookieMaxAge), st.(db := db'))
  }

  /** Signing in keeps the schema's guarantees: the new session is stored under its token,
      refers to the signed-in user, and holds a hash no other session holds. */
  lemma LoginWellFormed(st: State, h: RateLimit.Headers, req: LoginRequest, d: LoginDraws,
                        passwordMatches: (string, string) -> bool, env: Env, now: nat)
    requires ValidDraws(d) && WellFormed(st.db)
    ensures WellFormed(Login(st, h, req, d, passwordMatches, env, now).1.db)
  {
    var (o, st') := Login(st, h, req, d, passwordMatches, env, now);
    if o.LoginSuccess? {
      var uid := FindUserByEmail(st.db.users, ToLower(req.email.value)).value;
      var hash := FirstFreeHash(st.db.sessions, d).value;
      var s := Session(o.token, hash, uid, now + DefaultSessionDays * MsPerDay);
      assert st'.db == st.db.(sessions := st.db.sessions[o.token := s]);
      AddSessionWellFormed(st.db, s);
    }
  }

  lemma AddSessionWellFormed(db: Db, s: Session)
    requires WellFormed(db) && s.token !in db.sessions && !HashInUse(db.sessions, s.accessHash)
    requires s.userId < |db.users|
    ensures WellFormed(db.(sessions := db.sessions[s.token := s]))
  {
  }

  /** The session a login issues authenticates its user for the whole 7 days, up to and
      including the expiry instant. */
  lemma IssuedSessionAuthenticates(st: State, h: RateLimit.Headers, req: LoginRequest, d: LoginDraws,
                                   passwordMatches: (string, string) -> bool, env: Env, now: nat, later: int)
    requires ValidDraws(d)
    requires Login(st, h, req, d, passwordMatches, env, now).0.LoginSuccess?
    requires now <= later <= now + 7 * 86_400_000
    ensures var (o, st') := Login(st, h, req, d, passwordMatches, env, now);
            Sessions.VerifySession(st'.db, Some(o.token), later) == (Sessions.Authenticated(o.user), st'.db)
  {
    var (o, st') := Login(st, h, req, d, passwordMatches, env, now);
    assert o.token != [] by {
      assert |o.token| == 32;
    }
  }

  /** With a free draw and an unused token the session is issued, and the cookie the
      answer sets authenticates that user right away. */
  lemma FreeDrawSignsIn(st: State, uid: UserId, d: LoginDraws, env: Env, now: nat)
    requires ValidDraws(d) && uid < |st.db.users|
    requires FirstFreeHash(st.db.sessions, d).Some? && GenerateSessionToken(d.tokenBytes) !in st.db.sessions
    ensures var (o, st') := IssueSession(st, uid, d, env, now);
            && LoginStatus(o) == 200
            && o.user.id == uid
            && Sessions.VerifySession(st'.db, Some(o.token), now) == (Sessions.Authenticated(o.user), st'.db)
  {
    var (o, st') := IssueSession(st, uid, d, env, now);
    assert |o.token| == 32;
    var session := st'.db.sessions[o.token];
    assert session.userId == uid && session.expiresAt == now + DefaultSessionDays * MsPerDay;
  }

  /** Following the redirect with the new cookie gets through the edge router: the hash is
      stripped and the request lands on the role's page. */
  lemma RedirectIsRouted(st: State, h: RateLimit.Headers, req: LoginRequest, d: LoginDraws,
                         passwordMatches: (string, string) -> bool, env: Env, now: nat)
    requires ValidDraws(d)
    requires Login(st, h, req, d, passwordMatches, env, now).0.LoginSuccess?
    ensures var (o, st') := Login(st, h, req, d, passwordMatches, env, now);
            var uid := FindUserByEmail(st.db.users, ToLower(req.email.value)).value;
            var hash := st'.db.sessions[o.token].accessHash;
            var dest := Destination(st.db.users[uid].role);
            && o.redirectUrl == Origin(env) + HashPath(hash, dest)
            && Middleware.Route(HashPath(hash, dest), Some(o.token)) == Middleware.Rewrite(dest, hash)
  {
    var (o, st') := Login(st, h, req, d, passwordMatches, env, now);
    var uid := FindUserByEmail(st.db.users, ToLower(req.email.value)).value;
    var hash := FirstFreeHash(st.db.sessions, d).value;
    assert st'.db.sessions[o.token].accessHash == hash;
    assert o.redirectUrl == ConstructHashPathUrl(env, hash, Destination(st.db.users[uid].role));
    assert |o.token| == 32;
    DestinationIsRouted(hash, st.db.users[uid].role, o.token);
  }

  /** A role's landing page behind any well-formed hash is rewritten to that page. */
  lemma DestinationIsRouted(hash: string, role: Role, token: string)
    requires IsValidHashFormat(hash) && token != ""
    ensures Middleware.Route(HashPath(hash, Destination(role)), Some(token)) == Middleware.Rewrite(Destination(role), hash)
  {
    var dest := Destination(role);
    assert StartsWith(dest, "/");
    assert HashPath(hash, dest) == "/" + hash + dest;
    assert Middleware.IsProtectedNamespace(dest);
    Middleware.AnyHashIsRewritten(hash, dest, token);
  }

  /** An unknown email is never answered 423, even on the failure that locks it. */
  lemma UnknownEmailNeverLocked(st: State, h: RateLimit.Headers, req: LoginRequest, d: LoginDraws,
                                passwordMatches: (string, string) -> bool, env: Env, now: nat)
    requires ValidDraws(d) && LooksUp(st, h, req, now)
    requires FindUserByEmail(st.db.users, ToLower(req.email.value)).None?
    ensures LoginStatus(Login(st, h, req, d, passwordMatches, env, now).0) == 401
  {
  }
}

=== FILE: middleware.dfy ===
/**
 The edge interceptor of middleware.ts: a pure decision from the request
 path and the presence of a `session_token` cookie. It never looks up a
 session, never pairs the hash with one and never reads a role; it only
 strips a well-formed hash prefix in front of `/admin…` or `/dashboard…`.
 */
module Middleware {
  import opened Text
  import opened SessionHash

  datatype Decision =
    | Next                                   // pass the request through untouched
    | RedirectLogin                          // redirect to /login
    | Rewrite(path: string, hashHeader: string)  // rewrite to `path`, header x-session-hash

  /** The remainder after `/{hash}` is routed only when it leads to one of these namespaces. */
  predicate IsProtectedNamespace(rest: string) {
    StartsWith(rest, "/admin") || StartsWith(rest, "/dashboard")
  }

  /** `middleware(request)`, with the cookie's value (absent or empty means no token). */
  function Route(pathname: string, cookie: Option<string>): (d: Decision)
    // Without an extractable hash: only the bare protected paths are bounced.
    ensures ExtractHashFromPath(pathname).None? ==>
              (d == RedirectLogin <==> StartsWith(pathname, "/admin") || pathname == "/dashboard")
    ensures ExtractHashFromPath(pathname).None? ==> d == Next || d == RedirectLogin
    // With a hash but no token: always bounced.
    ensures ExtractHashFromPath(pathname).Some? && !Present(cookie) ==> d == RedirectLogin
    // With a hash and a token: rewritten exactly when the remainder is a protected namespace.
    ensures ExtractHashFromPath(pathname).Some? && Present(cookie) ==>
              (d.Rewrite? <==> IsProtectedNamespace(pathname[HashLength + 1..]))
    // A rewrite drops exactly the `/{hash}` prefix and reports that hash in the header.
    ensures d.Rewrite? ==> ExtractHashFromPath(pathname) == Some(d.hashHeader)
                           && pathname == "/" + d.hashHeader + d.path
                           && IsProtectedNamespace(d.path)
    ensures d.Next? ==> ExtractHashFromPath(pathname).None?
  {
    var accessHash := ExtractHashFromPath(pathname);
    if accessHash.None? then
      if StartsWith(pathname, "/admin") || pathname == "/dashboard" then RedirectLogin else Next
    else if !IsValidHashFormat(accessHash.value) then
      RedirectLogin
    else if !Present(cookie) then
      RedirectLogin
    else
      var remainingPath := pathname[|accessHash.value| + 1..];
      if StartsWith(remainingPath, "/admin") then Rewrite(remainingPath, accessHash.value)
      else if StartsWith(remainingPath, "/dashboard") then Rewrite(remainingPath, accessHash.value)
      else RedirectLogin
  }

  /** The format re-check is dead code: a redirect of a hash path is always
      due to a missing token or to a remainder outside the protected namespaces. */
  lemma FormatRedirectUnreachable(pathname: string, cookie: Option<string>)
    requires ExtractHashFromPath(pathname).Some?
    requires Route(pathname, cookie) == RedirectLogin
    ensures !Present(cookie) || !IsProtectedNamespace(pathname[HashLength + 1..])
  {
  }

  /** The decision depends on the path and on whether a token is present, nothing else. */
  lemma RouteIgnoresTokenValue(pathname: string, c1: Option<string>, c2: Option<string>)
    requires Present(c1) == Present(c2)
    ensures Route(pathname, c1) == Route(pathname, c2)
  {
  }

  /** Any well-formed hash in front of a protected namespace is rewritten when a token is
      present, whatever the token is: the hash is never checked against a session. */
  lemma AnyHashIsRewritten(h: string, rest: string, token: string)
    requires IsValidHashFormat(h) && IsProtectedNamespace(rest) && token != ""
    ensures Route("/" + h + rest, Some(token)) == Rewrite(rest, h)
  {
    assert rest[0] == '/';
    ExtractRoundTrip(h, rest);
    assert ("/" + h + rest)[HashLength + 1..] == rest;
  }

  // ---- config.matcher -------------------------------------------------------

  /** JavaScript's `.` does not match the line terminators. */
  predicate IsLineTerminator(c: char) {
    c == '\n' || c == '\r' || c == '\U{2028}' || c == '\U{2029}'
  }

  predicate NoLineTerminator(s: string) {
    forall i | 0 <= i < |s| :: !IsLineTerminator(s[i])
  }

  predicate IsImageExtension(ext: string) {
    ext == "svg" || ext == "png" || ext == "jpg" || ext == "jpeg" || ext == "gif" || ext == "webp"
  }

  /** The alternative `.*\.(?:svg|png|jpg|jpeg|gif|webp)$` of the look-ahead. */
  predicate EndsInImage(rest: string) {
    exists k | 0 <= k < |rest| :: rest[k] == '.' && NoLineTerminator(rest[..k]) && IsImageExtension(rest[k + 1..])
  }

  /** The alternative `favicon.ico`, whose `.` is the any-character wildcard. */
  predicate FaviconLike(rest: string) {
    |rest| >= 11 && rest[..7] == "favicon" && !IsLineTerminator(rest[7]) && rest[8..11] == "ico"
  }

  /** The negative look-ahead of the matcher, applied to the text after the first `/`. */
  predicate ExcludedRest(rest: string) {
    || StartsWith(rest, "_next/static") || StartsWith(rest, "_next/image") || FaviconLike(rest)
    || EndsInImage(rest)
    || StartsWith(rest, "api") || StartsWith(rest, "login") || StartsWith(rest, "contacto")
    || StartsWith(rest, "reservar") || StartsWith(rest, "servicios") || StartsWith(rest, "precios")
  }

  /** `config.matcher`: `/((?!…).*)` — the middleware runs only on the paths this accepts. */
  predicate IsMatched(pathname: string) {
    |pathname| >= 1 && pathname[0] == '/' && NoLineTerminator(pathname[1..]) && !ExcludedRest(pathname[1..])
  }

  /** What the edge does with a request: the matcher decides whether `Route` runs at all. */
  function Edge(pathname: string, cookie: Option<string>): (d: Decision)
    ensures !IsMatched(pathname) ==> d == Next
    ensures IsMatched(pathname) ==> d == Route(pathname, cookie)
  {
    if IsMatched(pathname) then Route(pathname, cookie) else Next
  }

  /** The exclusion is by prefix, not by path segment: a hash that merely begins with
      an excluded word (`apiXXXXX`, `login123`, …) turns off routing for its whole path. */
  lemma ExcludedPrefixHashPassesThrough(h: string, word: string, rest: string, cookie: Option<string>)
    requires IsValidHashFormat(h)
    requires word in ["api", "login", "contacto", "reservar", "precios"]
    requires StartsWith(h, word)
    ensures Edge("/" + h + rest, cookie) == Next
  {
    var p := "/" + h + rest;
    assert p[1..][..|word|] == h[..|word|];
  }

  /** Image files are never intercepted, even under a hash prefix. */
  lemma ImagePathsPassThrough(pathname: string, stem: string, ext: string, cookie: Option<string>)
    requires |pathname| >= 1 && pathname[0] == '/'
    requires IsImageExtension(ext) && NoLineTerminator(stem)
    requires pathname == "/" + stem + "." + ext
    ensures Edge(pathname, cookie) == Next
  {
    var rest := pathname[1..];
    assert rest == stem + "." + ext;
    assert rest[|stem|] == '.' && rest[..|stem|] == stem && rest[|stem| + 1..] == ext;
  }
}

=== FILE: phone_codes.dfy ===
/**
 Phone verification: `POST /api/auth/send-code` (issue a six-digit code,
 at most one per phone and minute) and `POST /api/auth/verify-code` (check
 it, with its own per-phone lockout map). Both share the per-IP `sms-code`
 rate-limit bucket. `Math.random()` is the real `r`, the reCAPTCHA
 provider's answer is a parameter, and no SMS is sent.
 */
module PhoneCodes {
  import opened Text
  import opened Db
  import RateLimit
  import Collections
  import opened Validation

  const CodeLifetimeMs: nat := 10 * 60 * 1000
  const ResendCooldownMs: nat := 60 * 1000

  // ---- generateCode -----------------------------------------------------------

  /** `Math.floor(100000 + Math.random() * 900000)` with `Math.random()` = `r` (exact arithmetic). */
  function CodeNumber(r: real): (n: int)
    requires 0.0 <= r < 1.0
    ensures 100000 <= n <= 999999
  {
    (100000.0 + r * 900000.0).Floor
  }

  /** `generateCode()`: the number rendered in decimal. */
  function GenerateCode(r: real): (code: string)
    requires 0.0 <= r < 1.0
    ensures IsSixDigitCode(code)
    ensures code[0] != '0'
  {
    var n := CodeNumber(r);
    assert Pow10(5) == 100000 && Pow10(6) == 1000000 by {
      assert Pow10(1) == 10 && Pow10(2) == 100 && Pow10(3) == 1000 && Pow10(4) == 10000;
    }
    DecimalStringLength(n, 6);
    DecimalString(n)
  }

  // ---- verifyCaptcha ----------------------------------------------------------

  /** The server configuration the captcha check reads. */
  datatype CaptchaConfig = CaptchaConfig(secretKey: Option<string>, production: bool)

  /** What the provider call produced: a parsed reply with its `success` field, or an error. */
  datatype ProviderReply = Answered(success: Option<bool>) | ProviderError

  /** `verifyCaptcha(token)`. */
  function VerifyCaptcha(cfg: CaptchaConfig, reply: ProviderReply): (ok: bool)
    ensures !Present(cfg.secretKey) ==> (ok <==> !cfg.production)
    ensures Present(cfg.secretKey) ==> (ok <==> reply == Answered(Some(true)))
  {
    if !Present(cfg.secretKey) then !cfg.production
    else reply.Answered? && reply.success == Some(true)
  }

  // ---- POST /api/auth/send-code -------------------------------------------------

  datatype SendRequest = SendRequest(phone: Option<string>, captchaToken: Option<string>)

  /** The success reply has no field for the code: the code never leaves the server. */
  datatype SendOutcome =
    | SendRateLimited(retryAfter: int)
    | SendPhoneMissing
    | SendBadPhone
    | SendCaptchaMissing
    | SendCaptchaFailed
    | SendTooSoon
    | CodeSent

  function SendStatus(o: SendOutcome): nat {
    match o
    case SendRateLimited(_) => 429
    case SendTooSoon => 429
    case CodeSent => 200
    case _ => 400
  }

  function SmsRate(st: State, h: RateLimit.Headers, now: int): (RateLimit.Verdict, RateLimit.Store) {
    RateLimit.Limit(RateLimit.SmsCodeLimiter, st.rate, h, now)
  }

  /** A code for `phone` was created within the last minute. */
  predicate RecentCode(codes: seq<Code>, phone: string, now: int) {
    exists i | 0 <= i < |codes| :: codes[i].phone == phone && codes[i].createdAt >= now - ResendCooldownMs
  }

  predicate OtherPhone(phone: string, c: Code) { c.phone != phone }

  /** The request passes every check before the store is touched. */
  predicate SendAccepted(st: State, h: RateLimit.Headers, req: SendRequest, cfg: CaptchaConfig,
                         reply: ProviderReply, now: int) {
    && SmsRate(st, h, now).0.allowed && Present(req.phone) && IsSpanishPhone(CleanPhone(req.phone.value))
    && Present(req.captchaToken) && VerifyCaptcha(cfg, reply)
  }

  function SendCode(st: State, h: RateLimit.Headers, req: SendRequest, cfg: CaptchaConfig,
                    reply: ProviderReply, r: real, now: int): (res: (SendOutcome, State))
    requires 0.0 <= r < 1.0
    ensures !SmsRate(st, h, now).0.allowed ==> res == (SendRateLimited(SmsRate(st, h, now).0.retryAfter.value), st)
    ensures res.1.rate == SmsRate(st, h, now).1
    ensures res.1.logins == st.logins && res.1.phoneLocks == st.phoneLocks
    ensures res.1.db.users == st.db.users && res.1.db.sessions == st.db.sessions
    ensures res.1.db.bookings == st.db.bookings && res.1.db.contacts == st.db.contacts
    // Every refusal leaves the codes alone.
    ensures !res.0.CodeSent? ==> res.1.db == st.db
    // The checks, in the order the handler makes them.
    ensures SmsRate(st, h, now).0.allowed && !Present(req.phone) ==> res.0 == SendPhoneMissing
    ensures SmsRate(st, h, now).0.allowed && Present(req.phone) && !IsSpanishPhone(CleanPhone(req.phone.value)) ==>
              res.0 == SendBadPhone
    ensures SmsRate(st, h, now).0.allowed && Present(req.phone) && IsSpanishPhone(CleanPhone(req.phone.value))
            && !Present(req.captchaToken) ==>
              res.0 == SendCaptchaMissing
    ensures SmsRate(st, h, now).0.allowed && Present(req.phone) && IsSpanishPhone(CleanPhone(req.phone.value))
            && Present(req.captchaToken) && !VerifyCaptcha(cfg, reply) ==>
              res.0 == SendCaptchaFailed
    ensures SendAccepted(st, h, req, cfg, reply, now) ==>
              (res.0 == SendTooSoon <==> RecentCode(st.db.codes, CleanPhone(req.phone.value), now))
    // A success replaces all of the phone's codes by one fresh, unverified code.
    ensures res.0.CodeSent? <==> SendAccepted(st, h, req, cfg, reply, now)
                                 && !RecentCode(st.db.codes, CleanPhone(req.phone.value), now)
    ensures res.0.CodeSent? ==>
              var phone := CleanPhone(req.phone.value);
              res.1.db.codes == Collections.Filter(st.db.codes, (c: Code) => OtherPhone(phone, c))
                                + [Code(phone, GenerateCode(r), false, now + CodeLifetimeMs, now)]
  {
    var (verdict, rate') := SmsRate(st, h, now);
    if !verdict.allowed then (SendRateLimited(verdict.retryAfter.value), st)
    else
      var st1 := st.(rate := rate');
      if !Present(req.phone) then (SendPhoneMissing, st1)
      else
        var phone := CleanPhone(req.phone.value);
        if !IsSpanishPhone(phone) then (SendBadPhone, st1)
        else if !Present(req.captchaToken) then (SendCaptchaMissing, st1)
        else if !VerifyCaptcha(cfg, reply) then (SendCaptchaFailed, st1)
        else if RecentCode(st.db.codes, phone, now) then (SendTooSoon, st1)
        else
          var kept := Collections.Filter(st.db.codes, (c: Code) => OtherPhone(phone, c));
          var issued := Code(phone, GenerateCode(r), false, now + CodeLifetimeMs, now);
          (CodeSent, st1.(db := st1.db.(codes := kept + [issued])))
  }

  /** No phone ever has two stored codes. */
  predicate OneCodePerPhone(codes: seq<Code>) {
    forall i, j | 0 <= i < j < |codes| :: codes[i].phone != codes[j].phone
  }

  /** Sending keeps at most one code per phone, and afterwards the phone's code is the new one. */
  lemma SendKeepsOneCodePerPhone(st: State, h: RateLimit.Headers, req: SendRequest, cfg: CaptchaConfig,
                                 reply: ProviderReply, r: real, now: int)
    requires 0.0 <= r < 1.0 && OneCodePerPhone(st.db.codes)
    ensures OneCodePerPhone(SendCode(st, h, req, cfg, reply, r, now).1.db.codes)
  {
    var (o, st') := SendCode(st, h, req, cfg, reply, r, now);
    if o.CodeSent? {
      var phone := CleanPhone(req.phone.value);
      var kept := Collections.Filter(st.db.codes, (c: Code) => OtherPhone(phone, c));
      FilterKeepsOnePerPhone(st.db.codes, phone);
      var all := kept + [Code(phone, GenerateCode(r), false, now + CodeLifetimeMs, now)];
      forall i, j | 0 <= i < j < |all| ensures all[i].phone != all[j].phone {
        if j == |kept| {
          assert all[i] == kept[i] && kept[i] in kept;
        } else {
          assert all[i] == kept[i] && all[j] == kept[j];
        }
      }
    }
  }

  lemma {:induction false} FilterKeepsOnePerPhone(codes: seq<Code>, phone: string)
    requires OneCodePerPhone(codes)
    ensures OneCodePerPhone(Collections.Filter(codes, (c: Code) => OtherPhone(phone, c)))
    decreases |codes|
  {
    if codes != [] {
      var f := (c: Code) => OtherPhone(phone, c);
      var rest := Collections.Filter(codes[1..], f);
      assert OneCodePerPhone(codes[1..]) by {
        forall i, j | 0 <= i < j < |codes[1..]| ensures codes[1..][i].phone != codes[1..][j].phone {
          assert codes[1..][i] == codes[i + 1] && codes[1..][j] == codes[j + 1];
        }
      }
      FilterKeepsOnePerPhone(codes[1..], phone);
      if f(codes[0]) {
        var all := [codes[0]] + rest;
        forall i, j | 0 <= i < j < |all| ensures all[i].phone != all[j].phone {
          if i == 0 {
            assert all[j] == rest[j - 1] && rest[j - 1] in rest;
            var k :| 0 <= k < |codes[1..]| && codes[1..][k] == rest[j - 1];
            assert codes[k + 1] == rest[j - 1];
          } else {
            assert all[i] == rest[i - 1] && all[j] == rest[j - 1];
          }
        }
      }
    }
  }

  // ---- POST /api/auth/verify-code -----------------------------------------------

  datatype VerifyRequest = VerifyRequest(phone: Option<string>, code: Option<string>)

  datatype VerifyOutcome =
    | VerifyRateLimited(retryAfter: int)
    | VerifyMissing
    | VerifyBadPhone
    | VerifyBadCode
    | VerifyLocked(minutes: int)
    | VerifyWrongCode(attemptsRemaining: int)
    | VerifyTooManyFailures
    | VerifyExpired
    | Verified

  function VerifyStatus(o: VerifyOutcome): nat {
    match o
    case VerifyRateLimited(_) => 429
    case VerifyLocked(_) => 429
    case VerifyTooManyFailures => 429
    case Verified => 200
    case _ => 400
  }

  /** `findFirst({ where: { phone, code, verified: false } })`. */
  predicate Pending(phone: string, code: string, c: Code) {
    c.phone == phone && c.code == code && !c.verified
  }

  function FindPending(codes: seq<Code>, phone: string, code: string): (r: Option<nat>)
    ensures r.Some? ==> r.value < |codes| && Pending(phone, code, codes[r.value])
    ensures r.Some? ==> forall i | 0 <= i < r.value :: !Pending(phone, code, codes[i])
    ensures r.None? <==> forall i | 0 <= i < |codes| :: !Pending(phone, code, codes[i])
  {
    Collections.FirstWhere(codes, (c: Code) => Pending(phone, code, c))
  }

  /** The request passes the format checks and the lockout check. */
  predicate VerifyChecked(st: State, h: RateLimit.Headers, req: VerifyRequest, now: int) {
    && SmsRate(st, h, now).0.allowed && Present(req.phone) && Present(req.code)
    && IsSpanishPhone(CleanPhone(req.phone.value)) && IsSixDigitCode(req.code.value)
    && !RateLimit.IsLocked(st.phoneLocks, CleanPhone(req.phone.value), now)
  }

  function VerifyCode(st: State, h: RateLimit.Headers, req: VerifyRequest, now: int): (res: (VerifyOutcome, State))
    ensures !SmsRate(st, h, now).0.allowed ==> res == (VerifyRateLimited(SmsRate(st, h, now).0.retryAfter.value), st)
    ensures res.1.rate == SmsRate(st, h, now).1
    ensures res.1.logins == st.logins
    ensures res.1.db.users == st.db.users && res.1.db.sessions == st.db.sessions
    ensures res.1.db.bookings == st.db.bookings && res.1.db.contacts == st.db.contacts
    // Format errors and an active lock change neither the counter nor the codes.
    ensures SmsRate(st, h, now).0.allowed && !VerifyChecked(st, h, req, now) ==>
              res.1.phoneLocks == st.phoneLocks && res.1.db == st.db
    // Each format error has its own 400 answer, checked in this order.
    ensures SmsRate(st, h, now).0.allowed && !(Present(req.phone) && Present(req.code)) ==>
              res.0 == VerifyMissing
    ensures SmsRate(st, h, now).0.allowed && Present(req.phone) && Present(req.code)
            && !IsSpanishPhone(CleanPhone(req.phone.value)) ==>
              res.0 == VerifyBadPhone
    ensures SmsRate(st, h, now).0.allowed && Present(req.phone) && Present(req.code)
            && IsSpanishPhone(CleanPhone(req.phone.value)) && !IsSixDigitCode(req.code.value) ==>
              res.0 == VerifyBadCode
    // Only a live, unverified code for that phone and value is ever accepted.
    ensures res.0 == Verified <==>
              && VerifyChecked(st, h, req, now)
              && FindPending(st.db.codes, CleanPhone(req.phone.value), req.code.value).Some?
              && now <= st.db.codes[FindPending(st.db.codes, CleanPhone(req.phone.value), req.code.value).value].expiresAt
    ensures SmsRate(st, h, now).0.allowed && Present(req.phone) && Present(req.code)
            && IsSpanishPhone(CleanPhone(req.phone.value)) && IsSixDigitCode(req.code.value)
            && RateLimit.IsLocked(st.phoneLocks, CleanPhone(req.phone.value), now) ==>
              res.0 == VerifyLocked(RateLimit.MinutesLeft(st.phoneLocks, CleanPhone(req.phone.value), now))
    // No pending code matches: one more failure, locking on the fifth.
    ensures VerifyChecked(st, h, req, now)
            && FindPending(st.db.codes, CleanPhone(req.phone.value), req.code.value).None? ==>
              var f := RateLimit.RecordFailure(st.phoneLocks, CleanPhone(req.phone.value), now);
              && res.1.phoneLocks == f.1 && res.1.db == st.db
              && (f.0.locked ==> res.0 == VerifyTooManyFailures)
              && (!f.0.locked ==> res.0 == VerifyWrongCode(f.0.attemptsRemaining.value))
    // A matching code that has expired is deleted; the counter is neither raised nor cleared.
    ensures VerifyChecked(st, h, req, now)
            && FindPending(st.db.codes, CleanPhone(req.phone.value), req.code.value).Some? ==>
              var i := FindPending(st.db.codes, CleanPhone(req.phone.value), req.code.value).value;
              && (now > st.db.codes[i].expiresAt ==>
                    res.0 == VerifyExpired && res.1.phoneLocks == st.phoneLocks
                    && res.1.db.codes == Collections.RemoveAt(st.db.codes, i))
              // A live match clears the phone's counter and marks exactly that code verified.
              && (now <= st.db.codes[i].expiresAt ==>
                    res.0 == Verified && res.1.phoneLocks == st.phoneLocks - {CleanPhone(req.phone.value)}
                    && res.1.db.codes == st.db.codes[i := st.db.codes[i].(verified := true)])
  {
    var (verdict, rate') := SmsRate(st, h, now);
    if !verdict.allowed then (VerifyRateLimited(verdict.retryAfter.value), st)
    else
      var st1 := st.(rate := rate');
      if !Present(req.phone) || !Present(req.code) then (VerifyMissing, st1)
      else
        var phone := CleanPhone(req.phone.value);
        var code := req.code.value;
        if !IsSpanishPhone(phone) then (VerifyBadPhone, st1)
        else if !IsSixDigitCode(code) then (VerifyBadCode, st1)
        else if RateLimit.IsLocked(st.phoneLocks, phone, now) then
          (VerifyLocked(RateLimit.MinutesLeft(st.phoneLocks, phone, now)), st1)
        else
          var found := FindPending(st.db.codes, phone, code);
          if found.None? then
            var (f, locks') := RateLimit.RecordFailure(st.phoneLocks, phone, now);
            if f.locked then (VerifyTooManyFailures, st1.(phoneLocks := locks'))
            else (VerifyWrongCode(f.attemptsRemaining.value), st1.(phoneLocks := locks'))
          else
            var i := found.value;
            if now > st.db.codes[i].expiresAt then
              (VerifyExpired, st1.(db := st1.db.(codes := Collections.RemoveAt(st.db.codes, i))))
            else
              var codes' := st.db.codes[i := st.db.codes[i].(verified := true)];
              (Verified, st1.(phoneLocks := st.phoneLocks - {phone}, db := st1.db.(codes := codes')))
  }

  /** Round trip: a code just sent verifies when submitted for the same phone before it expires
      (provided the shared rate-limit bucket and the phone's lockout let the request through). */
  lemma SendThenVerify(st: State, h: RateLimit.Headers, req: SendRequest, cfg: CaptchaConfig,
                       reply: ProviderReply, r: real, now: int, h2: RateLimit.Headers, later: int)
    requires 0.0 <= r < 1.0
    requires SendCode(st, h, req, cfg, reply, r, now).0.CodeSent?
    requires now <= later <= now + CodeLifetimeMs
    requires var st' := SendCode(st, h, req, cfg, reply, r, now).1;
             SmsRate(st', h2, later).0.allowed
             && !RateLimit.IsLocked(st'.phoneLocks, CleanPhone(req.phone.value), later)
    ensures var st' := SendCode(st, h, req, cfg, reply, r, now).1;
            VerifyCode(st', h2, VerifyRequest(Some(CleanPhone(req.phone.value)), Some(GenerateCode(r))), later).0 == Verified
  {
    var st' := SendCode(st, h, req, cfg, reply, r, now).1;
    var phone := CleanPhone(req.phone.value);
    var code := GenerateCode(r);
    var kept := Collections.Filter(st.db.codes, (c: Code) => OtherPhone(phone, c));
    assert st'.db.codes == kept + [Code(phone, code, false, now + CodeLifetimeMs, now)];
    assert !HasSpace(phone);
    CleanPhoneNoop(phone);
    FreshCodeIsFound(st.db.codes, phone, code, now + CodeLifetimeMs, now);
  }

  /** After a phone's codes are replaced by a fresh one, looking up that phone and code
      finds the fresh one, at the end. */
  lemma FreshCodeIsFound(codes: seq<Code>, phone: string, code: string, expiresAt: int, createdAt: int)
    ensures var kept := Collections.Filter(codes, (c: Code) => OtherPhone(phone, c));
            FindPending(kept + [Code(phone, code, false, expiresAt, createdAt)], phone, code) == Some(|kept|)
  {
    var kept := Collections.Filter(codes, (c: Code) => OtherPhone(phone, c));
    var all := kept + [Code(phone, code, false, expiresAt, createdAt)];
    forall k | 0 <= k < |kept| ensures !Pending(phone, code, all[k]) {
      assert all[k] == kept[k] && kept[k] in kept;
    }
    assert Pending(phone, code, all[|kept|]);
  }

  lemma CleanPhoneNoop(phone: string)
    requires !HasSpace(phone)
    ensures CleanPhone(phone) == phone
  {
  }

  /** A verified code never matches again: with one code per phone, re-submitting the code
      that was just verified counts as a failure. */
  lemma VerifiedCodeCannotRematch(st: State, h: RateLimit.Headers, req: VerifyRequest, now: int,
                                  h2: RateLimit.Headers, later: int)
    requires OneCodePerPhone(st.db.codes)
    requires VerifyCode(st, h, req, now).0 == Verified
    requires var st' := VerifyCode(st, h, req, now).1; VerifyChecked(st', h2, req, later)
    ensures var st' := VerifyCode(st, h, req, now).1;
            VerifyCode(st', h2, req, later).0.VerifyWrongCode? || VerifyCode(st', h2, req, later).0 == VerifyTooManyFailures
  {
    var st' := VerifyCode(st, h, req, now).1;
    var phone := CleanPhone(req.phone.value);
    var i := FindPending(st.db.codes, phone, req.code.value).value;
    forall k | 0 <= k < |st'.db.codes| ensures !Pending(phone, req.code.value, st'.db.codes[k]) {
      if k != i {
        assert st.db.codes[k].phone != st.db.codes[i].phone by {
          if k < i { } else { }
        }
      }
    }
  }
}

=== FILE: price_calculator.dfy ===
/**
 components/PriceCalculator.tsx: the public price estimate. A selection of
 vehicles, driveway square metres and windows is priced item by item, unless
 the pack tab is open with a pack chosen, in which case the pack's fixed price
 is the whole total. Every count is edited through a `NumberInput`, whose
 buttons step the value and clamp it to the input's bounds.
 */
module PriceCalculator {

  // ---- the `prices` table (euros) ---------------------------------------------

  const SmallCar: nat := 25
  const LargeCar: nat := 45
  const Moto: nat := 10
  const Van: nat := 40
  const DrivewaySqm: nat := 5
  const DrivewayMin: nat := 60
  const StandardWindow: nat := 8
  const LargeWindow: nat := 15
  const Balconera: nat := 12
  const Persiana: nat := 5
  const PackBasic: nat := 220
  const PackFamily: nat := 320
  const PackPremium: nat := 450

  datatype Pack = NoPack | Basic | Family | Premium

  datatype Tab = Individual | PackTab

  /** `ServiceSelection`; every count is a value a `NumberInput` produced (see `Press`). */
  datatype Selection = Selection(
    smallCars: nat,
    largeCars: nat,
    motos: nat,
    vans: nat,
    drivewaySqm: nat,
    standardWindows: nat,
    largeWindows: nat,
    balconeras: nat,
    includePersianas: bool,
    includePack: Pack)

  const InitialSelection := Selection(0, 0, 0, 0, 0, 0, 0, 0, false, NoPack)

  function Max(a: int, b: int): int { if a >= b then a else b }
  function Min(a: int, b: int): int { if a <= b then a else b }

  /** The fixed price of a pack; the source's `default: return 0` for `none` is never
      reached, because `calculateTotal` tests for `none` first. */
  function PackPrice(p: Pack): nat {
    match p
    case NoPack => 0
    case Basic => PackBasic
    case Family => PackFamily
    case Premium => PackPremium
  }

  /** A driveway costs nothing when no square metre is chosen, and otherwise 5 per square
      metre with a minimum order of 60. */
  function DrivewayCost(sqm: nat): (c: nat)
    ensures sqm == 0 ==> c == 0
    ensures sqm > 0 ==> c >= DrivewayMin && c >= DrivewaySqm * sqm
    ensures sqm > 0 && DrivewaySqm * sqm >= DrivewayMin ==> c == DrivewaySqm * sqm
    ensures 0 < sqm && DrivewaySqm * sqm < DrivewayMin ==> c == DrivewayMin
  {
    if sqm > 0 then Max(sqm * DrivewaySqm, DrivewayMin) else 0
  }

  function WindowCount(s: Selection): nat {
    s.standardWindows + s.largeWindows + s.balconeras
  }

  /** The item-by-item total of `calculateTotal`, accumulated in the source's order. */
  function IndividualTotal(s: Selection): nat {
    var total := 0;
    var total := total + s.smallCars * SmallCar;
    var total := total + s.largeCars * LargeCar;
    var total := total + s.motos * Moto;
    var total := total + s.vans * Van;
    var total := total + DrivewayCost(s.drivewaySqm);
    var windowCount := WindowCount(s);
    var total := total + s.standardWindows * StandardWindow;
    var total := total + s.largeWindows * LargeWindow;
    var total := total + s.balconeras * Balconera;
    if s.includePersianas && windowCount > 0 then total + windowCount * Persiana else total
  }

  /** `calculateTotal`: on the pack tab with a pack chosen, that pack's price and nothing
      else; otherwise the item-by-item total. */
  function CalculateTotal(tab: Tab, s: Selection): (total: nat)
    ensures tab == PackTab && s.includePack != NoPack ==>
              total == PackPrice(s.includePack) && total in {PackBasic, PackFamily, PackPremium}
    ensures !(tab == PackTab && s.includePack != NoPack) ==> total == IndividualTotal(s)
  {
    if tab == PackTab && s.includePack != NoPack then PackPrice(s.includePack)
    else IndividualTotal(s)
  }

  /** With a pack chosen on the pack tab, no other selection changes the total. */
  lemma PackIgnoresSelection(s: Selection, t: Selection)
    requires s.includePack != NoPack && s.includePack == t.includePack
    ensures CalculateTotal(PackTab, s) == CalculateTotal(PackTab, t)
  {
  }

  /** The item-by-item total as an independent sum of per-item prices: each vehicle and
      each window at its own price, the driveway, and 5 per window for blinds. */
  lemma IndividualTotalIsSum(s: Selection)
    ensures IndividualTotal(s)
            == 25 * s.smallCars + 45 * s.largeCars + 10 * s.motos + 40 * s.vans
               + DrivewayCost(s.drivewaySqm)
               + 8 * s.standardWindows + 15 * s.largeWindows + 12 * s.balconeras
               + (if s.includePersianas then 5 * (s.standardWindows + s.largeWindows + s.balconeras) else 0)
  {
  }

  /** One more vehicle of each kind adds exactly its price. */
  lemma VehiclesAreLinear(s: Selection)
    ensures IndividualTotal(s.(smallCars := s.smallCars + 1)) == IndividualTotal(s) + SmallCar
    ensures IndividualTotal(s.(largeCars := s.largeCars + 1)) == IndividualTotal(s) + LargeCar
    ensures IndividualTotal(s.(motos := s.motos + 1)) == IndividualTotal(s) + Moto
    ensures IndividualTotal(s.(vans := s.vans + 1)) == IndividualTotal(s) + Van
  {
  }

  /** One more window adds its price, plus 5 for its blind when blinds are included. */
  lemma WindowsAddBlinds(s: Selection)
    ensures var blind := if s.includePersianas then Persiana else 0;
            && IndividualTotal(s.(standardWindows := s.standardWindows + 1)) == IndividualTotal(s) + StandardWindow + blind
            && IndividualTotal(s.(largeWindows := s.largeWindows + 1)) == IndividualTotal(s) + LargeWindow + blind
            && IndividualTotal(s.(balconeras := s.balconeras + 1)) == IndividualTotal(s) + Balconera + blind
  {
    IndividualTotalIsSum(s);
    IndividualTotalIsSum(s.(standardWindows := s.standardWindows + 1));
    IndividualTotalIsSum(s.(largeWindows := s.largeWindows + 1));
    IndividualTotalIsSum(s.(balconeras := s.balconeras + 1));
  }

  /** Every count of `t` is at least that of `s`, and `t` includes blinds when `s` does. */
  predicate Dominates(t: Selection, s: Selection) {
    && s.smallCars <= t.smallCars && s.largeCars <= t.largeCars
    && s.motos <= t.motos && s.vans <= t.vans
    && s.drivewaySqm <= t.drivewaySqm
    && s.standardWindows <= t.standardWindows && s.largeWindows <= t.largeWindows
    && s.balconeras <= t.balconeras
    && (s.includePersianas ==> t.includePersianas)
  }

  lemma DrivewayMonotone(a: nat, b: nat)
    requires a <= b
    ensures DrivewayCost(a) <= DrivewayCost(b)
  {
  }

  /** Choosing more of anything never lowers the item-by-item total. */
  lemma IndividualTotalMonotone(s: Selection, t: Selection)
    requires Dominates(t, s)
    ensures IndividualTotal(s) <= IndividualTotal(t)
  {
    IndividualTotalIsSum(s);
    IndividualTotalIsSum(t);
    DrivewayMonotone(s.drivewaySqm, t.drivewaySqm);
  }

  // ---- NumberInput ------------------------------------------------------------

  /** The bounds and step of one `NumberInput`. */
  datatype NumberField = NumberField(min: int, max: int, step: int)

  /** The defaults `min = 0`, `max = 100`, `step = 1`. */
  const DefaultField := NumberField(0, 100, 1)

  /** The driveway input: `max={500}`, `step={5}`. */
  const DrivewayField := NumberField(0, 500, 5)

  datatype Button = Minus | Plus

  predicate InRange(f: NumberField, v: int) { f.min <= v <= f.max }

  /** One click. `-` is disabled at or below `min` and otherwise goes to
      `max(min, value - step)`; `+` goes to `min(max, value + step)`. */
  function Press(f: NumberField, v: int, b: Button): (r: int)
    ensures f.step >= 0 && InRange(f, v) ==> InRange(f, r)
    ensures f.step >= 0 && b == Minus ==> r <= v && (v > f.min && v - f.step >= f.min ==> r == v - f.step)
    ensures f.step >= 0 && b == Plus && v <= f.max ==> v <= r && (v + f.step <= f.max ==> r == v + f.step)
  {
    match b
    case Minus => if v <= f.min then v else Max(f.min, v - f.step)
    case Plus => Min(f.max, v + f.step)
  }

  /** A sequence of clicks. */
  function Presses(f: NumberField, v: int, bs: seq<Button>): int
    decreases |bs|
  {
    if bs == [] then v else Presses(f, Press(f, v, bs[0]), bs[1..])
  }

  /** From a value within bounds, no sequence of clicks leaves them. */
  lemma {:induction false} PressesStayInRange(f: NumberField, v: int, bs: seq<Button>)
    requires f.step >= 0 && InRange(f, v)
    ensures InRange(f, Presses(f, v, bs))
    decreases |bs|
  {
    if bs != [] {
      PressesStayInRange(f, Press(f, v, bs[0]), bs[1..]);
    }
  }

  /** From the initial 0, the driveway input only ever holds multiples of 5 between 0 and
      500: so the minimum-order surcharge applies to exactly 5 and 10 square metres. */
  lemma {:induction false} DrivewayValues(v: int, bs: seq<Button>)
    requires InRange(DrivewayField, v) && v % 5 == 0
    ensures var r := Presses(DrivewayField, v, bs);
            InRange(DrivewayField, r) && r % 5 == 0
    decreases |bs|
  {
    if bs != [] {
      DrivewayValues(Press(DrivewayField, v, bs[0]), bs[1..]);
    }
  }

  /** Among reachable driveway values, the minimum order binds exactly at 5 and 10. */
  lemma DrivewaySurcharge(sqm: nat)
    requires sqm % 5 == 0
    ensures 0 < sqm && DrivewaySqm * sqm < DrivewayMin <==> sqm == 5 || sqm == 10
  {
  }
}

=== FILE: profile.dfy ===
/**
 `GET /api/admin/profile` (the signed-in user's own profile) and
 `PATCH /api/admin/profile` (changing one's name, email or password).
 The PATCH handler first decides the whole update set, rejecting on the first
 failed check, and only then writes once; `PlanUpdate` is that decision.
 `passwordMatches(plain, hash)` stands for bcrypt's comparison and `newHash`
 for the hash of the new password.
 */
module Profile {
  import opened Text
  import opened Auth
  import opened Db
  import opened Validation
  import Sessions

  // ---- GET -------------------------------------------------------------------

  datatype ProfileView = ProfileView(id: UserId, name: string, email: string, role: Role)

  datatype ProfileReply = ProfileShown(user: ProfileView) | ProfileRefused(status: nat, message: string)

  /** The verified user's id, name, email and role, or the verification error. */
  function GetProfile(db: Db, cookie: Option<string>, now: int): (res: (ProfileReply, Db))
    ensures res.1 == Sessions.VerifySession(db, cookie, now).1
    ensures res.0.ProfileShown? <==> Sessions.VerifySession(db, cookie, now).0.Authenticated?
    ensures res.0.ProfileShown? ==>
              var s := db.sessions[cookie.value];
              && res.0.user.id == s.userId && s.userId < |db.users|
              && res.0.user.name == db.users[s.userId].name && res.0.user.email == db.users[s.userId].email
              && res.0.user.role == db.users[s.userId].role
    ensures res.0.ProfileRefused? ==> res.0.status in {401, 500}
  {
    var (g, db') := Sessions.RequireAuth(db, cookie, now);
    if g.Refused? then (ProfileRefused(g.status, g.message), db')
    else (ProfileShown(ProfileView(g.user.id, g.user.name, g.user.email, g.user.role)), db')
  }

  // ---- PATCH -----------------------------------------------------------------

  datatype ProfileRequest = ProfileRequest(
    name: Option<string>,
    email: Option<string>,
    currentPassword: Option<string>,
    newPassword: Option<string>)

  datatype ProfileRejection =
    | ProfileNameTooLong
    | ProfileBadEmail
    | EmailInUse
    | CurrentPasswordMissing
    | CurrentPasswordWrong
    | ProfileWeakPassword(message: string)

  /** The update set: only ever a name, an email and a password hash. */
  datatype Changes = Changes(name: Option<string>, email: Option<string>, passwordHash: Option<string>)

  const NoChange: Changes := Changes(None, None, None)

  datatype Plan = PlanRejected(reason: ProfileRejection) | PlanChanges(changes: Changes)

  /** A name is requested when it is sent and differs from the stored one. */
  predicate WantsName(u: User, req: ProfileRequest) {
    Present(req.name) && req.name.value != u.name
  }

  /** An email is requested when it is sent and differs, as typed, from the stored one. */
  predicate WantsEmail(u: User, req: ProfileRequest) {
    Present(req.email) && req.email.value != u.email
  }

  predicate WantsPassword(req: ProfileRequest) {
    Present(req.newPassword)
  }

  /** The lower-cased address belongs to a different account. */
  predicate TakenByOther(users: seq<User>, id: UserId, email: string) {
    var found := FindUserByEmail(users, ToLower(email));
    found.Some? && found.value != id
  }

  predicate NameOk(u: User, req: ProfileRequest) {
    WantsName(u, req) ==> |req.name.value| <= NameCap
  }

  predicate EmailOk(users: seq<User>, id: UserId, req: ProfileRequest)
    requires id < |users|
  {
    WantsEmail(users[id], req) ==> IsEmail(req.email.value) && !TakenByOther(users, id, req.email.value)
  }

  predicate PasswordOk(u: User, req: ProfileRequest, passwordMatches: (string, string) -> bool) {
    WantsPassword(req) ==>
      && Present(req.currentPassword) && passwordMatches(req.currentPassword.value, u.passwordHash)
      && ValidatePassword(req.newPassword.value).isValid
  }

  /** The checks in the handler's order, each rejecting on its own, and otherwise the
      update set: exactly the requested fields, in their stored form. */
  function PlanUpdate(users: seq<User>, id: UserId, req: ProfileRequest,
                      passwordMatches: (string, string) -> bool, newHash: string): (p: Plan)
    requires id < |users|
    ensures p == PlanRejected(ProfileNameTooLong) <==> !NameOk(users[id], req)
    ensures p == PlanRejected(ProfileBadEmail) <==>
              NameOk(users[id], req) && WantsEmail(users[id], req) && !IsEmail(req.email.value)
    ensures p == PlanRejected(EmailInUse) <==>
              && NameOk(users[id], req) && WantsEmail(users[id], req) && IsEmail(req.email.value)
              && TakenByOther(users, id, req.email.value)
    ensures p == PlanRejected(CurrentPasswordMissing) <==>
              NameOk(users[id], req) && EmailOk(users, id, req) && WantsPassword(req) && !Present(req.currentPassword)
    ensures p == PlanRejected(CurrentPasswordWrong) <==>
              && NameOk(users[id], req) && EmailOk(users, id, req) && WantsPassword(req) && Present(req.currentPassword)
              && !passwordMatches(req.currentPassword.value, users[id].passwordHash)
    ensures (p.PlanRejected? && p.reason.ProfileWeakPassword?) <==>
              && NameOk(users[id], req) && EmailOk(users, id, req) && WantsPassword(req) && Present(req.currentPassword)
              && passwordMatches(req.currentPassword.value, users[id].passwordHash)
              && !ValidatePassword(req.newPassword.value).isValid
    ensures p.PlanRejected? && p.reason.ProfileWeakPassword? ==>
              p.reason.message == Join(ValidatePassword(req.newPassword.value).errors, " ")
    ensures p.PlanChanges? <==>
              NameOk(users[id], req) && EmailOk(users, id, req) && PasswordOk(users[id], req, passwordMatches)
    // The update set holds exactly the requested fields.
    ensures p.PlanChanges? ==>
              && (p.changes.name.Some? <==> WantsName(users[id], req))
              && (p.changes.email.Some? <==> WantsEmail(users[id], req))
              && (p.changes.passwordHash.Some? <==> WantsPassword(req))
              && (p.changes.passwordHash.Some? ==> p.changes.passwordHash.value == newHash)
  {
    var u := users[id];
    if WantsName(u, req) && |req.name.value| > NameCap then PlanRejected(ProfileNameTooLong)
    else if WantsEmail(u, req) && !IsEmail(req.email.value) then PlanRejected(ProfileBadEmail)
    else if WantsEmail(u, req) && TakenByOther(users, id, req.email.value) then PlanRejected(EmailInUse)
    else if WantsPassword(req) && !Present(req.currentPassword) then PlanRejected(CurrentPasswordMissing)
    else if WantsPassword(req) && !passwordMatches(req.currentPassword.value, u.passwordHash) then
      PlanRejected(CurrentPasswordWrong)
    else if WantsPassword(req) && !ValidatePassword(req.newPassword.value).isValid then
      PlanRejected(ProfileWeakPassword(Join(ValidatePassword(req.newPassword.value).errors, " ")))
    else
      PlanChanges(Changes(
        if WantsName(u, req) then Some(Sanitize(req.name.value)) else None,
        if WantsEmail(u, req) then Some(Trim(ToLower(req.email.value))) else None,
        if WantsPassword(req) then Some(newHash) else None))
  }

  /** `user.update({ data })`: the listed fields change, the role and creation time never do. */
  function Apply(u: User, ch: Changes): (r: User)
    ensures r.role == u.role && r.createdAt == u.createdAt
    ensures r.name == (if ch.name.Some? then ch.name.value else u.name)
    ensures r.email == (if ch.email.Some? then ch.email.value else u.email)
    ensures r.passwordHash == (if ch.passwordHash.Some? then ch.passwordHash.value else u.passwordHash)
  {
    User(if ch.email.Some? then ch.email.value else u.email,
         if ch.passwordHash.Some? then ch.passwordHash.value else u.passwordHash,
         if ch.name.Some? then ch.name.value else u.name,
         u.role, u.createdAt)
  }

  datatype ProfileOutcome =
    | PatchRefused(status: nat, message: string)
    | PatchRejected(reason: ProfileRejection)
    | ProfileUpdated(user: ProfileView)
    | NoChanges

  function PatchStatus(o: ProfileOutcome): nat {
    match o
    case PatchRefused(status, _) => status
    case PatchRejected(_) => 400
    case ProfileUpdated(_) => 200
    case NoChanges => 200
  }

  const NoChangesMessage: string := "No hay cambios para guardar"

  /** Nothing is requested: no different name, no different email, no new password. */
  predicate NothingRequested(u: User, req: ProfileRequest) {
    !WantsName(u, req) && !WantsEmail(u, req) && !WantsPassword(req)
  }

  /** The session check, the plan, and at most one write of the one signed-in user.
      The user the guard verified is always stored, so the handler's 404 cannot occur. */
  function UpdateProfile(db: Db, cookie: Option<string>, now: int, req: ProfileRequest,
                         passwordMatches: (string, string) -> bool, newHash: string): (res: (ProfileOutcome, Db))
    ensures var g := Sessions.RequireAuth(db, cookie, now).0;
            && (g.Refused? ==> res == (PatchRefused(g.status, g.message), Sessions.VerifySession(db, cookie, now).1))
            && (g.Granted? ==> g.user.id < |db.users|)
    // Every rejection happens before the write: only an update changes the store.
    ensures !res.0.ProfileUpdated? ==> res.1 == Sessions.VerifySession(db, cookie, now).1
    ensures res.0.PatchRejected? <==>
              var g := Sessions.RequireAuth(db, cookie, now).0;
              g.Granted? && g.user.id < |db.users| && PlanUpdate(db.users, g.user.id, req, passwordMatches, newHash).PlanRejected?
    ensures res.0.PatchRejected? ==>
              var id := Sessions.RequireAuth(db, cookie, now).0.user.id;
              id < |db.users| && PlanUpdate(db.users, id, req, passwordMatches, newHash) == PlanRejected(res.0.reason)
    ensures res.0 == NoChanges <==>
              var g := Sessions.RequireAuth(db, cookie, now).0;
              g.Granted? && g.user.id < |db.users| && NothingRequested(db.users[g.user.id], req)
    ensures res.0.ProfileUpdated? <==>
              var g := Sessions.RequireAuth(db, cookie, now).0;
              && g.Granted? && g.user.id < |db.users|
              && PlanUpdate(db.users, g.user.id, req, passwordMatches, newHash).PlanChanges?
              && !NothingRequested(db.users[g.user.id], req)
    // An update writes exactly the planned fields of the signed-in user and nothing else.
    ensures res.0.ProfileUpdated? ==>
              var id := Sessions.RequireAuth(db, cookie, now).0.user.id;
              var p := PlanUpdate(db.users, id, req, passwordMatches, newHash);
              && id < |db.users| && p.PlanChanges? && p.changes != NoChange
              && res.1 == db.(users := db.users[id := Apply(db.users[id], p.changes)])
              && res.0.user == ProfileView(id, res.1.users[id].name, res.1.users[id].email, db.users[id].role)
  {
    var (g, db1) := Sessions.RequireAuth(db, cookie, now);
    if g.Refused? then (PatchRefused(g.status, g.message), db1)
    else
      var id := g.user.id;
      match PlanUpdate(db1.users, id, req, passwordMatches, newHash)
      case PlanRejected(reason) => (PatchRejected(reason), db1)
      case PlanChanges(ch) =>
        if ch == NoChange then (NoChanges, db1)
        else
          var u' := Apply(db1.users[id], ch);
          (ProfileUpdated(ProfileView(id, u'.name, u'.email, u'.role)), db1.(users := db1.users[id := u']))
  }

  /** A planned name is tag-free and within its cap, like a name given at sign-up. */
  lemma PlannedNameValid(users: seq<User>, id: UserId, req: ProfileRequest,
                         passwordMatches: (string, string) -> bool, newHash: string)
    requires id < |users|
    requires PlanUpdate(users, id, req, passwordMatches, newHash).PlanChanges?
    ensures var ch := PlanUpdate(users, id, req, passwordMatches, newHash).changes;
            ch.name.Some? ==> |ch.name.value| <= NameCap && NoTag(ch.name.value)
  {
  }

  /** An address no other account holds, once lower-cased, is held by no other account. */
  lemma NotTakenByOther(users: seq<User>, id: UserId, email: string)
    requires DistinctEmails(users) && !TakenByOther(users, id, email)
    ensures forall j | 0 <= j < |users| && j != id :: users[j].email != ToLower(email)
  {
  }

  /** A planned email comes from an accepted address. */
  lemma PlannedEmailAccepted(users: seq<User>, id: UserId, req: ProfileRequest,
                             passwordMatches: (string, string) -> bool, newHash: string)
    requires id < |users|
    requires PlanUpdate(users, id, req, passwordMatches, newHash).PlanChanges?
    ensures var ch := PlanUpdate(users, id, req, passwordMatches, newHash).changes;
            ch.email.Some? ==> && Present(req.email) && IsEmail(req.email.value)
                               && !TakenByOther(users, id, req.email.value)
                               && ch.email.value == Trim(ToLower(req.email.value))
  {
  }

  /** A planned email is the lower-cased address. */
  lemma PlannedEmailLower(users: seq<User>, id: UserId, req: ProfileRequest,
                          passwordMatches: (string, string) -> bool, newHash: string)
    requires id < |users|
    requires PlanUpdate(users, id, req, passwordMatches, newHash).PlanChanges?
    ensures var ch := PlanUpdate(users, id, req, passwordMatches, newHash).changes;
            ch.email.Some? ==> ch.email.value == ToLower(req.email.value)
  {
    var ch := PlanUpdate(users, id, req, passwordMatches, newHash).changes;
    PlannedEmailAccepted(users, id, req, passwordMatches, newHash);
    if ch.email.Some? {
      EmailLowerTrim(req.email.value);
    }
  }

  /** Under unique emails, no other account holds a planned email. */
  lemma PlannedEmailFree(users: seq<User>, id: UserId, req: ProfileRequest,
                         passwordMatches: (string, string) -> bool, newHash: string)
    requires id < |users| && DistinctEmails(users)
    requires PlanUpdate(users, id, req, passwordMatches, newHash).PlanChanges?
    ensures var ch := PlanUpdate(users, id, req, passwordMatches, newHash).changes;
            ch.email.Some? ==> forall j | 0 <= j < |users| && j != id :: users[j].email != ch.email.value
  {
    var ch := PlanUpdate(users, id, req, passwordMatches, newHash).changes;
    if ch.email.Some? {
      PlannedEmailLower(users, id, req, passwordMatches, newHash);
      NotTakenByOther(users, id, req.email.value);
    }
  }

  /** A profile update keeps the schema's guarantees, in particular the uniqueness of emails. */
  lemma UpdateProfileWellFormed(db: Db, cookie: Option<string>, now: int, req: ProfileRequest,
                                passwordMatches: (string, string) -> bool, newHash: string)
    requires WellFormed(db)
    ensures WellFormed(UpdateProfile(db, cookie, now, req, passwordMatches, newHash).1)
  {
    Sessions.VerifySessionWellFormed(db, cookie, now);
    var (o, db') := UpdateProfile(db, cookie, now, req, passwordMatches, newHash);
    if o.ProfileUpdated? {
      var id := Sessions.RequireAuth(db, cookie, now).0.user.id;
      var ch := PlanUpdate(db.users, id, req, passwordMatches, newHash).changes;
      PlannedEmailFree(db.users, id, req, passwordMatches, newHash);
      forall i, j | 0 <= i < j < |db'.users| ensures db'.users[i].email != db'.users[j].email {
        if i != id && j != id {
          assert db'.users[i] == db.users[i] && db'.users[j] == db.users[j];
        }
      }
    }
  }

  /** An update is what the profile then shows: reading the profile with the same session
      returns the user the update answered with, whose name and email are the planned ones
      where a change was planned and the old ones elsewhere. */
  lemma UpdateThenGet(db: Db, cookie: Option<string>, now: int, req: ProfileRequest,
                      passwordMatches: (string, string) -> bool, newHash: string)
    requires UpdateProfile(db, cookie, now, req, passwordMatches, newHash).0.ProfileUpdated?
    ensures var (o, db') := UpdateProfile(db, cookie, now, req, passwordMatches, newHash);
            var id := Sessions.RequireAuth(db, cookie, now).0.user.id;
            var ch := PlanUpdate(db.users, id, req, passwordMatches, newHash).changes;
            && GetProfile(db', cookie, now) == (ProfileShown(o.user), db')
            && o.user.name == (if ch.name.Some? then ch.name.value else db.users[id].name)
            && o.user.email == (if ch.email.Some? then ch.email.value else db.users[id].email)
  {
  }

  /** With nothing requested the answer is "no changes" and the store is left alone. */
  lemma EmptyPatchWritesNothing(db: Db, cookie: Option<string>, now: int,
                                passwordMatches: (string, string) -> bool, newHash: string)
    requires Sessions.RequireAuth(db, cookie, now).0.Granted?
    ensures var req := ProfileRequest(None, None, None, None);
            UpdateProfile(db, cookie, now, req, passwordMatches, newHash) == (NoChanges, db)
  {
  }
}

=== FILE: rate_limit.dfy ===
/**
 lib/rate-limit.ts: the fixed-window request limiter keyed by
 `endpoint:ip`, its periodic cleanup, and the per-email lockout tracker.
 Both stores are process-local maps; here they are values passed in and
 returned, and `now` is the clock reading in milliseconds.
 */
module RateLimit {
  import opened Text

  // ---- fixed-window limiter -------------------------------------------------

  datatype Entry = Entry(count: nat, resetTime: int)
  datatype Config = Config(windowMs: nat, maxRequests: nat)
  datatype Verdict = Verdict(allowed: bool, remaining: int, resetTime: int, retryAfter: Option<int>)

  type Store = map<string, Entry>

  /** `Math.ceil(a / b)` for a positive divisor (Dafny's `/` floors for a positive divisor). */
  function CeilDiv(a: int, b: nat): (q: int)
    requires b > 0
    ensures (q - 1) * b < a <= q * b
  {
    -((-a) / b)
  }

  /** The window of `key` is open at `now` when its entry exists and has not elapsed. */
  predicate InWindow(store: Store, key: string, now: int) {
    key in store && !(now > store[key].resetTime)
  }

  /** `checkRateLimit(key, config)`. Only `key`'s entry can change. */
  function CheckRateLimit(store: Store, key: string, cfg: Config, now: int): (res: (Verdict, Store))
    // A call touches its own key and nothing else.
    ensures forall k | k != key :: (k in res.1 <==> k in store) && (k in store ==> res.1[k] == store[k])
    // Absent or elapsed entry: a new window opens with this call counted.
    ensures !InWindow(store, key, now) ==>
              res.0.allowed && res.0.remaining == cfg.maxRequests - 1
              && res.1 == store[key := Entry(1, now + cfg.windowMs)]
    // Limit reached inside the window: denied, nothing stored changes, the window is not extended.
    ensures InWindow(store, key, now) && store[key].count >= cfg.maxRequests ==>
              !res.0.allowed && res.0.remaining == 0 && res.1 == store
              && res.0.resetTime == store[key].resetTime
              && res.0.retryAfter == Some(CeilDiv(store[key].resetTime - now, 1000))
    // Below the limit inside the window: one more request is counted.
    ensures InWindow(store, key, now) && store[key].count < cfg.maxRequests ==>
              res.0.allowed && res.1 == store[key := Entry(store[key].count + 1, store[key].resetTime)]
              && res.0.remaining == cfg.maxRequests - res.1[key].count
    ensures res.0.allowed ==> key in res.1 && res.0.retryAfter.None?
  {
    if key !in store || now > store[key].resetTime then
      (Verdict(true, cfg.maxRequests - 1, now + cfg.windowMs, None),
       store[key := Entry(1, now + cfg.windowMs)])
    else
      var entry := store[key];
      if entry.count >= cfg.maxRequests then
        (Verdict(false, 0, entry.resetTime, Some(CeilDiv(entry.resetTime - now, 1000))), store)
      else
        var entry' := entry.(count := entry.count + 1);
        (Verdict(true, cfg.maxRequests - entry'.count, entry'.resetTime, None), store[key := entry'])
  }

  /** A denial always comes with a non-negative wait, zero only at the reset instant itself. */
  lemma RetryAfterNonNegative(store: Store, key: string, cfg: Config, now: int)
    requires !CheckRateLimit(store, key, cfg, now).0.allowed
    ensures var r := CheckRateLimit(store, key, cfg, now).0.retryAfter;
            r.Some? && r.value >= 0 && (r.value == 0 <==> now == store[key].resetTime)
  {
  }

  predicate CountsBounded(store: Store, max: nat) {
    forall k | k in store :: store[k].count <= max
  }

  /** With a positive limit the stored count never exceeds it. */
  lemma CheckPreservesBound(store: Store, key: string, cfg: Config, now: int)
    requires cfg.maxRequests >= 1 && CountsBounded(store, cfg.maxRequests)
    ensures CountsBounded(CheckRateLimit(store, key, cfg, now).1, cfg.maxRequests)
  {
  }

  /** The verdicts of a run of calls on one key at the given instants. */
  function RunCalls(store: Store, key: string, cfg: Config, times: seq<int>): (res: (nat, Store))
    decreases |times|
  {
    if times == [] then (0, store)
    else
      var (v, s') := CheckRateLimit(store, key, cfg, times[0]);
      var (n, s'') := RunCalls(s', key, cfg, times[1..]);
      ((if v.allowed then 1 else 0) + n, s'')
  }

  /** Inside an open window, at most `max - count` further calls are allowed. */
  lemma {:induction false} RunInsideWindow(store: Store, key: string, cfg: Config, times: seq<int>)
    requires key in store
    requires forall i | 0 <= i < |times| :: times[i] <= store[key].resetTime
    ensures RunCalls(store, key, cfg, times).0 <= if store[key].count >= cfg.maxRequests then 0
                                                  else cfg.maxRequests - store[key].count
    ensures key in RunCalls(store, key, cfg, times).1
    ensures RunCalls(store, key, cfg, times).1[key].resetTime == store[key].resetTime
    decreases |times|
  {
    if times != [] {
      var s' := CheckRateLimit(store, key, cfg, times[0]).1;
      assert InWindow(store, key, times[0]);
      assert s'[key].resetTime == store[key].resetTime;
      RunInsideWindow(s', key, cfg, times[1..]);
    }
  }

  /** At most `maxRequests` calls on one key are allowed in one window: a run that opens
      a new window at `t0` and stays within `windowMs` of it gets at most `max` allowances. */
  lemma AtMostMaxPerWindow(store: Store, key: string, cfg: Config, t0: int, times: seq<int>)
    requires !InWindow(store, key, t0)
    requires forall i | 0 <= i < |times| :: t0 <= times[i] <= t0 + cfg.windowMs
    ensures RunCalls(store, key, cfg, [t0] + times).0 <= if cfg.maxRequests == 0 then 1 else cfg.maxRequests
  {
    var s' := CheckRateLimit(store, key, cfg, t0).1;
    assert ([t0] + times)[1..] == times;
    RunInsideWindow(s', key, cfg, times);
  }

  /** `getClientIP`: first `x-forwarded-for` entry trimmed, else `x-real-ip`, else `unknown`. */
  function GetClientIP(forwardedFor: Option<string>, realIP: Option<string>): (ip: string)
    ensures Present(forwardedFor) ==> ip == Trim(Split(forwardedFor.value, ',')[0])
    ensures !Present(forwardedFor) && Present(realIP) ==> ip == realIP.value
    ensures !Present(forwardedFor) && !Present(realIP) ==> ip == "unknown"
  {
    if Present(forwardedFor) then Trim(Split(forwardedFor.value, ',')[0])
    else if Present(realIP) then realIP.value
    else "unknown"
  }

  /** The first forwarded address never contains a comma and has no surrounding white space. */
  lemma ClientIPShape(forwardedFor: string, realIP: Option<string>)
    requires forwardedFor != ""
    ensures var ip := GetClientIP(Some(forwardedFor), realIP);
            ',' !in ip && (ip == [] || (!IsJsSpace(ip[0]) && !IsJsSpace(ip[|ip| - 1])))
  {
    var first := Split(forwardedFor, ',')[0];
    SplitShape(forwardedFor, ',');
    TrimIsWindow(first);
    var i, j :| 0 <= i <= j <= |first| && Trim(first) == first[i..j];
    var ip := Trim(first);
    assert GetClientIP(Some(forwardedFor), realIP) == ip;
    forall k | 0 <= k < |ip| ensures ip[k] != ',' {
      assert ip[k] == first[i + k];
    }
  }

  /** The store key of `rateLimitByIP`. */
  function RateKey(endpoint: string, ip: string): string {
    endpoint + ":" + ip
  }

  /** Distinct endpoints never share a key, since endpoint names contain no colon. */
  lemma RateKeysSeparate(e1: string, e2: string, ip1: string, ip2: string)
    requires ':' !in e1 && ':' !in e2 && e1 != e2
    ensures RateKey(e1, ip1) != RateKey(e2, ip2)
  {
    var k1, k2 := RateKey(e1, ip1), RateKey(e2, ip2);
    if |e1| < |e2| {
      assert k1[|e1|] == ':' && k2[|e1|] == e2[|e1|];
    } else if |e2| < |e1| {
      assert k2[|e2|] == ':' && k1[|e2|] == e1[|e2|];
    } else {
      assert k1[..|e1|] == e1 && k2[..|e2|] == e2;
    }
  }

  datatype Headers = Headers(forwardedFor: Option<string>, realIP: Option<string>)

  /** `rateLimitByIP(request, endpoint, config)`: the client's bucket for this endpoint
      decides the verdict, and no other bucket changes. */
  function RateLimitByIP(store: Store, h: Headers, endpoint: string, cfg: Config, now: int): (res: (Verdict, Store))
    ensures var key := RateKey(endpoint, GetClientIP(h.forwardedFor, h.realIP));
            && (forall k | k != key :: (k in res.1 <==> k in store) && (k in store ==> res.1[k] == store[k]))
            && (!res.0.allowed <==> InWindow(store, key, now) && store[key].count >= cfg.maxRequests)
            && (!res.0.allowed ==> res.1 == store)
            && (res.0.allowed ==> key in res.1 && res.1[key].count == (if InWindow(store, key, now) then store[key].count else 0) + 1)
  {
    CheckRateLimit(store, RateKey(endpoint, GetClientIP(h.forwardedFor, h.realIP)), cfg, now)
  }

  /** One client's requests never change another client's verdict on the same endpoint. */
  lemma OtherClientsUnaffected(store: Store, h1: Headers, h2: Headers, endpoint: string, cfg: Config, now: int, later: int)
    requires GetClientIP(h1.forwardedFor, h1.realIP) != GetClientIP(h2.forwardedFor, h2.realIP)
    ensures RateLimitByIP(RateLimitByIP(store, h1, endpoint, cfg, now).1, h2, endpoint, cfg, later).0
            == RateLimitByIP(store, h2, endpoint, cfg, later).0
  {
    var ip1, ip2 := GetClientIP(h1.forwardedFor, h1.realIP), GetClientIP(h2.forwardedFor, h2.realIP);
    var k1, k2 := RateKey(endpoint, ip1), RateKey(endpoint, ip2);
    assert k1 != k2 by {
      assert k1[|endpoint| + 1..] == ip1 && k2[|endpoint| + 1..] == ip2;
    }
    var store1 := RateLimitByIP(store, h1, endpoint, cfg, now).1;
    assert (k2 in store1 <==> k2 in store) && (k2 in store ==> store1[k2] == store[k2]);
    SameBucketSameVerdict(store1, store, k2, cfg, later);
  }

  /** The verdict on a key depends on that key's entry alone. */
  lemma SameBucketSameVerdict(s1: Store, s2: Store, key: string, cfg: Config, now: int)
    requires (key in s1 <==> key in s2) && (key in s1 ==> s1[key] == s2[key])
    ensures CheckRateLimit(s1, key, cfg, now).0 == CheckRateLimit(s2, key, cfg, now).0
  {
  }

  /** The pre-configured limiters of `RateLimiters`. */
  datatype Limiter = LoginLimiter | SmsCodeLimiter | ContactLimiter | BookingLimiter | ApiLimiter

  function Endpoint(l: Limiter): string {
    match l
    case LoginLimiter => "login"
    case SmsCodeLimiter => "sms-code"
    case ContactLimiter => "contact"
    case BookingLimiter => "booking"
    case ApiLimiter => "api"
  }

  function Policy(l: Limiter): Config {
    match l
    case LoginLimiter => Config(15 * 60 * 1000, 5)
    case SmsCodeLimiter => Config(10 * 60 * 1000, 3)
    case ContactLimiter => Config(60 * 60 * 1000, 5)
    case BookingLimiter => Config(60 * 60 * 1000, 10)
    case ApiLimiter => Config(60 * 1000, 100)
  }

  function Limit(l: Limiter, store: Store, h: Headers, now: int): (Verdict, Store) {
    RateLimitByIP(store, h, Endpoint(l), Policy(l), now)
  }

  /** The five limiters use five different buckets for the same client. */
  lemma LimitersUseSeparateBuckets(a: Limiter, b: Limiter, ip: string)
    requires a != b
    ensures RateKey(Endpoint(a), ip) != RateKey(Endpoint(b), ip)
  {
    RateKeysSeparate(Endpoint(a), Endpoint(b), ip, ip);
  }

  /** The policies of `RateLimiters`: limits and windows in milliseconds. */
  lemma PolicyTable()
    ensures Policy(LoginLimiter) == Config(900_000, 5)
    ensures Policy(SmsCodeLimiter) == Config(600_000, 3)
    ensures Policy(ContactLimiter) == Config(3_600_000, 5)
    ensures Policy(BookingLimiter) == Config(3_600_000, 10)
    ensures Policy(ApiLimiter) == Config(60_000, 100)
  {
  }

  /** The periodic cleanup: drop exactly the entries whose window has elapsed. */
  function Cleanup(store: Store, now: int): (s: Store)
    ensures forall k :: k in s <==> k in store && !(now > store[k].resetTime)
    ensures forall k | k in s :: s[k] == store[k]
  {
    map k | k in store && !(now > store[k].resetTime) :: store[k]
  }

  /** Cleanup never changes a verdict: an elapsed entry behaves exactly like a missing one. */
  lemma CleanupUnobservable(store: Store, key: string, cfg: Config, now: int, later: int)
    requires now <= later
    ensures CheckRateLimit(Cleanup(store, now), key, cfg, later).0 == CheckRateLimit(store, key, cfg, later).0
  {
  }

  // ---- account lockout ------------------------------------------------------

  const MaxAttempts: nat := 5
  const LockoutMs: nat := 15 * 60 * 1000

  datatype Lock = Lock(count: nat, lockedUntil: Option<int>)
  datatype LockVerdict = LockVerdict(locked: bool, attemptsRemaining: Option<int>, lockoutMinutes: Option<int>)

  type Locks = map<string, Lock>

  predicate IsLocked(locks: Locks, key: string, now: int) {
    key in locks && locks[key].lockedUntil.Some? && now < locks[key].lockedUntil.value
  }

  /** Whole minutes left on an active lock, rounded up. */
  function MinutesLeft(locks: Locks, key: string, now: int): (m: int)
    requires IsLocked(locks, key, now)
    ensures m >= 1
  {
    CeilDiv(locks[key].lockedUntil.value - now, 60_000)
  }

  /** One more failure for `key`, the lock not being active: the fifth (and every later)
      failure locks for 15 minutes; earlier ones report the attempts left. */
  function RecordFailure(locks: Locks, key: string, now: int): (res: (LockVerdict, Locks))
    ensures var n := (if key in locks then locks[key].count else 0) + 1;
            && (n >= MaxAttempts ==> res.0 == LockVerdict(true, None, Some(15))
                                     && res.1 == locks[key := Lock(n, Some(now + LockoutMs))])
            && (n < MaxAttempts ==> res.0 == LockVerdict(false, Some(MaxAttempts - n), None)
                                    && res.1 == locks[key := Lock(n, None)])
  {
    var attempts := (if key in locks then locks[key].count else 0) + 1;
    if attempts >= MaxAttempts then
      (LockVerdict(true, None, Some(15)), locks[key := Lock(attempts, Some(now + LockoutMs))])
    else
      (LockVerdict(false, Some(MaxAttempts - attempts), None), locks[key := Lock(attempts, None)])
  }

  /** `trackLoginAttempt(email, success)`, keyed by the lower-cased email. */
  function TrackLoginAttempt(locks: Locks, email: string, success: bool, now: int): (res: (LockVerdict, Locks))
    // While locked, every call (a success too) is refused and changes nothing.
    ensures IsLocked(locks, ToLower(email), now) ==>
              res.0 == LockVerdict(true, None, Some(MinutesLeft(locks, ToLower(email), now))) && res.1 == locks
    // Otherwise a success forgets the email's record.
    ensures !IsLocked(locks, ToLower(email), now) && success ==>
              res.0 == LockVerdict(false, None, None) && res.1 == locks - {ToLower(email)}
    ensures !IsLocked(locks, ToLower(email), now) && !success ==> res == RecordFailure(locks, ToLower(email), now)
    // Other emails' records are untouched.
    ensures forall k | k != ToLower(email) :: (k in res.1 <==> k in locks) && (k in locks ==> res.1[k] == locks[k])
  {
    var key := ToLower(email);
    if IsLocked(locks, key, now) then
      (LockVerdict(true, None, Some(MinutesLeft(locks, key, now))), locks)
    else if success then
      (LockVerdict(false, None, None), locks - {key})
    else
      RecordFailure(locks, key, now)
  }

  /** `isAccountLocked(email)`: read-only. */
  function IsAccountLocked(locks: Locks, email: string, now: int): (v: LockVerdict)
    ensures v.locked <==> IsLocked(locks, ToLower(email), now)
    ensures v.locked ==> v.lockoutMinutes == Some(MinutesLeft(locks, ToLower(email), now))
    ensures !v.locked ==> v == LockVerdict(false, None, None)
  {
    var key := ToLower(email);
    if IsLocked(locks, key, now) then LockVerdict(true, None, Some(MinutesLeft(locks, key, now)))
    else LockVerdict(false, None, None)
  }

  /** A lock that has run out does not reset the count: the very next failure relocks. */
  lemma ExpiredLockRelocksOnNextFailure(locks: Locks, email: string, now: nat)
    requires ToLower(email) in locks && locks[ToLower(email)].count >= MaxAttempts - 1
    requires !IsLocked(locks, ToLower(email), now)
    ensures TrackLoginAttempt(locks, email, false, now).0 == LockVerdict(true, None, Some(15))
    ensures IsLocked(TrackLoginAttempt(locks, email, false, now).1, ToLower(email), now)
  {
  }

  /** Failures recorded one after another from a clean record, at non-decreasing instants. */
  function Failures(locks: Locks, email: string, times: seq<nat>): Locks
    decreases |times|
  {
    if times == [] then locks
    else Failures(TrackLoginAttempt(locks, email, false, times[0]).1, email, times[1..])
  }

  /** Fewer than five failures from a clean record leave the email unlocked with the
      failures counted; the fifth one locks it for 15 minutes from that instant. */
  lemma {:induction false} FailuresCount(locks: Locks, email: string, times: seq<nat>)
    requires ToLower(email) !in locks
    requires 1 <= |times| <= MaxAttempts
    ensures var l := Failures(locks, email, times);
            ToLower(email) in l && l[ToLower(email)].count == |times|
            && (|times| < MaxAttempts ==> l[ToLower(email)].lockedUntil.None?)
            && (|times| == MaxAttempts ==> l[ToLower(email)].lockedUntil == Some(times[|times| - 1] + LockoutMs))
    decreases |times|
  {
    var key := ToLower(email);
    var l1 := TrackLoginAttempt(locks, email, false, times[0]).1;
    assert l1[key] == Lock(1, None);
    FailuresFrom(l1, email, times[1..], 1);
  }

  lemma {:induction false} FailuresFrom(locks: Locks, email: string, times: seq<nat>, c: nat)
    requires ToLower(email) in locks && locks[ToLower(email)] == Lock(c, None)
    requires 1 <= c && c + |times| <= MaxAttempts
    ensures var l := Failures(locks, email, times);
            ToLower(email) in l && l[ToLower(email)].count == c + |times|
            && (c + |times| < MaxAttempts ==> l[ToLower(email)].lockedUntil.None?)
            && (|times| > 0 && c + |times| == MaxAttempts ==>
                  l[ToLower(email)].lockedUntil == Some(times[|times| - 1] + LockoutMs))
    decreases |times|
  {
    if times != [] {
      var key := ToLower(email);
      var l1 := TrackLoginAttempt(locks, email, false, times[0]).1;
      if c + 1 < MaxAttempts {
        assert l1[key] == Lock(c + 1, None);
        FailuresFrom(l1, email, times[1..], c + 1);
      } else {
        assert |times| == 1;
        assert Failures(l1, email, times[1..]) == l1;
      }
    }
  }
}

=== FILE: session_hash.dfy ===
/**
 The access-hash path scheme of lib/session-hash.ts: an authenticated URL is
 `/{hash}/…`, where the hash is 8 characters of the URL-safe alphabet
 `[A-Za-z0-9_-]`. Hashes and session tokens come from nanoid, modelled here
 as a function of the random bytes it draws.
 */
module SessionHash {
  import opened Text

  const HashLength: nat := 8

  predicate IsHashChar(c: char) {
    IsUpper(c) || IsLower(c) || IsDigit(c) || c == '_' || c == '-'
  }

  /** `isValidHashFormat`: `^[a-zA-Z0-9_-]{8}$`. */
  predicate IsValidHashFormat(h: string) {
    |h| == HashLength && forall i | 0 <= i < |h| :: IsHashChar(h[i])
  }

  /** nanoid's 64-symbol URL alphabet (its symbol order is not modelled). */
  const UrlAlphabet: string :=
    seq(26, i requires 0 <= i < 26 => ('A' as int + i) as char) + seq(26, i requires 0 <= i < 26 => ('a' as int + i) as char)
    + seq(10, i requires 0 <= i < 10 => ('0' as int + i) as char) + "_-"

  predicate IsRandomBytes(bytes: seq<nat>) {
    forall i | 0 <= i < |bytes| :: bytes[i] < 256
  }

  /** `nanoid(size)`: one alphabet symbol per random byte, chosen by its low six bits. */
  function Nanoid(bytes: seq<nat>): (id: string)
    requires IsRandomBytes(bytes)
    ensures |id| == |bytes|
    ensures forall i | 0 <= i < |id| :: IsHashChar(id[i])
  {
    assert |UrlAlphabet| == 64;
    assert forall k | 0 <= k < 64 :: IsHashChar(UrlAlphabet[k]);
    seq(|bytes|, i requires 0 <= i < |bytes| && IsRandomBytes(bytes) => UrlAlphabet[bytes[i] % 64])
  }

  /** `generateSessionHash` = `nanoid(8)`: eight random bytes in, a well-formed hash out. */
  function GenerateSessionHash(bytes: seq<nat>): (h: string)
    requires |bytes| == HashLength && IsRandomBytes(bytes)
    ensures |h| == 8
    ensures IsValidHashFormat(h)
  {
    Nanoid(bytes)
  }

  /** `extractHashFromPath`: the regex `^\/([a-zA-Z0-9_-]{8})(\/|$)` and its group 1. */
  function ExtractHashFromPath(pathname: string): (r: Option<string>)
    ensures r.Some? ==> IsValidHashFormat(r.value)
    ensures r.Some? ==> |pathname| > HashLength && pathname == "/" + r.value + pathname[HashLength + 1..]
    ensures r.Some? ==> |pathname| == HashLength + 1 || pathname[HashLength + 1] == '/'
  {
    if |pathname| > HashLength && pathname[0] == '/'
       && (forall i | 1 <= i <= HashLength :: IsHashChar(pathname[i]))
       && (|pathname| == HashLength + 1 || pathname[HashLength + 1] == '/')
    then
      var h := pathname[1..HashLength + 1];
      assert forall i | 0 <= i < |h| :: h[i] == pathname[i + 1];
      Some(h)
    else None
  }

  /** Round trip: prefixing any well-formed hash to an empty or `/`-led suffix
      gives a path from which exactly that hash is extracted. */
  lemma ExtractRoundTrip(h: string, suffix: string)
    requires IsValidHashFormat(h)
    requires suffix == [] || suffix[0] == '/'
    ensures ExtractHashFromPath("/" + h + suffix) == Some(h)
  {
    var p := "/" + h + suffix;
    assert forall i | 1 <= i <= HashLength :: p[i] == h[i - 1];
    assert p[1..HashLength + 1] == h;
  }

  /** Completeness: a path whose extraction fails is not of the shape `/{hash}` or `/{hash}/…`. */
  lemma ExtractComplete(pathname: string, h: string, suffix: string)
    requires ExtractHashFromPath(pathname).None?
    requires IsValidHashFormat(h) && (suffix == [] || suffix[0] == '/')
    ensures pathname != "/" + h + suffix
  {
    ExtractRoundTrip(h, suffix);
  }

  /** Runtime configuration the URL builder reads from the environment. */
  datatype Env = Env(development: bool, appHost: string)

  /** `getBaseDomain`: `localhost:3000` in development, otherwise the configured host. */
  function BaseDomain(env: Env): string {
    if env.development then "localhost:3000" else env.appHost
  }

  function Protocol(env: Env): string {
    if env.development then "http" else "https"
  }

  function Origin(env: Env): string {
    Protocol(env) + "://" + BaseDomain(env)
  }

  function CleanPath(path: string): (p: string)
    ensures StartsWith(p, "/")
  {
    if StartsWith(path, "/") then path else "/" + path
  }

  /** `constructHashPathUrl(hash, path)`: origin, then `/hash`, then the path with a leading `/` forced.
      The ensures only splits the URL into the origin and the path the router sees, so that
      callers can reason about `HashPath`; what the URL means is stated by ConstructShape and
      ConstructThenExtract. */
  function ConstructHashPathUrl(env: Env, hash: string, path: string): (url: string)
    ensures url == Origin(env) + HashPath(hash, path)
  {
    Protocol(env) + "://" + BaseDomain(env) + "/" + hash + CleanPath(path)
  }

  /** The path component of the URL built for `hash` and `path`. */
  function HashPath(hash: string, path: string): string {
    "/" + hash + CleanPath(path)
  }

  /** The URL's path always starts with `/hash/`, and it keeps a path that already starts with `/`. */
  lemma ConstructShape(env: Env, hash: string, path: string)
    ensures StartsWith(path, "/") ==> ConstructHashPathUrl(env, hash, path) == Origin(env) + "/" + hash + path
    ensures !StartsWith(path, "/") ==> ConstructHashPathUrl(env, hash, path) == Origin(env) + "/" + hash + "/" + path
  {
  }

  /** A missing leading slash is supplied: `x` and `/x` build the same URL. */
  lemma ConstructAddsSlash(env: Env, hash: string, path: string)
    requires !StartsWith(path, "/")
    ensures ConstructHashPathUrl(env, hash, path) == ConstructHashPathUrl(env, hash, "/" + path)
  {
    assert StartsWith("/" + path, "/");
  }

  /** Extracting the hash from the built URL's path gives the hash back. */
  lemma ConstructThenExtract(env: Env, hash: string, path: string)
    requires IsValidHashFormat(hash)
    ensures ExtractHashFromPath(HashPath(hash, path)) == Some(hash)
  {
    var c := CleanPath(path);
    assert c[0] == '/';
    ExtractRoundTrip(hash, c);
    assert HashPath(hash, path) == "/" + hash + c;
  }
}

=== FILE: sessions.dfy ===
/**
 Session validation and revocation: `verifySession` and the role guards of
 lib/auth-guard.ts, the `/api/auth/me` check, the `/api/bookings/my` query
 and `/api/auth/logout`. The cookie is the `session_token` value, if any.
 */
module Sessions {
  import opened Text
  import opened Auth
  import opened Db
  import Collections

  datatype AuthError = NoSession | InvalidSession | ExpiredSession | AuthFailure

  function AuthErrorStatus(e: AuthError): nat {
    match e
    case NoSession => 401
    case InvalidSession => 401
    case ExpiredSession => 401
    case AuthFailure => 500
  }

  function AuthErrorMessage(e: AuthError): string {
    match e
    case NoSession => "No autorizado - Sesión requerida"
    case InvalidSession => "Sesión inválida"
    case ExpiredSession => "Sesión expirada"
    case AuthFailure => "Error de autenticación"
  }

  datatype SessionUser = SessionUser(id: UserId, email: string, name: string, role: Role)

  datatype AuthResult = Authenticated(user: SessionUser) | Unauthenticated(error: AuthError)

  /** The session stored under `token` is live at `now`. */
  predicate IsLive(db: Db, token: string, now: int) {
    token in db.sessions && !IsSessionExpired(now, db.sessions[token].expiresAt)
  }

  /** The public view of the user behind a live session. */
  function ViewOf(db: Db, s: Session): (v: SessionUser)
    requires s.userId < |db.users|
    ensures v.id == s.userId && v.email == db.users[s.userId].email
    ensures v.name == db.users[s.userId].name && v.role == db.users[s.userId].role
  {
    var u := db.users[s.userId];
    SessionUser(s.userId, u.email, u.name, u.role)
  }

  /** `verifySession`. An expired session is deleted on sight; nothing else ever changes.
      A session whose user is missing makes the user read fail, which surfaces as the 500. */
  function VerifySession(db: Db, cookie: Option<string>, now: int): (res: (AuthResult, Db))
    ensures !Present(cookie) ==> res == (Unauthenticated(NoSession), db)
    ensures Present(cookie) && cookie.value !in db.sessions ==> res == (Unauthenticated(InvalidSession), db)
    ensures Present(cookie) && cookie.value in db.sessions && !IsLive(db, cookie.value, now) ==>
              res == (Unauthenticated(ExpiredSession), db.(sessions := db.sessions - {cookie.value}))
    ensures Present(cookie) && IsLive(db, cookie.value, now) ==> res.1 == db
    ensures res.0.Authenticated? <==>
              Present(cookie) && IsLive(db, cookie.value, now) && db.sessions[cookie.value].userId < |db.users|
    ensures res.0.Authenticated? ==> res.0.user == ViewOf(db, db.sessions[cookie.value])
    ensures res.0 == Unauthenticated(AuthFailure) ==> IsLive(db, cookie.value, now) && res.1 == db
  {
    if !Present(cookie) then (Unauthenticated(NoSession), db)
    else if cookie.value !in db.sessions then (Unauthenticated(InvalidSession), db)
    else
      var session := db.sessions[cookie.value];
      if IsSessionExpired(now, session.expiresAt) then
        (Unauthenticated(ExpiredSession), db.(sessions := db.sessions - {cookie.value}))
      else if session.userId < |db.users| then
        (Authenticated(ViewOf(db, session)), db)
      else
        (Unauthenticated(AuthFailure), db)
  }

  /** An expired session is reported once as expired; afterwards it is simply unknown. */
  lemma ExpiredThenInvalid(db: Db, token: string, now: int, later: int)
    requires token != [] && token in db.sessions && !IsLive(db, token, now)
    ensures VerifySession(VerifySession(db, Some(token), now).1, Some(token), later).0 == Unauthenticated(InvalidSession)
  {
  }

  /** Under the schema's guarantees a live session always authenticates, and validation keeps those guarantees. */
  lemma VerifySessionWellFormed(db: Db, cookie: Option<string>, now: int)
    requires WellFormed(db)
    ensures WellFormed(VerifySession(db, cookie, now).1)
    ensures VerifySession(db, cookie, now).0 != Unauthenticated(AuthFailure)
  {
  }

  // ---- guards ---------------------------------------------------------------

  datatype Guarded = Granted(user: SessionUser) | Refused(status: nat, message: string)

  const ForbiddenMessage: string := "No tienes permisos para realizar esta acción"

  /** `requireAuth`: the verified user, or the verification error as a response. */
  function RequireAuth(db: Db, cookie: Option<string>, now: int): (res: (Guarded, Db))
    ensures res.1 == VerifySession(db, cookie, now).1
    ensures var v := VerifySession(db, cookie, now).0;
            && (v.Authenticated? ==> res.0 == Granted(v.user))
            && (v.Unauthenticated? ==> res.0 == Refused(AuthErrorStatus(v.error), AuthErrorMessage(v.error)))
  {
    var (v, db') := VerifySession(db, cookie, now);
    if v.Unauthenticated? then (Refused(AuthErrorStatus(v.error), AuthErrorMessage(v.error)), db')
    else (Granted(v.user), db')
  }

  /** `requireRole(request, allowedRoles)`: verification errors pass through, a verified user
      outside `allowed` gets 403, and only a verified user inside it is granted. */
  function RequireRole(db: Db, cookie: Option<string>, now: int, allowed: seq<Role>): (res: (Guarded, Db))
    ensures res.1 == VerifySession(db, cookie, now).1
    ensures res.0.Granted? <==> VerifySession(db, cookie, now).0.Authenticated?
                                && VerifySession(db, cookie, now).0.user.role in allowed
    ensures res.0.Granted? ==> res.0.user == VerifySession(db, cookie, now).0.user
    ensures var v := VerifySession(db, cookie, now).0;
            && (v.Unauthenticated? ==> res.0 == Refused(AuthErrorStatus(v.error), AuthErrorMessage(v.error)))
            && (v.Authenticated? && v.user.role !in allowed ==> res.0 == Refused(403, ForbiddenMessage))
  {
    var (v, db') := VerifySession(db, cookie, now);
    if v.Unauthenticated? then (Refused(AuthErrorStatus(v.error), AuthErrorMessage(v.error)), db')
    else if v.user.role !in allowed then (Refused(403, ForbiddenMessage), db')
    else (Granted(v.user), db')
  }

  function RequireAdmin(db: Db, cookie: Option<string>, now: int): (Guarded, Db) {
    RequireRole(db, cookie, now, [ADMIN])
  }

  function RequireStaff(db: Db, cookie: Option<string>, now: int): (Guarded, Db) {
    RequireRole(db, cookie, now, [ADMIN, STAFF])
  }

  /** `requireAdmin` admits exactly ADMIN users, `requireStaff` exactly ADMIN and STAFF users;
      a verified CUSTOMER is refused by both with 403. */
  lemma GuardRoles(db: Db, cookie: Option<string>, now: int)
    ensures var v := VerifySession(db, cookie, now).0;
            && (RequireAdmin(db, cookie, now).0.Granted? <==> v.Authenticated? && v.user.role == ADMIN)
            && (RequireStaff(db, cookie, now).0.Granted? <==> v.Authenticated? && v.user.role in {ADMIN, STAFF})
            && (v.Authenticated? && v.user.role == CUSTOMER ==>
                  RequireAdmin(db, cookie, now).0 == Refused(403, ForbiddenMessage)
                  && RequireStaff(db, cookie, now).0 == Refused(403, ForbiddenMessage))
  {
  }

  /** Every guard grants exactly when `requireAuth` does and the role is admitted. */
  lemma GuardRefinesAuth(db: Db, cookie: Option<string>, now: int, allowed: seq<Role>)
    ensures RequireRole(db, cookie, now, allowed).0.Granted? ==> RequireAuth(db, cookie, now).0.Granted?
    ensures RequireAuth(db, cookie, now).0.Refused? ==> RequireRole(db, cookie, now, allowed).0 == RequireAuth(db, cookie, now).0
  {
  }

  // ---- GET /api/auth/me -----------------------------------------------------

  datatype MeReply = MeUser(user: SessionUser) | MeError(status: nat, message: string)

  /** `GET /api/auth/me`: the same check as `verifySession`, with its own messages. */
  function Me(db: Db, cookie: Option<string>, now: int): (res: (MeReply, Db))
    ensures !Present(cookie) ==> res == (MeError(401, "Not authenticated"), db)
    ensures Present(cookie) && cookie.value !in db.sessions ==> res == (MeError(401, "Invalid session"), db)
    ensures Present(cookie) && cookie.value in db.sessions && !IsLive(db, cookie.value, now) ==>
              res == (MeError(401, "Session expired"), db.(sessions := db.sessions - {cookie.value}))
    ensures res.0.MeUser? ==> IsLive(db, cookie.value, now) && res.1 == db
  {
    if !Present(cookie) then (MeError(401, "Not authenticated"), db)
    else if cookie.value !in db.sessions then (MeError(401, "Invalid session"), db)
    else
      var session := db.sessions[cookie.value];
      if IsSessionExpired(now, session.expiresAt) then
        (MeError(401, "Session expired"), db.(sessions := db.sessions - {cookie.value}))
      else if session.userId < |db.users| then
        (MeUser(ViewOf(db, session)), db)
      else
        (MeError(500, "An error occurred"), db)
  }

  /** `/api/auth/me` and `verifySession` agree on every request: the same store afterwards,
      the same user when authenticated, the same status when not. */
  lemma MeAgreesWithVerifySession(db: Db, cookie: Option<string>, now: int)
    ensures Me(db, cookie, now).1 == VerifySession(db, cookie, now).1
    ensures Me(db, cookie, now).0.MeUser? <==> VerifySession(db, cookie, now).0.Authenticated?
    ensures Me(db, cookie, now).0.MeUser? ==> Me(db, cookie, now).0.user == VerifySession(db, cookie, now).0.user
    ensures Me(db, cookie, now).0.MeError? ==>
              Me(db, cookie, now).0.status == AuthErrorStatus(VerifySession(db, cookie, now).0.error)
  {
  }

  // ---- GET /api/bookings/my ---------------------------------------------------

  datatype MyBookingsReply = MyBookings(bookings: seq<Booking>) | MyBookingsError(status: nat, message: string)

  function DateKey(b: Booking): int { b.date }

  predicate OwnedBy(uid: UserId, b: Booking) { b.userId == Some(uid) }

  /** `GET /api/bookings/my`: the caller's bookings, latest date first. Unlike the guards it
      never deletes an expired session; the store is not part of its result. */
  function MyBookingsQuery(db: Db, cookie: Option<string>, now: int): (r: MyBookingsReply)
    ensures !Present(cookie) ==> r == MyBookingsError(401, "Not authenticated")
    ensures Present(cookie) && !IsLive(db, cookie.value, now) ==> r == MyBookingsError(401, "Invalid or expired session")
    ensures r.MyBookings? <==> Present(cookie) && IsLive(db, cookie.value, now) && db.sessions[cookie.value].userId < |db.users|
    ensures r.MyBookings? ==>
              var uid := db.sessions[cookie.value].userId;
              && multiset(r.bookings) == multiset(Collections.Filter(db.bookings, (b: Booking) => OwnedBy(uid, b)))
              && (forall b :: b in r.bookings <==> b in db.bookings && OwnedBy(uid, b))
              && Collections.SortedDesc(r.bookings, DateKey)
  {
    if !Present(cookie) then MyBookingsError(401, "Not authenticated")
    else if !IsLive(db, cookie.value, now) then MyBookingsError(401, "Invalid or expired session")
    else
      var session := db.sessions[cookie.value];
      if session.userId < |db.users| then
        var uid := session.userId;
        var own := Collections.Filter(db.bookings, (b: Booking) => OwnedBy(uid, b));
        var sorted := Collections.SortDesc(own, DateKey);
        assert forall b :: b in sorted <==> b in own by {
          forall b ensures b in sorted <==> b in own {
            assert b in sorted <==> b in multiset(sorted);
            assert b in own <==> b in multiset(own);
          }
        }
        MyBookings(sorted)
      else MyBookingsError(500, "An error occurred")
  }

  /** The expired session that `verifySession` would delete survives `/api/bookings/my`,
      so it keeps being refused there until something else removes it. */
  lemma MyBookingsKeepsExpired(db: Db, token: string, now: int)
    requires token != [] && token in db.sessions && !IsLive(db, token, now)
    ensures MyBookingsQuery(db, Some(token), now) == MyBookingsError(401, "Invalid or expired session")
    ensures token !in VerifySession(db, Some(token), now).1.sessions
  {
  }

  // ---- POST /api/auth/logout --------------------------------------------------

  /** The response always succeeds and overwrites the cookie with an empty value of max-age 0. */
  datatype LogoutReply = LoggedOut(cookieValue: string, cookieMaxAge: nat)

  /** `POST /api/auth/logout`: `deleteMany({ where: { token } })` when a cookie is present. */
  function Logout(db: Db, cookie: Option<string>): (res: (LogoutReply, Db))
    ensures res.0 == LoggedOut("", 0)
    ensures !Present(cookie) ==> res.1 == db
    ensures Present(cookie) ==>
              && res.1.users == db.users && res.1.bookings == db.bookings
              && res.1.contacts == db.contacts && res.1.codes == db.codes
              && (forall t :: t in res.1.sessions <==> t in db.sessions && db.sessions[t].token != cookie.value)
              && (forall t | t in res.1.sessions :: res.1.sessions[t] == db.sessions[t])
  {
    if Present(cookie) then
      var kept := map t | t in db.sessions && db.sessions[t].token != cookie.value :: db.sessions[t];
      (LoggedOut("", 0), db.(sessions := kept))
    else (LoggedOut("", 0), db)
  }

  /** After logging out, the same token is an invalid session for every later check. */
  lemma LogoutRevokes(db: Db, token: string, now: int)
    requires WellFormed(db) && token != []
    ensures VerifySession(Logout(db, Some(token)).1, Some(token), now).0 == Unauthenticated(InvalidSession)
    ensures Me(Logout(db, Some(token)).1, Some(token), now).0 == MeError(401, "Invalid session")
  {
  }

  /** Logging out keeps every other session and the schema's guarantees. */
  lemma LogoutWellFormed(db: Db, cookie: Option<string>, other: string)
    requires WellFormed(db)
    ensures WellFormed(Logout(db, cookie).1)
    ensures Present(cookie) && other in db.sessions && other != cookie.value ==>
              other in Logout(db, cookie).1.sessions
  {
  }
}

=== FILE: signup.dfy ===
/**
 `POST /api/bookings/with-signup`: a visitor with a verified phone creates an
 account and a booking at once. After the booking rate limit and the input
 checks, one atomic step creates a CUSTOMER user, a PENDING booking owned by
 that user, and deletes the verification code it consumed. The bcrypt hash of
 the password is the `passwordHash` parameter; `parseDate` and `today` are as
 in the booking form.
 */
module Signup {
  import opened Text
  import opened Auth
  import opened Db
  import RateLimit
  import Collections
  import opened Validation
  import opened Bookings
  import PhoneCodes
  import Sessions

  datatype SignupRequest = SignupRequest(
    name: Option<string>,
    email: Option<string>,
    password: Option<string>,
    phone: Option<string>,
    services: Option<seq<string>>,
    date: Option<string>,
    time: Option<string>,
    address: Option<string>,
    notes: Option<string>)

  datatype SignupRejection =
    | MissingUserFields
    | MissingBookingFields
    | SignupInvalidService
    | SignupNameTooLong
    | SignupAddressTooLong
    | SignupNotesTooLong
    | SignupBadEmail
    | WeakPassword(message: string)
    | SignupPastDate
    | SignupBadPhone
    | PhoneNotVerified
    | EmailTaken

  datatype SignupOutcome =
    | SignupRateLimited(retryAfter: int)
    | SignupRejected(reason: SignupRejection)
    | SignupCreated(userId: UserId, name: string, email: string)
    | SignupFailed

  function SignupStatus(o: SignupOutcome): nat {
    match o
    case SignupRateLimited(_) => 429
    case SignupRejected(_) => 400
    case SignupCreated(_, _, _) => 200
    case SignupFailed => 500
  }

  predicate UserFieldsPresent(req: SignupRequest) {
    Present(req.name) && Present(req.email) && Present(req.password) && Present(req.phone)
  }

  predicate BookingFieldsPresent(req: SignupRequest) {
    HasServices(req.services) && Present(req.date) && Present(req.time) && Present(req.address)
  }

  // The request-only checks, as the prefixes that pass them in the handler's order.

  predicate PassesFields(req: SignupRequest) {
    UserFieldsPresent(req) && BookingFieldsPresent(req)
  }

  predicate PassesServices(req: SignupRequest) {
    PassesFields(req) && AllServicesValid(req.services.value)
  }

  predicate PassesCaps(req: SignupRequest) {
    PassesServices(req) && WithinCaps(req.name.value, req.address.value, req.notes)
  }

  predicate PassesEmail(req: SignupRequest) {
    PassesCaps(req) && IsEmail(req.email.value)
  }

  predicate PassesPassword(req: SignupRequest) {
    PassesEmail(req) && ValidatePassword(req.password.value).isValid
  }

  predicate PassesDate(req: SignupRequest, parseDate: string -> Option<int>, today: int) {
    PassesPassword(req) && !NotInFuture(parseDate(req.date.value), today)
  }

  /** Every check that looks only at the request: fields, services, caps, email, password,
      date and phone pattern. */
  predicate ValidInput(req: SignupRequest, parseDate: string -> Option<int>, today: int) {
    PassesDate(req, parseDate, today) && IsSpanishPhone(CleanPhone(req.phone.value))
  }

  /** `findFirst({ where: { phone, verified: true } })` matches this code; its expiry plays no part. */
  predicate VerifiedFor(phone: string, c: Code) {
    c.phone == phone && c.verified
  }

  function FindVerified(codes: seq<Code>, phone: string): (r: Option<nat>)
    ensures r.Some? ==> r.value < |codes| && VerifiedFor(phone, codes[r.value])
    ensures r.None? <==> forall i | 0 <= i < |codes| :: !VerifiedFor(phone, codes[i])
  {
    Collections.FirstWhere(codes, (c: Code) => VerifiedFor(phone, c))
  }

  /** The account the signup creates. */
  function NewUser(req: SignupRequest, passwordHash: string, now: int): User
    requires UserFieldsPresent(req)
  {
    User(Trim(ToLower(req.email.value)), passwordHash, Sanitize(req.name.value), CUSTOMER, now)
  }

  /** The booking the signup creates, owned by the new user `uid`. */
  function NewBooking(req: SignupRequest, uid: UserId, date: int, now: int): Booking
    requires UserFieldsPresent(req) && BookingFieldsPresent(req)
  {
    Booking(Some(uid), req.services.value, date, Sanitize(req.time.value), Sanitize(req.name.value),
            Trim(ToLower(req.email.value)), CleanPhone(req.phone.value), Sanitize(req.address.value),
            StoredNotes(req.notes), PENDING, now)
  }

  /** The transaction: one user, one booking owned by that user, the consumed code deleted. */
  function SignupCommit(db: Db, req: SignupRequest, passwordHash: string, code: nat, date: int, now: int): Db
    requires PassesFields(req) && code < |db.codes|
  {
    db.(users := db.users + [NewUser(req, passwordHash, now)],
        bookings := db.bookings + [NewBooking(req, |db.users|, date, now)],
        codes := Collections.RemoveAt(db.codes, code))
  }

  function SignupRate(st: State, h: RateLimit.Headers, now: int): (RateLimit.Verdict, RateLimit.Store) {
    RateLimit.Limit(RateLimit.BookingLimiter, st.rate, h, now)
  }

  /** The request got past the rate limit and every request-only check. */
  predicate ReachesCodeCheck(st: State, h: RateLimit.Headers, req: SignupRequest,
                             parseDate: string -> Option<int>, today: int, now: int) {
    SignupRate(st, h, now).0.allowed && ValidInput(req, parseDate, today)
  }

  function SignupWithBooking(st: State, h: RateLimit.Headers, req: SignupRequest, passwordHash: string,
                             parseDate: string -> Option<int>, today: int, now: int): (res: (SignupOutcome, State))
    // The booking bucket is checked first; a denial changes nothing.
    ensures !SignupRate(st, h, now).0.allowed ==>
              res == (SignupRateLimited(SignupRate(st, h, now).0.retryAfter.value), st)
    ensures res.1.rate == SignupRate(st, h, now).1
    ensures res.1.logins == st.logins && res.1.phoneLocks == st.phoneLocks
    ensures !res.0.SignupCreated? ==> res.1.db == st.db
    ensures SignupRate(st, h, now).0.allowed && !UserFieldsPresent(req) ==> res.0 == SignupRejected(MissingUserFields)
    ensures SignupRate(st, h, now).0.allowed && UserFieldsPresent(req) && !BookingFieldsPresent(req) ==>
              res.0 == SignupRejected(MissingBookingFields)
    ensures SignupRate(st, h, now).0.allowed && PassesFields(req) && !AllServicesValid(req.services.value) ==>
              res.0 == SignupRejected(SignupInvalidService)
    ensures SignupRate(st, h, now).0.allowed && PassesServices(req) && |req.name.value| > NameCap ==>
              res.0 == SignupRejected(SignupNameTooLong)
    ensures SignupRate(st, h, now).0.allowed && PassesServices(req) && |req.name.value| <= NameCap
            && |req.address.value| > AddressCap ==>
              res.0 == SignupRejected(SignupAddressTooLong)
    ensures SignupRate(st, h, now).0.allowed && PassesServices(req) && |req.name.value| <= NameCap
            && |req.address.value| <= AddressCap && Present(req.notes) && |req.notes.value| > NotesCap ==>
              res.0 == SignupRejected(SignupNotesTooLong)
    ensures SignupRate(st, h, now).0.allowed && PassesCaps(req) && !IsEmail(req.email.value) ==>
              res.0 == SignupRejected(SignupBadEmail)
    // A weak password is refused with all of its messages, joined by spaces.
    ensures res.0.SignupRejected? && res.0.reason.WeakPassword? <==>
              SignupRate(st, h, now).0.allowed && PassesEmail(req) && !ValidatePassword(req.password.value).isValid
    ensures res.0.SignupRejected? && res.0.reason.WeakPassword? ==>
              res.0.reason.message == Join(ValidatePassword(req.password.value).errors, " ")
    ensures SignupRate(st, h, now).0.allowed && PassesPassword(req) && NotInFuture(parseDate(req.date.value), today) ==>
              res.0 == SignupRejected(SignupPastDate)
    ensures SignupRate(st, h, now).0.allowed && PassesDate(req, parseDate, today)
            && !IsSpanishPhone(CleanPhone(req.phone.value)) ==>
              res.0 == SignupRejected(SignupBadPhone)
    // The phone must hold a verified code, however old.
    ensures ReachesCodeCheck(st, h, req, parseDate, today, now) ==>
              (res.0 == SignupRejected(PhoneNotVerified) <==> FindVerified(st.db.codes, CleanPhone(req.phone.value)).None?)
    ensures ReachesCodeCheck(st, h, req, parseDate, today, now)
            && FindVerified(st.db.codes, CleanPhone(req.phone.value)).Some? ==>
              (res.0 == SignupRejected(EmailTaken) <==> FindUserByEmail(st.db.users, ToLower(req.email.value)).Some?)
    // An unparseable date slips past the date check and makes the insert fail.
    ensures res.0 == SignupFailed <==>
              && ReachesCodeCheck(st, h, req, parseDate, today, now)
              && FindVerified(st.db.codes, CleanPhone(req.phone.value)).Some?
              && FindUserByEmail(st.db.users, ToLower(req.email.value)).None?
              && parseDate(req.date.value).None?
    // Only a request that passes everything creates anything.
    ensures res.0.SignupCreated? <==>
              && ReachesCodeCheck(st, h, req, parseDate, today, now)
              && FindVerified(st.db.codes, CleanPhone(req.phone.value)).Some?
              && FindUserByEmail(st.db.users, ToLower(req.email.value)).None?
              && parseDate(req.date.value).Some?
    // The atomic step: one user, one booking owned by that user, one code fewer.
    ensures res.0.SignupCreated? ==>
              && ReachesCodeCheck(st, h, req, parseDate, today, now)
              && FindVerified(st.db.codes, CleanPhone(req.phone.value)).Some? && parseDate(req.date.value).Some?
              && res.0.userId == |st.db.users|
              && res.1.db == SignupCommit(st.db, req, passwordHash, FindVerified(st.db.codes, CleanPhone(req.phone.value)).value,
                                          parseDate(req.date.value).value, now)
  {
    var (verdict, rate') := SignupRate(st, h, now);
    if !verdict.allowed then (SignupRateLimited(verdict.retryAfter.value), st)
    else
      var st1 := st.(rate := rate');
      if !UserFieldsPresent(req) then (SignupRejected(MissingUserFields), st1)
      else if !BookingFieldsPresent(req) then (SignupRejected(MissingBookingFields), st1)
      else if !AllServicesValid(req.services.value) then (SignupRejected(SignupInvalidService), st1)
      else if |req.name.value| > NameCap then (SignupRejected(SignupNameTooLong), st1)
      else if |req.address.value| > AddressCap then (SignupRejected(SignupAddressTooLong), st1)
      else if Present(req.notes) && |req.notes.value| > NotesCap then (SignupRejected(SignupNotesTooLong), st1)
      else if !IsEmail(req.email.value) then (SignupRejected(SignupBadEmail), st1)
      else
        var check := ValidatePassword(req.password.value);
        if !check.isValid then (SignupRejected(WeakPassword(Join(check.errors, " "))), st1)
        else
          var parsed := parseDate(req.date.value);
          if NotInFuture(parsed, today) then (SignupRejected(SignupPastDate), st1)
          else
            var phone := CleanPhone(req.phone.value);
            if !IsSpanishPhone(phone) then (SignupRejected(SignupBadPhone), st1)
            else
              var verification := FindVerified(st.db.codes, phone);
              if verification.None? then (SignupRejected(PhoneNotVerified), st1)
              else if FindUserByEmail(st.db.users, ToLower(req.email.value)).Some? then (SignupRejected(EmailTaken), st1)
              else if parsed.None? then (SignupFailed, st1)
              else
                var user := NewUser(req, passwordHash, now);
                (SignupCreated(|st.db.users|, user.name, user.email),
                 st1.(db := SignupCommit(st.db, req, passwordHash, verification.value, parsed.value, now)))
  }

  /** The new account is a CUSTOMER with the hashed password and a tag-free name within its cap. */
  lemma NewUserRecord(req: SignupRequest, passwordHash: string, now: int)
    requires UserFieldsPresent(req) && |req.name.value| <= NameCap
    ensures var u := NewUser(req, passwordHash, now);
            u.role == CUSTOMER && u.passwordHash == passwordHash && |u.name| <= NameCap && NoTag(u.name)
  {
  }

  /** The account and the booking both store the email under which it was looked up. */
  lemma SignupEmailStored(req: SignupRequest, passwordHash: string, uid: UserId, date: int, now: int)
    requires UserFieldsPresent(req) && BookingFieldsPresent(req) && IsEmail(req.email.value)
    ensures NewUser(req, passwordHash, now).email == ToLower(req.email.value)
    ensures NewBooking(req, uid, date, now).email == ToLower(req.email.value)
  {
    EmailLowerTrim(req.email.value);
  }

  /** The new booking belongs to the new account, is PENDING, and stores the cleaned phone,
      which is the accepted one. */
  lemma NewBookingRecord(req: SignupRequest, uid: UserId, date: int, now: int)
    requires UserFieldsPresent(req) && BookingFieldsPresent(req) && IsSpanishPhone(CleanPhone(req.phone.value))
    ensures var b := NewBooking(req, uid, date, now);
            Sessions.OwnedBy(uid, b) && b.status == PENDING && IsSpanishPhone(b.phone) && !HasSpace(b.phone)
  {
  }

  /** A signup keeps the schema's guarantees: the new email was looked up before it was
      stored, so it is not a second copy of a stored email. */
  lemma SignupWellFormed(st: State, h: RateLimit.Headers, req: SignupRequest, passwordHash: string,
                         parseDate: string -> Option<int>, today: int, now: int)
    requires WellFormed(st.db)
    ensures WellFormed(SignupWithBooking(st, h, req, passwordHash, parseDate, today, now).1.db)
  {
    var (o, st') := SignupWithBooking(st, h, req, passwordHash, parseDate, today, now);
    if o.SignupCreated? {
      var u := NewUser(req, passwordHash, now);
      EmailLowerTrim(req.email.value);
      assert u.email == ToLower(req.email.value);
      var users' := st.db.users + [u];
      assert st'.db.users == users';
      forall i, j | 0 <= i < j < |users'| ensures users'[i].email != users'[j].email {
        if j == |st.db.users| {
          assert users'[i] == st.db.users[i];
        } else {
          assert users'[i] == st.db.users[i] && users'[j] == st.db.users[j];
        }
      }
    }
  }

  /** Appending a user whose email no stored user has makes the lookup find that user. */
  lemma AppendedUserFound(users: seq<User>, u: User)
    requires FindUserByEmail(users, u.email).None?
    ensures FindUserByEmail(users + [u], u.email) == Some(|users|)
  {
    var users' := users + [u];
    assert users'[|users|] == u;
    forall i | 0 <= i < |users| ensures users'[i].email != u.email {
      assert users'[i] == users[i];
    }
  }

  /** A signup and its lookups agree: when the email was not yet taken, the committed store
      finds the new account under that email, and the account owns the booking made with it. */
  lemma CommitThenFound(db: Db, req: SignupRequest, passwordHash: string, code: nat, date: int, now: int)
    requires PassesFields(req) && code < |db.codes| && IsEmail(req.email.value)
    requires FindUserByEmail(db.users, ToLower(req.email.value)).None?
    ensures var db' := SignupCommit(db, req, passwordHash, code, date, now);
            && FindUserByEmail(db'.users, ToLower(req.email.value)) == Some(|db.users|)
            && db'.users[|db.users|].role == CUSTOMER
            && |db'.bookings| == |db.bookings| + 1
            && Sessions.OwnedBy(|db.users|, db'.bookings[|db.bookings|])
            && db'.bookings[|db.bookings|].services == req.services.value
  {
    var u := NewUser(req, passwordHash, now);
    var b := NewBooking(req, |db.users|, date, now);
    EmailLowerTrim(req.email.value);
    assert u.email == ToLower(req.email.value);
    AppendedUserFound(db.users, u);
    var db' := SignupCommit(db, req, passwordHash, code, date, now);
    assert db'.users == db.users + [u];
    assert db'.bookings == db.bookings + [b];
  }

  /** The code a signup consumes is gone: when a phone holds at most one code, repeating the
      same signup is refused as "not verified". */
  lemma SecondSignupNotVerified(st: State, h: RateLimit.Headers, req: SignupRequest, passwordHash: string,
                                parseDate: string -> Option<int>, today: int, now: int,
                                h2: RateLimit.Headers, later: int)
    requires PhoneCodes.OneCodePerPhone(st.db.codes)
    requires SignupWithBooking(st, h, req, passwordHash, parseDate, today, now).0.SignupCreated?
    requires SignupRate(SignupWithBooking(st, h, req, passwordHash, parseDate, today, now).1, h2, later).0.allowed
    ensures var st' := SignupWithBooking(st, h, req, passwordHash, parseDate, today, now).1;
            SignupWithBooking(st', h2, req, passwordHash, parseDate, today, later).0 == SignupRejected(PhoneNotVerified)
  {
    var st' := SignupWithBooking(st, h, req, passwordHash, parseDate, today, now).1;
    var phone := CleanPhone(req.phone.value);
    var i := FindVerified(st.db.codes, phone).value;
    var codes' := Collections.RemoveAt(st.db.codes, i);
    assert st'.db.codes == codes';
    forall k | 0 <= k < |codes'| ensures !VerifiedFor(phone, codes'[k]) {
      if k < i {
        assert codes'[k] == st.db.codes[k];
      } else {
        assert codes'[k] == st.db.codes[k + 1];
      }
    }
    assert ReachesCodeCheck(st', h2, req, parseDate, today, later);
  }
}

=== FILE: sms.dfy ===
/**
 `isValidPhoneNumber` of lib/sms.ts: the international number shape of
 ITU-T Recommendation E.164 (a country code that does not start with 0, at
 most 15 digits in all), checked by the regex `^\+[1-9]\d{1,14}$`.
 The regex is modelled as the left-to-right automaton a regex engine runs,
 and proved equal to the declarative shape.
 */
module Sms {
  import opened Text
  import Validation

  /** At most 15 digits: the lead digit and up to 14 more. */
  const MaxTrailingDigits: nat := 14

  /** The declarative shape: `+`, a digit 1-9, then 1 to 14 digits. */
  predicate IsE164(s: string) {
    && |s| >= 3 && s[0] == '+' && '1' <= s[1] <= '9'
    && |s| - 2 <= MaxTrailingDigits && AllDigits(s[2..])
  }

  /** The automaton's states: before the `+`, before the lead digit, after `n` further
      digits, or failed. */
  datatype Scan = ExpectPlus | ExpectLead | Digits(n: nat) | Reject

  function Step(st: Scan, c: char): Scan {
    match st
    case ExpectPlus => if c == '+' then ExpectLead else Reject
    case ExpectLead => if '1' <= c <= '9' then Digits(0) else Reject
    case Digits(n) => if IsDigit(c) && n < MaxTrailingDigits then Digits(n + 1) else Reject
    case Reject => Reject
  }

  function Run(st: Scan, s: string): Scan
    decreases |s|
  {
    if s == [] then st else Run(Step(st, s[0]), s[1..])
  }

  /** `e164Regex.test(phone)`: the scan ends after at least one further digit. */
  predicate IsValidPhoneNumber(phone: string) {
    var last := Run(ExpectPlus, phone);
    last.Digits? && last.n >= 1
  }

  lemma {:induction false} RejectAbsorbs(s: string)
    ensures Run(Reject, s) == Reject
    decreases |s|
  {
    if s != [] {
      RejectAbsorbs(s[1..]);
    }
  }

  /** From `n` digits, the scan survives exactly an all-digit rest that keeps the count
      within bounds. */
  lemma {:induction false} RunDigits(n: nat, s: string)
    requires n <= MaxTrailingDigits
    ensures Run(Digits(n), s) == if AllDigits(s) && n + |s| <= MaxTrailingDigits then Digits(n + |s|) else Reject
    decreases |s|
  {
    if s != [] {
      assert AllDigits(s) <==> IsDigit(s[0]) && AllDigits(s[1..]) by {
        assert forall k | 1 <= k < |s| :: s[k] == s[1..][k - 1];
      }
      if IsDigit(s[0]) && n < MaxTrailingDigits {
        RunDigits(n + 1, s[1..]);
      } else {
        RejectAbsorbs(s[1..]);
      }
    }
  }

  /** The automaton accepts exactly the E.164 shape. */
  lemma AutomatonIsE164(s: string)
    ensures IsValidPhoneNumber(s) <==> IsE164(s)
  {
    if |s| >= 2 && s[0] == '+' && '1' <= s[1] <= '9' {
      assert Run(ExpectPlus, s) == Run(ExpectLead, s[1..]);
      assert s[1..][1..] == s[2..];
      assert Run(ExpectLead, s[1..]) == Run(Digits(0), s[2..]);
      RunDigits(0, s[2..]);
    } else if |s| >= 2 && s[0] == '+' {
      assert Run(ExpectPlus, s) == Run(ExpectLead, s[1..]);
      assert s[1..][1..] == s[2..];
      assert Run(ExpectLead, s[1..]) == Run(Reject, s[2..]);
      RejectAbsorbs(s[2..]);
    } else if |s| >= 1 && s[0] != '+' {
      assert Run(ExpectPlus, s) == Run(Reject, s[1..]);
      RejectAbsorbs(s[1..]);
    } else if |s| == 1 {
      assert Run(ExpectPlus, s) == Run(ExpectLead, s[1..]);
    }
  }

  /** An accepted number has 3 to 16 characters: the `+` and 2 to 15 digits. */
  lemma AcceptedLength(s: string)
    requires IsValidPhoneNumber(s)
    ensures 3 <= |s| <= 16
    ensures forall i | 1 <= i < |s| :: IsDigit(s[i])
  {
    AutomatonIsE164(s);
    assert forall i | 2 <= i < |s| :: s[i] == s[2..][i - 2];
  }

  /** An accepted number starts with `+`, holds no white space, and its country code does
      not start with 0: a number breaking any of these is refused. */
  lemma AcceptedShape(s: string)
    ensures IsValidPhoneNumber(s) ==> |s| >= 2 && s[0] == '+' && !HasSpace(s) && s[1] != '0'
  {
    AutomatonIsE164(s);
    if IsE164(s) {
      forall i | 0 <= i < |s| ensures !IsJsSpace(s[i]) {
        if i >= 2 {
          assert s[i] == s[2..][i - 2];
        }
      }
    }
  }

  /** A documentation check, on one input only: the example number in the SMS sender's doc
      comment is accepted. The all-inputs facts are `AutomatonIsE164` and `SpanishMobileIsE164`. */
  lemma DocumentedExampleAccepted(p: string)
    requires p == "+34612345678"
    ensures IsValidPhoneNumber(p)
  {
    var s := p[3..];
    assert p == "+34" + s;
    assert IsDigit(s[0]) && IsDigit(s[1]) && IsDigit(s[2]) && IsDigit(s[3]) && IsDigit(s[4]);
    assert IsDigit(s[5]) && IsDigit(s[6]) && IsDigit(s[7]) && IsDigit(s[8]);
    assert Validation.IsNationalMobile(s);
    SpanishMobileIsE164(s);
  }

  /** Every Spanish mobile number in its `+34` form is a valid international number, while
      its bare 9-digit form is not. */
  lemma SpanishMobileIsE164(s: string)
    requires Validation.IsNationalMobile(s)
    ensures IsValidPhoneNumber("+34" + s)
    ensures !IsValidPhoneNumber(s)
  {
    var p := "+34" + s;
    AutomatonIsE164(p);
    assert forall i | 0 <= i < |p[2..]| :: p[2..][i] == (if i == 0 then '4' else s[i - 1]);
    AcceptedShape(s);
  }
}

=== FILE: stats.dfy ===
/**
 `GET /api/admin/stats`: the staff dashboard's figures over one snapshot of the
 store: status counts, the five newest bookings and messages, the per-service
 tally and the number of distinct booking timestamps in the last seven days.
 The tally is a JavaScript object filled key by key, modelled as an
 association list in insertion order.
 */
module Stats {
  import opened Text
  import opened Auth
  import opened Db
  import Collections
  import Sessions
  import Bookings
  import Contacts

  // ---- the service tally -----------------------------------------------------

  type Tally = seq<(string, nat)>

  /** `serviceStats[s] || 0`: the first entry for `s`, or 0. */
  function Lookup(t: Tally, s: string): nat
    decreases |t|
  {
    if t == [] then 0 else if t[0].0 == s then t[0].1 else Lookup(t[1..], s)
  }

  function Keys(t: Tally): set<string>
    decreases |t|
  {
    if t == [] then {} else {t[0].0} + Keys(t[1..])
  }

  /** No key occurs twice, as in an object. */
  predicate DistinctKeys(t: Tally) {
    forall i, j | 0 <= i < j < |t| :: t[i].0 != t[j].0
  }

  /** The sum of all values. */
  function Total(t: Tally): nat
    decreases |t|
  {
    if t == [] then 0 else t[0].1 + Total(t[1..])
  }

  /** `serviceStats[s] = (serviceStats[s] || 0) + 1`: bump the entry for `s`, or append
      a new entry with 1. */
  function AddOne(t: Tally, s: string): (r: Tally)
    ensures forall x :: Lookup(r, x) == Lookup(t, x) + (if x == s then 1 else 0)
    ensures Keys(r) == Keys(t) + {s}
    ensures Total(r) == Total(t) + 1
    decreases |t|
  {
    if t == [] then [(s, 1)]
    else if t[0].0 == s then
      var r := [(s, t[0].1 + 1)] + t[1..];
      assert r[1..] == t[1..];
      r
    else
      var rest := AddOne(t[1..], s);
      var r := [t[0]] + rest;
      assert r[1..] == rest;
      r
  }

  /** Bumping a key never creates a second entry for it. */
  lemma {:induction false} AddOneKeepsDistinct(t: Tally, s: string)
    requires DistinctKeys(t)
    ensures DistinctKeys(AddOne(t, s))
    decreases |t|
  {
    var r := AddOne(t, s);
    if t != [] {
      var tail := t[1..];
      assert DistinctKeys(tail) by {
        forall i, j | 0 <= i < j < |tail| ensures tail[i].0 != tail[j].0 {
          assert tail[i] == t[i + 1] && tail[j] == t[j + 1];
        }
      }
      KeysMembers(tail);
      assert forall k | 0 <= k < |tail| :: tail[k] == t[k + 1];
      assert t[0].0 !in Keys(tail);
      if t[0].0 == s {
        assert r == [(s, t[0].1 + 1)] + tail;
        forall i, j | 0 <= i < j < |r| ensures r[i].0 != r[j].0 {
          assert r[j] == tail[j - 1] && r[j].0 in Keys(tail);
          if i > 0 {
            assert r[i] == tail[i - 1];
          }
        }
      } else {
        var rest := AddOne(tail, s);
        AddOneKeepsDistinct(tail, s);
        KeysMembers(rest);
        assert r == [t[0]] + rest;
        forall i, j | 0 <= i < j < |r| ensures r[i].0 != r[j].0 {
          assert r[j] == rest[j - 1] && r[j].0 in Keys(rest);
          if i > 0 {
            assert r[i] == rest[i - 1];
          }
        }
      }
    }
  }

  /** A key is in `Keys` exactly when some entry carries it. */
  lemma {:induction false} KeysMembers(t: Tally)
    ensures forall k :: k in Keys(t) <==> exists i | 0 <= i < |t| :: t[i].0 == k
    decreases |t|
  {
    if t != [] {
      KeysMembers(t[1..]);
      forall k ensures k in Keys(t) <==> exists i | 0 <= i < |t| :: t[i].0 == k {
        if k in Keys(t[1..]) {
          var i :| 0 <= i < |t[1..]| && t[1..][i].0 == k;
          assert t[i + 1].0 == k;
        }
        if exists i | 0 <= i < |t| :: t[i].0 == k {
          var i :| 0 <= i < |t| && t[i].0 == k;
          if i > 0 {
            assert t[1..][i - 1].0 == k;
          }
        }
      }
    }
  }

  /** `services.forEach(...)` over a list of services, in order. */
  function TallyOf(xs: seq<string>): (t: Tally)
    ensures DistinctKeys(t)
    ensures Keys(t) == set x | x in xs
    decreases |xs|
  {
    if xs == [] then []
    else
      var init := TallyOf(xs[..|xs| - 1]);
      assert xs == xs[..|xs| - 1] + [xs[|xs| - 1]];
      AddOneKeepsDistinct(init, xs[|xs| - 1]);
      AddOne(init, xs[|xs| - 1])
  }

  /** Each service's tally is its number of occurrences, duplicates included. */
  lemma {:induction false} TallyCounts(xs: seq<string>, s: string)
    ensures Lookup(TallyOf(xs), s) == multiset(xs)[s]
    decreases |xs|
  {
    if xs != [] {
      TallyCounts(xs[..|xs| - 1], s);
      assert xs == xs[..|xs| - 1] + [xs[|xs| - 1]];
    }
  }

  /** The tally's values add up to the number of services counted. */
  lemma {:induction false} TallyTotal(xs: seq<string>)
    ensures Total(TallyOf(xs)) == |xs|
    decreases |xs|
  {
    if xs != [] {
      TallyTotal(xs[..|xs| - 1]);
    }
  }

  /** Every booking's services, booking after booking. */
  function AllServices(bs: seq<Booking>): (r: seq<string>)
    ensures |r| == ServiceCount(bs)
    ensures forall s :: multiset(r)[s] == Occurrences(bs, s)
    decreases |bs|
  {
    if bs == [] then [] else bs[0].services + AllServices(bs[1..])
  }

  /** The total length of all services arrays. */
  function ServiceCount(bs: seq<Booking>): nat
    decreases |bs|
  {
    if bs == [] then 0 else |bs[0].services| + ServiceCount(bs[1..])
  }

  /** How often `s` occurs across all services arrays. */
  function Occurrences(bs: seq<Booking>, s: string): nat
    decreases |bs|
  {
    if bs == [] then 0 else multiset(bs[0].services)[s] + Occurrences(bs[1..], s)
  }

  /** `serviceStats`. */
  function ServiceStats(bs: seq<Booking>): (t: Tally)
    ensures DistinctKeys(t)
    ensures forall s :: Lookup(t, s) == Occurrences(bs, s)
    ensures Total(t) == ServiceCount(bs)
  {
    var xs := AllServices(bs);
    forall s ensures Lookup(TallyOf(xs), s) == Occurrences(bs, s) {
      TallyCounts(xs, s);
    }
    TallyTotal(xs);
    TallyOf(xs)
  }

  /** Only services that occur get a key. */
  lemma ServiceStatsKeys(bs: seq<Booking>, s: string)
    ensures s in Keys(ServiceStats(bs)) <==> Occurrences(bs, s) > 0
  {
    var xs := AllServices(bs);
    assert s in xs <==> multiset(xs)[s] > 0;
  }

  // ---- the trend ---------------------------------------------------------------

  const TrendDays: nat := 7

  /** The distinct creation times at or after `since` (`groupBy: ['createdAt']`). */
  function StampsSince(bs: seq<Booking>, since: int): (r: set<int>)
    ensures forall i | 0 <= i < |bs| && bs[i].createdAt >= since :: bs[i].createdAt in r
    ensures forall t | t in r :: t >= since
    ensures |r| <= Collections.CountWhere(bs, (b: Booking) => b.createdAt >= since)
    decreases |bs|
  {
    if bs == [] then {}
    else
      var rest := StampsSince(bs[1..], since);
      assert forall i | 1 <= i < |bs| :: bs[i] == bs[1..][i - 1];
      if bs[0].createdAt >= since then {bs[0].createdAt} + rest else rest
  }

  /** Every stamp comes from a booking. */
  lemma {:induction false} StampsFromBookings(bs: seq<Booking>, since: int, t: int)
    requires t in StampsSince(bs, since)
    ensures exists i | 0 <= i < |bs| :: bs[i].createdAt == t
    decreases |bs|
  {
    if bs[0].createdAt != t {
      StampsFromBookings(bs[1..], since, t);
      var i :| 0 <= i < |bs[1..]| && bs[1..][i].createdAt == t;
      assert bs[i + 1].createdAt == t;
    }
  }

  // ---- the handler ---------------------------------------------------------------

  datatype Figures = Figures(
    total: nat,
    pending: nat,
    confirmed: nat,
    completed: nat,
    contactsTotal: nat,
    contactsNew: nat,
    recentBookings: seq<Booking>,
    recentContacts: seq<Contact>,
    serviceStats: Tally,
    bookingsTrend: nat)

  datatype StatsReply = StatsReady(stats: Figures) | StatsRefused(status: nat, message: string)

  const RecentCount: nat := 5

  function WithStatus(s: BookingStatus): Booking -> bool {
    (b: Booking) => b.status == s
  }

  function GetStats(db: Db, cookie: Option<string>, now: int): (res: (StatsReply, Db))
    ensures res.1 == Sessions.VerifySession(db, cookie, now).1
    ensures res.0.StatsReady? <==> Sessions.RequireStaff(db, cookie, now).0.Granted?
    ensures Sessions.RequireStaff(db, cookie, now).0.Refused? ==>
              res.0 == StatsRefused(Sessions.RequireStaff(db, cookie, now).0.status,
                                    Sessions.RequireStaff(db, cookie, now).0.message)
    ensures res.0.StatsReady? ==> res.0.stats == ReadyFigures(db, now)
  {
    var (g, db') := Sessions.RequireStaff(db, cookie, now);
    if g.Refused? then (StatsRefused(g.status, g.message), db')
    else (StatsReady(ReadyFigures(db, now)), db')
  }

  /** The recent list of a collection: its length and what it leaves out. */
  lemma NewestBounds<T>(xs: seq<T>, key: T -> int, r: seq<T>)
    requires r == Collections.Newest(xs, key, RecentCount)
    ensures |r| == (if |xs| < RecentCount then |xs| else RecentCount)
    ensures Collections.SortedDesc(r, key) && (forall x | x in r :: x in xs)
    ensures r != [] ==> forall x | x in xs && x !in r :: key(x) <= key(r[|r| - 1])
  {
  }

  /** The figures the dashboard shows once the caller is staff. */
  function ReadyFigures(db: Db, now: int): (f: Figures)
    ensures && f.total == |db.bookings| && f.contactsTotal == |db.contacts|
            && f.pending == Collections.CountWhere(db.bookings, WithStatus(PENDING))
            && f.confirmed == Collections.CountWhere(db.bookings, WithStatus(CONFIRMED))
            && f.completed == Collections.CountWhere(db.bookings, WithStatus(COMPLETED))
            && f.contactsNew == Collections.CountWhere(db.contacts, (c: Contact) => c.status == NEW)
            // One snapshot: the three status counts never add up to more than the total.
            && f.pending + f.confirmed + f.completed <= f.total
            && f.contactsNew <= f.contactsTotal
    // The five newest of each, newest first.
    ensures && |f.recentBookings| == (if |db.bookings| < RecentCount then |db.bookings| else RecentCount)
            && |f.recentContacts| == (if |db.contacts| < RecentCount then |db.contacts| else RecentCount)
            && Collections.SortedDesc(f.recentBookings, Bookings.CreatedKey)
            && Collections.SortedDesc(f.recentContacts, Contacts.ContactCreatedKey)
            && (forall b | b in f.recentBookings :: b in db.bookings)
            && (forall c | c in f.recentContacts :: c in db.contacts)
            && (f.recentBookings != [] ==> forall b | b in db.bookings && b !in f.recentBookings ::
                  Bookings.CreatedKey(b) <= Bookings.CreatedKey(f.recentBookings[|f.recentBookings| - 1]))
            && (f.recentContacts != [] ==> forall c | c in db.contacts && c !in f.recentContacts ::
                  Contacts.ContactCreatedKey(c) <= Contacts.ContactCreatedKey(f.recentContacts[|f.recentContacts| - 1]))
    // Each service's count is its number of occurrences, and the counts add up.
    ensures && DistinctKeys(f.serviceStats)
            && (forall s :: Lookup(f.serviceStats, s) == Occurrences(db.bookings, s))
            && Total(f.serviceStats) == ServiceCount(db.bookings)
    // The trend counts distinct timestamps of the last seven days, so at most one per booking.
    ensures && f.bookingsTrend == |StampsSince(db.bookings, now - TrendDays * MsPerDay)|
            && f.bookingsTrend <= |db.bookings|
  {
    var pending := Collections.CountWhere(db.bookings, WithStatus(PENDING));
    var confirmed := Collections.CountWhere(db.bookings, WithStatus(CONFIRMED));
    var completed := Collections.CountWhere(db.bookings, WithStatus(COMPLETED));
    Collections.DisjointCountsBounded(db.bookings, WithStatus(PENDING), WithStatus(CONFIRMED), WithStatus(COMPLETED));
    var trend := StampsSince(db.bookings, now - TrendDays * MsPerDay);
    var recentBookings := Collections.Newest(db.bookings, Bookings.CreatedKey, RecentCount);
    var recentContacts := Collections.Newest(db.contacts, Contacts.ContactCreatedKey, RecentCount);
    NewestBounds(db.bookings, Bookings.CreatedKey, recentBookings);
    NewestBounds(db.contacts, Contacts.ContactCreatedKey, recentContacts);
    Figures(
      |db.bookings|, pending, confirmed, completed,
      |db.contacts|, Collections.CountWhere(db.contacts, (c: Contact) => c.status == NEW),
      recentBookings,
      recentContacts,
      ServiceStats(db.bookings),
      |trend|)
  }
}

=== FILE: subdomain.dfy ===
/**
 lib/subdomain.ts: reading the customer subdomain from a `Host` header,
 recognising the main domain, the subdomain format, and building a
 subdomain URL. Hosts are split on `.`; a host containing `localhost` follows
 the development rule, every other host the production rule.
 */
module Subdomain {
  import opened Text
  import SessionHash

  /** `getSubdomainFromHostname`. */
  function SubdomainFromHostname(hostname: string): (r: Option<string>)
  {
    var parts := Split(hostname, '.');
    if Contains(hostname, "localhost") then
      if |parts| > 1 && parts[0] != "localhost" then Some(parts[0]) else None
    else if |parts| <= 2 then None
    else if parts[0] == "www" then None
    else Some(parts[0])
  }

  /** `getSubdomain(request)`: the same rules, written out a second time in the source,
      applied to the `host` header or `''`. */
  function GetSubdomain(host: Option<string>): (r: Option<string>)
  {
    var hostname := if host.Some? then host.value else "";
    var parts := Split(hostname, '.');
    if Contains(hostname, "localhost") then
      if |parts| > 1 && parts[0] != "localhost" then Some(parts[0]) else None
    else if |parts| <= 2 then None
    else
      var subdomain := parts[0];
      if subdomain == "www" then None else Some(subdomain)
  }

  /** The two copies agree on every host. */
  lemma GetSubdomainAgrees(host: Option<string>)
    ensures GetSubdomain(host) == SubdomainFromHostname(if host.Some? then host.value else "")
  {
  }

  /** `isMainDomain`. */
  predicate IsMainDomain(hostname: string) {
    SubdomainFromHostname(hostname).None?
  }

  /** A character occurs exactly when it is counted. */
  lemma {:induction false} CountCharIn(s: string, c: char)
    ensures CountChar(s, c) > 0 <==> c in s
    decreases |s|
  {
    if s != [] {
      CountCharIn(s[1..], c);
      assert s == [s[0]] + s[1..];
    }
  }

  /** The first piece of a split is a given dot-free word exactly when the host is that
      word, or that word followed by a dot. */
  lemma FirstLabelIs(h: string, w: string)
    requires '.' !in w
    ensures Split(h, '.')[0] == w <==> (h == w || StartsWith(h, w + "."))
  {
    SplitShape(h, '.');
    var p := Split(h, '.')[0];
    assert forall k | 0 <= k < |p| :: p[k] == h[k] && p[k] != '.';
    assert forall k | 0 <= k < |w| :: w[k] != '.';
    if StartsWith(h, w + ".") {
      assert forall k | 0 <= k < |w| :: h[k] == w[k];
      assert h[|w|] == '.';
      assert |p| <= |w|;
      assert |p| >= |w|;
      assert p == w;
    }
    if p == w && h != w {
      assert |p| < |h|;
      assert h[..|w| + 1] == w + ".";
    }
  }

  /** The subdomain is the whole first label of the host, and a dot follows it. */
  lemma SubdomainIsFirstLabel(h: string)
    ensures var r := SubdomainFromHostname(h);
            r.Some? ==> '.' !in r.value && StartsWith(h, r.value + ".")
  {
    SplitShape(h, '.');
    CountCharIn(h, '.');
    var parts := Split(h, '.');
    if |parts| > 1 {
      FirstLabelIs(h, parts[0]);
    }
  }

  /** A development host has a subdomain unless it has no dot or starts with `localhost.`. */
  lemma DevelopmentSubdomain(h: string)
    requires Contains(h, "localhost")
    ensures SubdomainFromHostname(h).None? <==> CountChar(h, '.') == 0 || StartsWith(h, "localhost.")
  {
    SplitShape(h, '.');
    CountCharIn(h, '.');
    FirstLabelIs(h, "localhost");
  }

  /** Any other host has a subdomain unless it has at most one dot or starts with `www.`. */
  lemma ProductionSubdomain(h: string)
    requires !Contains(h, "localhost")
    ensures SubdomainFromHostname(h).None? <==> CountChar(h, '.') <= 1 || StartsWith(h, "www.")
  {
    SplitShape(h, '.');
    CountCharIn(h, '.');
    FirstLabelIs(h, "www");
  }

  /** `isValidSubdomainFormat`: `^[a-zA-Z0-9_-]{8}$`. */
  predicate IsValidSubdomainFormat(subdomain: string) {
    |subdomain| == 8
    && forall i | 0 <= i < |subdomain| ::
         IsLower(subdomain[i]) || IsUpper(subdomain[i]) || IsDigit(subdomain[i])
         || subdomain[i] == '_' || subdomain[i] == '-'
  }

  /** The subdomain format is the access-hash format. */
  lemma SubdomainFormatIsHashFormat(s: string)
    ensures IsValidSubdomainFormat(s) <==> SessionHash.IsValidHashFormat(s)
  {
  }

  /** The host an absolute URL `scheme://host/path` names: the piece between the `//`
      and the next `/`. */
  function UrlHost(url: string): string {
    var parts := Split(url, '/');
    if |parts| > 2 then parts[2] else ""
  }

  /** A path that does not run on into the host: empty or starting with `/`. */
  predicate SeparatePath(path: Option<string>) {
    path.None? || path.value == [] || path.value[0] == '/'
  }

  /** `constructSubdomainUrl(subdomain, path = '/')`. Both branches of the source build
      the same string. The URL names the host `subdomain.base` whenever neither the
      subdomain nor the base domain holds a `/` and the path does not run on into it. */
  function ConstructSubdomainUrl(env: SessionHash.Env, subdomain: string, path: Option<string>): (url: string)
    ensures StartsWith(url, SessionHash.Protocol(env) + "://")
    // The path, `/` by default, ends the URL.
    ensures EndsWith(url, if path.Some? then path.value else "/")
    ensures '/' !in subdomain && '/' !in SessionHash.BaseDomain(env) && SeparatePath(path) ==>
              UrlHost(url) == subdomain + "." + SessionHash.BaseDomain(env)
  {
    var p := if path.Some? then path.value else "/";
    var base := SessionHash.BaseDomain(env);
    var protocol := SessionHash.Protocol(env);
    var url := if Contains(base, "localhost") then protocol + "://" + subdomain + "." + base + p
               else protocol + "://" + subdomain + "." + base + p;
    assert url[..|protocol + "://"|] == protocol + "://";
    assert url[|url| - |p|..] == p;
    if '/' !in subdomain && '/' !in base && SeparatePath(path) then
      assert url == protocol + "://" + (subdomain + "." + base) + p;
      UrlHostOf(protocol, subdomain + "." + base, p);
      url
    else url
  }

  /** The host of `protocol://host` followed by a path that starts with `/` or is empty. */
  lemma UrlHostOf(protocol: string, host: string, p: string)
    requires '/' !in protocol && '/' !in host && (p == [] || p[0] == '/')
    ensures UrlHost(protocol + "://" + host + p) == host
  {
    var url := protocol + "://" + host + p;
    assert '/' !in protocol + ":" by {
      assert forall c | c in protocol + ":" :: c in protocol || c == ':';
    }
    assert url == (protocol + ":") + ['/'] + ([] + ['/'] + (host + p));
    SplitAfter(protocol + ":", [] + ['/'] + (host + p), '/');
    SplitAfter([], host + p, '/');
    if p == [] {
      assert host + p == host;
      SplitNoSep(host, '/');
    } else {
      assert host + p == host + ['/'] + p[1..];
      SplitAfter(host, p[1..], '/');
    }
  }

  /** Building a subdomain URL and reading the subdomain back from its host gives the
      subdomain again, for a well-formed subdomain and a base domain that is either a
      development `localhost` host or has a dot in it. */
  lemma ConstructThenRead(env: SessionHash.Env, subdomain: string, path: Option<string>)
    requires IsValidSubdomainFormat(subdomain) && SeparatePath(path)
    requires '/' !in SessionHash.BaseDomain(env)
    requires '.' in SessionHash.BaseDomain(env) || Contains(SessionHash.BaseDomain(env), "localhost")
    ensures SubdomainFromHostname(UrlHost(ConstructSubdomainUrl(env, subdomain, path))) == Some(subdomain)
  {
    var base := SessionHash.BaseDomain(env);
    var host := subdomain + "." + base;
    assert '/' !in subdomain && '.' !in subdomain by {
      forall c | c in subdomain ensures c != '/' && c != '.' {
        var i :| 0 <= i < |subdomain| && subdomain[i] == c;
      }
    }
    assert UrlHost(ConstructSubdomainUrl(env, subdomain, path)) == host;
    assert host == subdomain + ['.'] + base;
    SplitAfter(subdomain, base, '.');
    var parts := Split(host, '.');
    assert parts[0] == subdomain && parts[1..] == Split(base, '.');
    assert subdomain != "localhost" && subdomain != "www" by {
      assert |subdomain| == 8;
    }
    if Contains(base, "localhost") {
      ContainsSuffix(subdomain + ".", base, "localhost");
      assert subdomain + "." + base == host;
    } else {
      SplitShape(base, '.');
      CountCharIn(base, '.');
    }
  }

  /** A text found in the tail is found in the whole. */
  lemma {:induction false} ContainsSuffix(a: string, b: string, sub: string)
    requires Contains(b, sub)
    ensures Contains(a + b, sub)
    decreases |a|
  {
    if a == [] {
      assert a + b == b;
    } else {
      assert (a + b)[1..] == a[1..] + b;
      ContainsSuffix(a[1..], b, sub);
    }
  }
}

=== FILE: text.dfy ===
/**
 This module holds the string vocabulary shared by every other module: the
 character classes the source's regular expressions use, JavaScript's
 `trim`/`toLowerCase`/`split`/`includes`, and an Option type.
 Strings are `seq<char>`; characters are Unicode scalar values.
 */
module Text {

  datatype Option<+T> = None | Some(value: T)

  predicate IsDigit(c: char) { '0' <= c <= '9' }
  predicate IsUpper(c: char) { 'A' <= c <= 'Z' }
  predicate IsLower(c: char) { 'a' <= c <= 'z' }

  /** The characters JavaScript's `\s` class and `String.prototype.trim` treat as white space. */
  predicate IsJsSpace(c: char) {
    || c == '\t' || c == '\n' || c == '\U{000B}' || c == '\U{000C}' || c == '\r' || c == ' '
    || c == '\U{00A0}' || c == '\U{1680}' || ('\U{2000}' <= c <= '\U{200A}')
    || c == '\U{2028}' || c == '\U{2029}' || c == '\U{202F}' || c == '\U{205F}'
    || c == '\U{3000}' || c == '\U{FEFF}'
  }

  predicate AllDigits(s: string) {
    forall i | 0 <= i < |s| :: IsDigit(s[i])
  }

  predicate HasSpace(s: string) {
    exists i | 0 <= i < |s| :: IsJsSpace(s[i])
  }

  /** JavaScript truthiness of an optional string field: present and non-empty. */
  predicate Present(o: Option<string>) {
    o.Some? && o.value != ""
  }

  predicate StartsWith(s: string, prefix: string) {
    |prefix| <= |s| && s[..|prefix|] == prefix
  }

  predicate EndsWith(s: string, suffix: string) {
    |suffix| <= |s| && s[|s| - |suffix|..] == suffix
  }

  /** `s.includes(sub)`: some window of `s` equals `sub`. */
  predicate Contains(s: string, sub: string)
    decreases |s|
  {
    StartsWith(s, sub) || (|s| > 0 && Contains(s[1..], sub))
  }

  function LowerChar(c: char): char {
    if IsUpper(c) then (c as int + 32) as char else c
  }

  /** `toLowerCase`, restricted to the ASCII letters. */
  function ToLower(s: string): (r: string)
    ensures |r| == |s|
    ensures forall i | 0 <= i < |s| :: r[i] == LowerChar(s[i])
  {
    seq(|s|, i requires 0 <= i < |s| => LowerChar(s[i]))
  }

  function TrimStart(s: string): (r: string)
    ensures |r| <= |s| && r == s[|s| - |r|..]
    ensures r == [] || !IsJsSpace(r[0])
    decreases |s|
  {
    if |s| > 0 && IsJsSpace(s[0]) then TrimStart(s[1..]) else s
  }

  function TrimEnd(s: string): (r: string)
    ensures |r| <= |s| && r == s[..|r|]
    ensures r == [] || !IsJsSpace(r[|r| - 1])
    decreases |s|
  {
    if |s| > 0 && IsJsSpace(s[|s| - 1]) then TrimEnd(s[..|s| - 1]) else s
  }

  /** `trim`: remove leading and trailing white space. */
  function Trim(s: string): (r: string)
  {
    TrimEnd(TrimStart(s))
  }

  /** The trimmed string is a window of the input with no white space at either end. */
  lemma TrimIsWindow(s: string)
    ensures exists i, j | 0 <= i <= j <= |s| :: Trim(s) == s[i..j]
    ensures Trim(s) == [] || (!IsJsSpace(Trim(s)[0]) && !IsJsSpace(Trim(s)[|Trim(s)| - 1]))
  {
    var a := TrimStart(s);
    var i := |s| - |a|;
    var b := TrimEnd(a);
    assert Trim(s) == b;
    assert b == a[..|b|];
    assert a[..|b|] == s[i..i + |b|];
    assert 0 <= i <= i + |b| <= |s|;
    if b != [] {
      assert b[0] == a[0];
      assert !IsJsSpace(a[0]);
      assert !IsJsSpace(b[|b| - 1]);
    }
  }

  lemma {:induction false} TrimStartNoop(s: string)
    requires s == [] || !IsJsSpace(s[0])
    ensures TrimStart(s) == s
  {
  }

  lemma {:induction false} TrimEndNoop(s: string)
    requires s == [] || !IsJsSpace(s[|s| - 1])
    ensures TrimEnd(s) == s
  {
  }

  /** Trimming twice is trimming once. */
  lemma TrimIdempotent(s: string)
    ensures Trim(Trim(s)) == Trim(s)
  {
    var t := Trim(s);
    TrimIsWindow(s);
    TrimStartNoop(t);
    TrimEndNoop(t);
  }

  /** A string without white space is its own trim. */
  lemma TrimNoSpace(s: string)
    requires !HasSpace(s)
    ensures Trim(s) == s
  {
    if s != [] {
      assert !IsJsSpace(s[0]);
      assert !IsJsSpace(s[|s| - 1]);
    }
    TrimStartNoop(s);
    TrimEndNoop(s);
  }

  /** `s.replace(/\s/g, '')`: drop every white-space character. */
  function RemoveSpaces(s: string): (r: string)
    ensures !HasSpace(r)
    ensures |r| <= |s|
    ensures !HasSpace(s) ==> r == s
    decreases |s|
  {
    if s == [] then []
    else if IsJsSpace(s[0]) then RemoveSpaces(s[1..])
    else
      var rest := RemoveSpaces(s[1..]);
      assert !HasSpace(s) ==> !HasSpace(s[1..]) by {
        if !HasSpace(s) {
          forall i | 0 <= i < |s[1..]| ensures !IsJsSpace(s[1..][i]) {
            assert s[1..][i] == s[i + 1];
          }
        }
      }
      var r := [s[0]] + rest;
      assert forall i | 0 < i < |r| :: r[i] == rest[i - 1];
      r
  }

  /** `parts.join(sep)`. */
  function Join(parts: seq<string>, sep: string): string
    decreases |parts|
  {
    if parts == [] then []
    else if |parts| == 1 then parts[0]
    else parts[0] + sep + Join(parts[1..], sep)
  }

  /** `s.split(sep)`: the pieces between occurrences of `sep`. */
  function Split(s: string, sep: char): (parts: seq<string>)
    ensures |parts| >= 1
    decreases |s|
  {
    if s == [] then [[]]
    else
      var tail := Split(s[1..], sep);
      if s[0] == sep then [[]] + tail
      else [[s[0]] + tail[0]] + tail[1..]
  }

  function CountChar(s: string, c: char): nat
    decreases |s|
  {
    if s == [] then 0 else (if s[0] == c then 1 else 0) + CountChar(s[1..], c)
  }

  /** The number of pieces is one more than the number of separators, and
      the first piece is the text before the first separator. */
  lemma {:induction false} SplitShape(s: string, sep: char)
    ensures |Split(s, sep)| == CountChar(s, sep) + 1
    ensures sep !in Split(s, sep)[0]
    ensures StartsWith(s, Split(s, sep)[0])
    ensures |Split(s, sep)[0]| < |s| ==> s[|Split(s, sep)[0]|] == sep
    decreases |s|
  {
    if s != [] {
      SplitShape(s[1..], sep);
    }
  }

  /** Text without the separator is one piece. */
  lemma {:induction false} SplitNoSep(a: string, sep: char)
    requires sep !in a
    ensures Split(a, sep) == [a]
    decreases |a|
  {
    if a != [] {
      assert sep !in a[1..] by {
        assert forall c | c in a[1..] :: c in a;
      }
      SplitNoSep(a[1..], sep);
      assert [a[0]] + a[1..] == a;
    }
  }

  /** Text without the separator, then the separator, splits into that text followed by
      the pieces of the rest. */
  lemma {:induction false} SplitAfter(a: string, b: string, sep: char)
    requires sep !in a
    ensures Split(a + [sep] + b, sep) == [a] + Split(b, sep)
    decreases |a|
  {
    var s := a + [sep] + b;
    if a == [] {
      assert s[1..] == b;
    } else {
      assert s[0] == a[0] && s[1..] == a[1..] + [sep] + b;
      assert sep !in a[1..] by {
        assert forall c | c in a[1..] :: c in a;
      }
      SplitAfter(a[1..], b, sep);
      assert [a[0]] + a[1..] == a;
    }
  }

  /** Decimal rendering of a natural number (`Number.prototype.toString`). */
  function DecimalString(n: nat): (r: string)
    ensures |r| >= 1
    ensures AllDigits(r)
    decreases n
  {
    var d := [('0' as int + n % 10) as char];
    if n < 10 then d else DecimalString(n / 10) + d
  }

  /** A number in [10^(k-1), 10^k) renders as exactly k digits, the first non-zero. */
  lemma {:induction false} DecimalStringLength(n: nat, k: nat)
    requires k >= 1 && Pow10(k - 1) <= n < Pow10(k)
    ensures |DecimalString(n)| == k
    ensures DecimalString(n)[0] != '0'
    decreases k
  {
    if k > 1 {
      DecimalStringLength(n / 10, k - 1);
    }
  }

  function Pow10(k: nat): (r: nat)
    ensures r >= 1
  {
    if k == 0 then 1 else 10 * Pow10(k - 1)
  }
}

=== FILE: validation.dfy ===
/**
 The request validators the API routes share: the email pattern
 `^[^\s@]+@[^\s@]+\.[^\s@]+$`, the Spanish mobile pattern
 `^(\+34)?[6-9]\d{8}$` applied after removing white space, the six-digit
 code pattern, the service whitelist, the length caps, and `sanitize`
 (`replace(/<[^>]*>/g, '').trim()`).
 */
module Validation {
  import opened Text

  // ---- email -----------------------------------------------------------------

  /** The class `[^\s@]`, repeated. */
  predicate NoSpaceOrAt(s: string) {
    forall i | 0 <= i < |s| :: !IsJsSpace(s[i]) && s[i] != '@'
  }

  /** `^[^\s@]+@[^\s@]+\.[^\s@]+$`: some `@` at `i` and `.` at `j` split the string into
      three non-empty runs free of white space and `@`. */
  predicate IsEmail(s: string) {
    exists i, j | 0 < i && i + 1 < j && j + 1 < |s| ::
      s[i] == '@' && s[j] == '.' && NoSpaceOrAt(s[..i]) && NoSpaceOrAt(s[i + 1..j]) && NoSpaceOrAt(s[j + 1..])
  }

  /** An accepted email has no white space and exactly one `@`, which is not its first character. */
  lemma EmailShape(s: string)
    requires IsEmail(s)
    ensures !HasSpace(s)
    ensures exists i | 0 < i < |s| :: s[i] == '@' && forall k | 0 <= k < |s| && k != i :: s[k] != '@'
  {
    var i, j :| 0 < i && i + 1 < j && j + 1 < |s| && s[i] == '@' && s[j] == '.'
                && NoSpaceOrAt(s[..i]) && NoSpaceOrAt(s[i + 1..j]) && NoSpaceOrAt(s[j + 1..]);
    forall k | 0 <= k < |s| && k != i ensures !IsJsSpace(s[k]) && s[k] != '@' {
      if k < i {
        assert s[..i][k] == s[k];
      } else if k < j {
        assert s[i + 1..j][k - i - 1] == s[k];
      } else if k > j {
        assert s[j + 1..][k - j - 1] == s[k];
      }
    }
  }

  /** Conversely, a string without white space whose only `@` is preceded by something
      and followed by a `.` that is neither adjacent to it nor last is accepted. */
  lemma EmailFromShape(s: string, i: nat, j: nat)
    requires !HasSpace(s)
    requires 0 < i && i + 1 < j && j + 1 < |s| && s[i] == '@' && s[j] == '.'
    requires forall k | 0 <= k < |s| && k != i :: s[k] != '@'
    ensures IsEmail(s)
  {
    assert NoSpaceOrAt(s[..i]) by {
      forall k | 0 <= k < i ensures !IsJsSpace(s[..i][k]) && s[..i][k] != '@' {
        assert s[..i][k] == s[k];
      }
    }
    var mid, last := s[i + 1..j], s[j + 1..];
    assert NoSpaceOrAt(mid) by {
      forall k | 0 <= k < |mid| ensures !IsJsSpace(mid[k]) && mid[k] != '@' {
        assert mid[k] == s[i + 1 + k];
      }
    }
    assert NoSpaceOrAt(last) by {
      forall k | 0 <= k < |last| ensures !IsJsSpace(last[k]) && last[k] != '@' {
        assert last[k] == s[j + 1 + k];
      }
    }
  }

  /** Lower-casing an accepted email never introduces white space, so the stored
      `email.toLowerCase().trim()` is the same string as the looked-up `email.toLowerCase()`. */
  lemma EmailLowerTrim(s: string)
    requires IsEmail(s)
    ensures Trim(ToLower(s)) == ToLower(s)
  {
    EmailShape(s);
    var l := ToLower(s);
    forall k | 0 <= k < |l| ensures !IsJsSpace(l[k]) {
      assert l[k] == LowerChar(s[k]);
    }
    TrimNoSpace(l);
  }

  // ---- phone and code --------------------------------------------------------

  /** `[6-9]\d{8}`. */
  predicate IsNationalMobile(s: string) {
    |s| == 9 && '6' <= s[0] <= '9' && AllDigits(s)
  }

  /** `^(\+34)?[6-9]\d{8}$`. */
  predicate IsSpanishPhone(s: string) {
    IsNationalMobile(s) || (|s| == 12 && s[..3] == "+34" && IsNationalMobile(s[3..]))
  }

  /** `phone.replace(/\s/g, '')`. */
  function CleanPhone(phone: string): (p: string)
    ensures !HasSpace(p) && |p| <= |phone|
  {
    RemoveSpaces(phone)
  }

  /** An accepted phone is 9 or 12 characters and carries no white space; the prefixed and the
      bare form of the same number are different strings. */
  lemma SpanishPhoneShape(s: string)
    requires IsSpanishPhone(s)
    ensures |s| == 9 || |s| == 12
    ensures !HasSpace(s)
    ensures IsNationalMobile(s) ==> s != "+34" + s
  {
  }

  /** `^\d{6}$`. */
  predicate IsSixDigitCode(s: string) {
    |s| == 6 && AllDigits(s)
  }

  // ---- services and caps -----------------------------------------------------

  const ValidServices: seq<string> := ["vehiculos", "entradas", "ventanas", "pack"]

  /** `services.filter(s => !validServices.includes(s))` is empty. */
  predicate AllServicesValid(services: seq<string>) {
    forall i | 0 <= i < |services| :: services[i] in ValidServices
  }

  const NameCap: nat := 100
  const AddressCap: nat := 500
  const NotesCap: nat := 1000
  const MessageCap: nat := 2000
  const SearchCap: nat := 100

  // ---- sanitize --------------------------------------------------------------

  /** No `<` is followed, anywhere later, by a `>`: nothing the tag pattern could match. */
  predicate NoTag(s: string) {
    forall i, j | 0 <= i < j < |s| :: !(s[i] == '<' && s[j] == '>')
  }

  function IndexOf(s: string, c: char): (k: nat)
    requires c in s
    ensures k < |s| && s[k] == c && c !in s[..k]
  {
    if s[0] == c then 0
    else
      var k := IndexOf(s[1..], c) + 1;
      assert s[..k] == [s[0]] + s[1..][..k - 1];
      k
  }

  /** Whatever occurs in a suffix occurs in the whole. */
  lemma SuffixChars(s: string, k: nat)
    requires k <= |s|
    ensures forall c | c in s[k..] :: c in s
  {
    forall c | c in s[k..] ensures c in s {
      var n :| 0 <= n < |s[k..]| && s[k..][n] == c;
      assert s[k + n] == c;
    }
  }

  /** Putting a character in front of tag-free text keeps it tag-free unless a `<` meets a
      later `>`. */
  lemma NoTagCons(c: char, rest: string)
    requires NoTag(rest) && (c == '<' ==> '>' !in rest)
    ensures NoTag([c] + rest)
  {
    var r := [c] + rest;
    forall i, j | 0 <= i < j < |r| ensures !(r[i] == '<' && r[j] == '>') {
      assert r[j] == rest[j - 1];
      if i > 0 {
        assert r[i] == rest[i - 1];
      }
    }
  }

  /** `replace(/<[^>]*>/g, '')`: scanning left to right, each `<` that has a `>` after it is
      deleted together with everything up to the first such `>`; a `<` without one stays. */
  function StripTags(s: string): (r: string)
    ensures |r| <= |s|
    ensures forall k | 0 <= k < |r| :: r[k] in s
    ensures NoTag(r)
    // Text with no `<`, or with no `>`, holds no tag and comes back unchanged.
    ensures '<' !in s || '>' !in s ==> r == s
    decreases |s|
  {
    if s == [] then []
    else if s[0] == '<' && '>' in s then
      var k := IndexOf(s, '>');
      var rest := StripTags(s[k + 1..]);
      SuffixChars(s, k + 1);
      rest
    else
      var rest := StripTags(s[1..]);
      SuffixChars(s, 1);
      assert s[0] == '<' ==> '>' !in rest;
      NoTagCons(s[0], rest);
      var r := [s[0]] + rest;
      assert forall m | 1 <= m < |r| :: r[m] == rest[m - 1];
      assert '<' !in s || '>' !in s ==> r == [s[0]] + s[1..] == s;
      r
  }

  /** A tag `<…>` after text without `<` is removed whole, and the text before it survives:
      the pattern's first match starts at that `<` and ends at the first `>` after it. */
  lemma {:induction false} StripTagsRemovesTag(x: string, t: string, y: string)
    requires '<' !in x && '>' !in t
    ensures StripTags(x + ['<'] + t + ['>'] + y) == x + StripTags(y)
    decreases |x|
  {
    var s := x + ['<'] + t + ['>'] + y;
    if x == [] {
      assert s == ['<'] + t + ['>'] + y;
      StripTagsAtTag(t, y);
    } else {
      assert s[0] == x[0] && s[0] != '<';
      assert s[1..] == x[1..] + ['<'] + t + ['>'] + y;
      assert '<' !in x[1..] by {
        assert forall c | c in x[1..] :: c in x;
      }
      StripTagsRemovesTag(x[1..], t, y);
      StripTagsPlainHead(s);
      ConsAppend(x, StripTags(y));
    }
  }

  lemma ConsAppend(x: string, a: string)
    requires x != []
    ensures [x[0]] + (x[1..] + a) == x + a
  {
    assert [x[0]] + x[1..] == x;
  }

  /** A first character other than `<` is kept. */
  lemma StripTagsPlainHead(s: string)
    requires s != [] && s[0] != '<'
    ensures StripTags(s) == [s[0]] + StripTags(s[1..])
  {
  }

  /** Text that opens with a tag loses the tag. */
  lemma StripTagsAtTag(t: string, y: string)
    requires '>' !in t
    ensures StripTags(['<'] + t + ['>'] + y) == StripTags(y)
  {
    var s := ['<'] + t + ['>'] + y;
    var n := |t| + 1;
    assert s[n] == '>' && s[n + 1..] == y;
    assert s[..n] == ['<'] + t;
    FirstAt(s, '>', n);
  }

  /** The first occurrence is where the character occurs with none before it. */
  lemma FirstAt(s: string, c: char, n: nat)
    requires n < |s| && s[n] == c && c !in s[..n]
    ensures c in s && IndexOf(s, c) == n
  {
    var k := IndexOf(s, c);
    assert forall m | 0 <= m < n :: s[..n][m] == s[m];
    assert forall m | 0 <= m < k :: s[..k][m] == s[m];
  }

  /** Text with nothing to strip is left as it is. */
  lemma {:induction false} StripTagsNoop(s: string)
    requires NoTag(s)
    ensures StripTags(s) == s
    decreases |s|
  {
    if s != [] {
      assert NoTag(s[1..]) by {
        forall i, j | 0 <= i < j < |s[1..]| ensures !(s[1..][i] == '<' && s[1..][j] == '>') {
          assert s[1..][i] == s[i + 1] && s[1..][j] == s[j + 1];
        }
      }
      StripTagsNoop(s[1..]);
    }
  }

  /** Any window of tag-free text is tag-free. */
  lemma NoTagWindow(s: string, i: nat, j: nat)
    requires NoTag(s) && i <= j <= |s|
    ensures NoTag(s[i..j])
  {
    forall a, b | 0 <= a < b < j - i ensures !(s[i..j][a] == '<' && s[i..j][b] == '>') {
      assert s[i..j][a] == s[i + a] && s[i..j][b] == s[i + b];
    }
  }

  /** `sanitize`. */
  function Sanitize(s: string): (r: string)
    ensures NoTag(r)
    ensures |r| <= |s|
    ensures r == [] || (!IsJsSpace(r[0]) && !IsJsSpace(r[|r| - 1]))
    // Text holding no tag only loses its outer white space.
    ensures '<' !in s || '>' !in s ==> r == Trim(s)
  {
    var t := StripTags(s);
    TrimIsWindow(t);
    var i, j :| 0 <= i <= j <= |t| && Trim(t) == t[i..j];
    NoTagWindow(t, i, j);
    Trim(t)
  }

  /** Sanitizing removes a tag and keeps the text on both sides of it, up to the outer
      white space that `trim` drops. */
  lemma SanitizeRemovesTag(x: string, t: string, y: string)
    requires '<' !in x && '>' !in t && '<' !in y
    ensures Sanitize(x + ['<'] + t + ['>'] + y) == Trim(x + y)
  {
    StripTagsRemovesTag(x, t, y);
  }

  /** Sanitizing twice is sanitizing once. */
  lemma SanitizeIdempotent(s: string)
    ensures Sanitize(Sanitize(s)) == Sanitize(s)
  {
    var t := Sanitize(s);
    StripTagsNoop(t);
    TrimIdempotent(StripTags(s));
  }

  /** Since sanitizing never lengthens, a field that met its cap before still meets it when stored. */
  lemma SanitizeKeepsCap(s: string, cap: nat)
    requires |s| <= cap
    ensures |Sanitize(s)| <= cap
  {
  }
}
